=== FILE: README.md ===
# lefschetz-family: combinatorial core in Dafny

lefschetz-family computes the periods and monodromy of hypersurfaces and
double covers. It works with Lefschetz fibrations: it picks a basepoint, builds
a Voronoi graph around the critical values of the fibration, and writes a
loop around each critical value as a walk in that graph. It then integrates
the Picard–Fuchs operator along every edge. It composes the edge matrices
along each loop, and classifies the monodromy matrices it gets.

This project models the exact, combinatorial layer of that pipeline. The
numerics, the Sage algebra and the Voronoi library are inputs.

- `Base`: the shared vocabulary. It holds `Option`, `Result` and the
  exception kinds, `list.index`, `reversed`, `s[:-1]`, rotations, and a
  fallible map.
- `Rationals`, `ContinuedFractions`: the continued-fraction approximation
  `Util.simple_rational` and its evaluator `Util.evaluate_continued_fraction`,
  over exact fractions.
- `Bezout`: `Util.xgcd_list`, the Bézout coefficients of a list.
- `Permutations`: `Util.invert_permutation`.
- `Paths`: `Util.simplify_path`, the removal of repeats and backtracks.
- `Geometry`: `Util.select_closest`, `Util.select_closest_index` and the
  orientation test `Util.is_clockwise`.
- `Undirected`: edge lists de-duplicated up to orientation.
- `VoronoiCells`, `VoronoiLoops`, `VoronoiSort`: `FundamentalGroupVoronoi`.
  This covers the bounding box and border seeds, and the vertex and edge
  lists of `polygons` and `edges`. It covers the chaining of each cell into
  a closed walk in `loops`, the anchoring in `loop_points`, and
  `pointed_loops`. It also covers `minimal_tree`, `_sort_loops_rec` and the
  lockstep reordering of `sort_loops`.
- `Integrator`: `Integrator.transition_matrices` over an abstract group. It
  also covers the gathering of `integrated_edges` and the precision-doubling
  retry loop of `_integrate_edge`, with the numerical integrator as an
  oracle.
- `Elliptic`: `EllipticSingularities`. This covers the normal forms
  `classes`, the words `fibre_confluence` over `U` and `V`, the trace
  dispatch of `monodromy_class`, and the sign fix of `normalize_Iv` and
  `normalize_Ivstar`.
- `DoubleCover`: a narrow slice of `DoubleCover`. It covers the
  transition-matrix memo and its reset, `holomorphic_forms`,
  `_restriction_variable`, the shape of the thimble intersection matrix,
  `basepoint`, `fibre_class` and `section`.

Python exceptions are `Err` values of the same kind (`IndexError`,
`ValueError`, `ZeroDivisionError`, `AttributeError`, a failed `assert`).
Sage's 500-bit floats become exact rationals or reals. Distances are
compared by squared modulus, which orders points the same way as `abs`.
Calls into code outside the model are parameters. These are the numerical
integrator, `find_conjugation`, image bases, `solve_right`, the spanning
tree, tree distances and the angular order of neighbours.

## Model

| member | source | states |
|---|---|---|
| ContinuedFractions.EvaluateContinuedFraction | Util.py:36-43 | The right-to-left loop computes the left-to-right definition `l[0] + 1/(l[1] + 1/(...))`: IndexError on an empty list, ZeroDivisionError when a partial value is 0 |
| ContinuedFractions.EvalErrorPropagates | Util.py:38-42 | A failing evaluation of any suffix is the result of the whole evaluation |
| ContinuedFractions.EvalWithSplit | Util.py:30-32 | Replacing the complete quotient `a + 1/y` by the term `a` followed by the complete quotient `y` keeps the value |
| ContinuedFractions.EvalWithIntegral | Util.py:30-33 | When the complete quotient is an integer, the term list ending in it evaluates to the exact value |
| ContinuedFractions.RegularEvaluates | Util.py:36-43 | A list whose terms after the first are at least 1 evaluates without division by zero |
| ContinuedFractions.Expand | Util.py:28-32 | The `while` loop terminates for every `r >= 0`, keeps the terms already found, and stops with a regular list whose value is within `r` of `p` |
| ContinuedFractions.Terms | Util.py:28-32 | The list starts with `floor(p)`, is regular, and evaluates within `r` of `p` |
| ContinuedFractions.SimpleRational | Util.py:26-33 | Returns a `q` with `abs(p - q) <= r` exactly when `r >= 0`; `q` is the value of a term list that starts with `floor(p)`; `r >= 1` gives `floor(p)`, and an integer `p` is returned unchanged |
| Rationals.FloorBounds | Util.py:29 | `floor(q) <= q < floor(q) + 1` |
| Rationals.ComplementStep | Util.py:31 | The next complete quotient `1/(x - floor(x))` is a fraction greater than 1 with a smaller denominator, so the expansion terminates |
| Rationals.SubScaled | src/lefschetz_family/doubleCover.py:760 | The fraction for `a - k*b` has that value |
| Permutations.IndicesUpTo | Util.py:48 | `[l.index(x) for x in range(k)]` succeeds exactly when each `x < k` occurs, and then holds the first position of each `x` |
| Permutations.InvertPermutation | Util.py:46-48 | Fails with ValueError exactly when some `x < len(l)` is missing; otherwise `l[r[x]] == x`, and for a permutation `r[l[i]] == i` |
| Permutations.FirstIndexInPermutation | Util.py:48 | In a permutation the first position of `l[i]` is `i` |
| Permutations.InvertTwice | Util.py:46-48 | The inverse of a permutation is a permutation, and inverting it again gives back `l` |
| Paths.SubsequenceByDeletion | Util.py:59-63 | Deleting a block of entries leaves a subsequence |
| Paths.SubsequenceTransitive | Util.py:54-67 | A subsequence of a subsequence is a subsequence |
| Paths.DeletionStep | Util.py:58-65 | One deletion of a repeat or a backtrack keeps the first and last vertex, keeps the clean prefix behind the stepped-back cursor, and yields a subsequence |
| Paths.SimplifyFrom | Util.py:54-67 | The loop terminates, and leaves a reduced subsequence with the same ends that is no longer than its input; a reduced input is left unchanged |
| Paths.SimplifyPath | Util.py:51-68 | At every interior position `1 <= i <= len - 2` the result has no repeat `res[i-1] == res[i]` and no backtrack `res[i-1] == res[i+1]` (a repeat of the last two vertices survives, since the loop never compares them); the result is a subsequence of `p` with the same first and last vertex, and equals `p` when `p` is already reduced in that sense |
| Paths.SimplifyIdempotent | Util.py:51-68 | Simplifying twice is simplifying once |
| Bezout.Xgcd | Util.py:85 | An extended Euclid standing in for Sage's `xgcd(a, b)`: a non-negative common divisor `g = a*s + b*t` |
| Bezout.XgcdStep | Util.py:85 | A Bézout identity for `(b, a mod b)` gives one for `(a, b)` |
| Bezout.XgcdDivisors | Util.py:85 | The divisors of `xgcd(a, b)[0]` are exactly the common divisors of `a` and `b` |
| Bezout.GcdUnique | Util.py:80-88 | Two non-negative gcds of the same list are equal, so the `assert d2 == d` holds |
| Bezout.CombinationScale | Util.py:86 | Scaling every coefficient by `u` scales the combination by `u` |
| Bezout.XgcdList | Util.py:75-89 | `(0, [])` for the empty list and `(l[0], [1])` for one entry; otherwise one coefficient per entry with `sum(coeff[i]*l[i]) == d` and `d` the gcd of the list |
| Geometry.ClosestIndexFrom | Util.py:122-124 | Continuing the scan with the best index so far yields the first index of minimal distance |
| Geometry.SelectClosestIndex | Util.py:118-125 | Returns an index whose distance to `e` is at most every other one's and strictly below every earlier one's (0 for an empty list) |
| Geometry.ClosestValueFrom | Util.py:112-114 | Tracking the best element instead of its index picks the element at the same first minimal index |
| Geometry.SelectClosest | Util.py:108-115 | Fails exactly on the empty list; otherwise returns the element at `select_closest_index`, as close to `e` as every element |
| Geometry.LowestIndex | Util.py:131 | `min` by `(imag, real)`: no element is lower, and every earlier element is strictly higher |
| Geometry.IndexOfLowest | Util.py:132 | `l.index` of that minimum is the index `min` found |
| Geometry.IsClockwise | Util.py:128-143 | Fails exactly on the empty list (where `min` raises) |
| Geometry.DetSwap | Util.py:136-139 | Exchanging the two neighbours negates the determinant |
| Geometry.LowestReversed | Util.py:131-132 | In a list without repeats the lowest vertex of the reversed list is the same vertex |
| Geometry.NeighboursReversed | Util.py:133-134 | Backwards, the predecessor becomes the successor and vice versa |
| Geometry.ClockwiseReversed | Util.py:128-143 | On distinct points the determinant of the reversed list is the negated determinant, so the answer flips whenever it is non-zero |
| Geometry.LowestRotated | Util.py:131-132 | Rotating a list without repeats moves the lowest vertex with it |
| Geometry.NeighboursRotated | Util.py:133-134 | Rotation keeps every vertex's cyclic neighbours, wrapping at both ends |
| Geometry.OrientationRotated | Util.py:128-143 | The orientation test does not depend on where a cyclic list of distinct points starts |
| Undirected.AddEdges | voronoi.py:76-78 | Adding edges only when absent in both orientations keeps the list free of duplicates, extends it, and ends up mentioning exactly the old and the new edges |
| Undirected.MentionsFlatten | voronoi.py:75-78 | The concatenated lists mention an edge exactly when one of them does |
| VoronoiCells.MinOf | voronoi.py:223 | `min` is an element no larger than any other |
| VoronoiCells.MaxOf | voronoi.py:223 | `max` is an element no smaller than any other |
| VoronoiCells.Extent | voronoi.py:221-223 | The box of the real and imaginary extremes holds every point, and each side passes through a point |
| VoronoiCells.Enlarge | voronoi.py:224 | Every side moves out by `shift` times the width or height, so width and height grow by `1 + 2*shift` and the old box stays inside |
| VoronoiCells.Shifted | voronoi.py:224 | The arithmetic behind `Enlarge` |
| VoronoiCells.BoundingBox | voronoi.py:220-224 | Needs a critical point besides the basepoint (`min` of nothing raises); its width and height are `1 + 2*shift` times those of the points, and for `shift >= 0` it holds every critical point |
| VoronoiCells.Rounds | voronoi.py:226-231 | The corrected seeds of the voronoi.py:230-231 finding (the code as written is VoronoiCells.SeedsAsWritten): rounds `i` to `border - 1` give four seeds each, all on the boundary of the box |
| VoronoiCells.BorderSeeds | voronoi.py:226-231 | The corrected border seeds of the voronoi.py:230-231 finding (as written: VoronoiCells.SeedsAsWritten): `4*border` seeds, all on the boundary of the box |
| VoronoiCells.RoundsAt | voronoi.py:226-231 | Entry `4*(i - j) + side` of the rounds from `j` on is seed `side` of round `i` |
| VoronoiCells.BorderSeedsAt | voronoi.py:226-231 | The seeds come round by round, four sides per round |
| VoronoiCells.RoundsAsWrittenAt | voronoi.py:226-231 | The same layout for the seeds as the source computes them |
| VoronoiCells.SeedOnBoundary | voronoi.py:227-231 | Each intended seed lies on a side of the box |
| VoronoiCells.Seeds | voronoi.py:218-231 | The seed list as the source evidently intends it, with the voronoi.py:230-231 finding corrected (the code as written is VoronoiCells.SeedsAsWritten): the rational points unchanged followed by exactly `4*border` seeds; for `shift >= 0` every critical point is inside the box and every seed on its boundary |
| VoronoiCells.SeedsAsWritten | voronoi.py:218-231 | The seed list as written has the same length and starts with the rational points |
| VoronoiCells.SeedOutsideBox | voronoi.py:230 | In a box more than `border` times as tall as it is wide, the seed as written at position `len(qpoints) + 6` lies outside the box |
| VoronoiCells.SeedAsWrittenOutside | voronoi.py:230 | The third seed of round 1, as written, lies right of such a box |
| VoronoiCells.TallBoundingBox | voronoi.py:220-224 | The points `5+5i, 0, i` with `shift = 1` give the box `[0, 0] x [-1, 2]` |
| VoronoiCells.TallPointsSeed | voronoi.py:230 | For that box and `border = 5`, seed 9 as written is `3/5 - i`, outside the box |
| VoronoiCells.TallSeedAsWritten | voronoi.py:230 | Round 1, third line, as written, is `3/5 - i` in that box |
| VoronoiCells.TallPointsSeedCorrected | voronoi.py:230 | The intended seed 9 is `-2i/5`, on the left side |
| VoronoiCells.TallSeedCorrected | voronoi.py:230 | Round 1, third line, as intended, is `-2i/5` in that box |
| VoronoiCells.AddVertex | voronoi.py:252-256 | `if z not in vertices: vertices += [z]` extends the list, keeps it free of repeats, and adds exactly `z` |
| VoronoiCells.CoordsPrefix | voronoi.py:253-258 | Index pairs keep their meaning when the vertex list grows at the end |
| VoronoiCells.CoordsAppend | voronoi.py:258 | Decoding appended index pairs appends their segments |
| VoronoiCells.NewEdge | voronoi.py:257-258 | A bounded edge with different ends becomes one valid index pair that decodes back to it; a degenerate edge becomes none |
| VoronoiCells.ScanCellShape | voronoi.py:249-258 | Scanning a cell only appends vertices, keeps them distinct, and records valid index pairs |
| VoronoiCells.ScanCellCoords | voronoi.py:249-258 | The recorded pairs decode to the cell's non-degenerate bounded edges, in order |
| VoronoiCells.ScanCellMembers | voronoi.py:249-256 | The scan adds exactly the ends of the cell's bounded edges |
| VoronoiCells.ScanCellsShape | voronoi.py:247-259 | Over all cells the vertex list only grows and stays free of repeats |
| VoronoiCells.ScanCellsAt | voronoi.py:247-259 | Polygon `p` has cell `p`'s centre and index pairs that decode to its non-degenerate bounded edges |
| VoronoiCells.ScanCellsFirst | voronoi.py:247-259 | The first polygon has the first cell's centre and index pairs that decode, in the final vertex list, to its non-degenerate bounded edges |
| VoronoiCells.ScanCellsMembers | voronoi.py:247-259 | The vertex list holds exactly the starting vertices and the ends of all bounded edges |
| VoronoiCells.Polygons | voronoi.py:215-262 | `vertices[0]` is the basepoint and there are no repeats; every edge joins two different valid indices and decodes back to the cell's bounded edges; the vertices are exactly the basepoint and the edge ends |
| VoronoiCells.CellGraphEdges | voronoi.py:74-78 | Every cell edge appears once up to orientation, and nothing else does |
| VoronoiCells.GraphEdges | voronoi.py:70-82 | Fails exactly when the basepoint is the only vertex; otherwise the cell edges come first, then `[0, k]`, where `k >= 1` is the first vertex closest to the basepoint |
| VoronoiLoops.DegreeAppend | voronoi.py:147-160 | Degrees add over concatenated edge lists |
| VoronoiLoops.DegreeRemove | voronoi.py:159 | `polygon.pop(i)` lowers each degree by the removed edge's ends there |
| VoronoiLoops.DegreePermuted | voronoi.py:147-160 | Degrees depend only on which edges occur, not on their order |
| VoronoiLoops.Remove | voronoi.py:159 | `polygon.pop(i)` removes exactly that entry |
| VoronoiLoops.FindLink | voronoi.py:150-156 | The inner loop stops at the first remaining edge with an end at the walk's end, and extends the walk to its other end; it finds none exactly when no edge touches the end |
| VoronoiLoops.ChainFrom | voronoi.py:149-160 | The intended loop: on success every remaining edge is used once, one step each, and consecutive vertices are joined by the edge of that step; a dead end is the error "polygon is not a loop" |
| VoronoiLoops.StepsExtend | voronoi.py:152-155 | Appending a step along an edge at the walk's end keeps every step joined |
| VoronoiLoops.ChainCell | voronoi.py:146-160 | An empty cell raises IndexError at `pop`; otherwise the walk starts with the last edge, has one more vertex than edges, and uses each edge exactly once |
| VoronoiLoops.WalkEnds | voronoi.py:149-160 | Along a walk every vertex is the end of an even number of edge ends, corrected by the walk's first and last vertex |
| VoronoiLoops.ChainClosed | voronoi.py:143-160 | The chained walk is closed exactly when every vertex of the cell has even degree |
| VoronoiLoops.PathEdges | voronoi.py:143-160 | A path of `n` vertices has `n - 1` edges |
| VoronoiLoops.ChainPath | voronoi.py:149-160 | Edges stored in path order chain into that path |
| VoronoiLoops.ChainCycle | voronoi.py:146-160 | A cell whose edges are stored in cycle order, closing edge last, chains into that cycle, started at its last vertex |
| VoronoiLoops.ChainCycleStart | voronoi.py:148 | Chaining a cycle starts from its closing edge |
| VoronoiLoops.NormalSame | voronoi.py:150-153 | Two edges have the same normal form exactly when they are the same pair up to orientation |
| VoronoiLoops.PathSplit | voronoi.py:149-160 | Joining two paths end to start adds exactly one step between them |
| VoronoiLoops.PathReversed | voronoi.py:150-153 | A path walked backwards has the same undirected edges |
| VoronoiLoops.CycleWithout | voronoi.py:146 | Without one of its steps a cycle's edges are those of the path round the rest of the cycle |
| VoronoiLoops.OnlyFirstStep | voronoi.py:149-157 | In a path without repeated vertices the only edge at the first vertex is the first step, and its other end is the second vertex |
| VoronoiLoops.ChainAnyPath | voronoi.py:147-158 | The edges of a path without repeated vertices, stored in any order and orientation, chain from its first vertex into that path |
| VoronoiLoops.CycleLastEdge | voronoi.py:146 | The last stored edge of a cycle's cell is one of its steps, and the other edges form the path round the rest of the cycle |
| VoronoiLoops.ChainAnyCycle | voronoi.py:146-160 | The edges of a cycle through distinct vertices, stored in any order and orientation, chain into a closed walk round the cycle in one direction or the other, visiting every vertex once |
| VoronoiLoops.CellClosing | voronoi.py:146-160 | A cell whose last stored edge closes a path through distinct vertices, in either orientation, and whose other edges are the path's in any order and orientation, chains into the closed walk along the path or its reverse |
| VoronoiLoops.ChainAsWritten | voronoi.py:149-160 | The loop as written, given a number of passes, keeps the walk as a prefix and returns a walk of the right length if it finishes |
| VoronoiLoops.ChainCellAsWritten | voronoi.py:146-160 | As written, only the empty cell raises |
| VoronoiLoops.ChainAsWrittenAgrees | voronoi.py:149-160 | Where the intended loop succeeds, the loop as written gives the same walk; where it fails, the loop as written never finishes |
| VoronoiLoops.StuckCellSpins | voronoi.py:149-157 | The cell `[0,1], [2,3]` never finishes as written, while the intended loop reports the error |
| VoronoiLoops.Coords | voronoi.py:162 | `[vertices[i] for i in loop[:-1]]`, with Python's negative indices |
| VoronoiLoops.Orient | voronoi.py:162 | The walk is kept or reversed; a closed walk stays closed; the steps stay joined and the edges used stay the same; an unreadable index is an IndexError |
| VoronoiLoops.BackwardsSteps | voronoi.py:162 | A walk read backwards is joined by the same edges |
| VoronoiLoops.MultisetReverse | voronoi.py:162 | Reversing keeps the elements |
| VoronoiLoops.DistinctReverse | voronoi.py:162 | Reversing keeps a list free of repeats |
| VoronoiLoops.InitBackwards | voronoi.py:162 | A closed walk read backwards visits, without its repeated last vertex, the rotated reverse of the original |
| VoronoiLoops.CoordsReverse | voronoi.py:162 | The coordinates of a reversed index list are the reversed coordinates |
| VoronoiLoops.OrientCounterclockwise | voronoi.py:162 | For distinct, non-collinear vertices the oriented walk is never clockwise |
| VoronoiLoops.OrientChoice | voronoi.py:162 | The walk is reversed exactly when it is clockwise |
| VoronoiLoops.OrientReversed | voronoi.py:162 | A clockwise closed walk at distinct points is replaced by the walk read backwards, which is not clockwise |
| VoronoiLoops.OrientKept | voronoi.py:162 | A walk that is not clockwise is kept unchanged, and `is_clockwise` reports false on it |
| VoronoiLoops.ClockwiseBackwards | voronoi.py:162 | A clockwise closed walk read backwards is counterclockwise |
| VoronoiLoops.LoopShape | voronoi.py:143-164 | A cell's loop has one more vertex than the cell has edges, joined steps, and uses every edge once; an empty cell raises IndexError |
| VoronoiLoops.CycleLoop | voronoi.py:143-164 | A cell whose edges are those of a cycle of distinct non-collinear points, stored in any order and orientation, gives a closed counterclockwise walk through its vertices |
| VoronoiLoops.CycleCoords | voronoi.py:162 | Going round a cycle of distinct non-collinear points from another start or the other way keeps the points distinct and the orientation nonzero |
| VoronoiLoops.ClosedLoop | voronoi.py:162 | A closed walk round distinct non-collinear points is oriented counterclockwise |
| VoronoiLoops.CoordsRotate | voronoi.py:119 | The coordinates of a rotated index list are the rotated coordinates |
| VoronoiLoops.DistinctRotate | voronoi.py:119 | Rotation keeps a list free of repeats |
| VoronoiLoops.MinIndex | voronoi.py:116 | `min(key=dist)` is the first entry of least distance |
| VoronoiLoops.AnchorIndex | voronoi.py:116-117 | `loop.index(loop_point)` is the first occurrence of the anchor |
| VoronoiLoops.LoopPoint | voronoi.py:115-121 | The anchor is the first vertex of `loop[1:]` closest to the root; the rewritten loop has the same length, is a rotation of the original without its last vertex, and ends at the anchor when it was rotated; a loop with fewer than two vertices raises ValueError (`min` of an empty slice) |
| VoronoiLoops.LoopPointClosed | voronoi.py:116-119 | On a closed walk the anchor occurs before the last position, and the rewritten loop starts and ends at it |
| VoronoiLoops.RotatedSteps | voronoi.py:119 | The rewritten loop visits the same steps in the same cyclic order |
| VoronoiLoops.LoopPointOrientation | voronoi.py:112-123 | Anchoring keeps the orientation test's value, so a counterclockwise loop stays counterclockwise |
| VoronoiLoops.PointedLoopShape | voronoi.py:136 | `path[:-1] + loop + reversed(path[:-1])` has length `2(len(path) - 1) + len(loop)`, follows the path out and back, holds the loop in the middle, and starts and ends at the path's first vertex |
| VoronoiLoops.PointedUpTo | voronoi.py:134-136 | The first `n` pointed loops, each built from its own path and loop |
| VoronoiLoops.Loops | voronoi.py:143-164 | One walk per cell, entry `k` the oriented loop of cell `k`; Ok exactly when every cell succeeds, otherwise the error of the first failing cell |
| VoronoiLoops.LoopPoints | voronoi.py:112-123 | One anchored loop per loop, entry `k` that of loop `k`; ValueError exactly when some loop has fewer than two vertices |
| VoronoiLoops.PointedLoops | voronoi.py:132-138 | One pointed loop per critical point, from the i-th path and the i-th loop; a missing path or loop is an IndexError |
| VoronoiLoops.PointedLoopsAtRoot | voronoi.py:132-138 | With tree paths from the root and closed anchored loops, every pointed loop starts and ends at the root |
| VoronoiLoops.PathEdgesAt | voronoi.py:171-173 | Step `k` of a path is the edge `[path[k], path[k+1]]` |
| VoronoiSort.MinimalTree | voronoi.py:167-177 | Every step of every path occurs once up to orientation, and nothing else |
| VoronoiSort.MinimalTreeSteps | voronoi.py:170-175 | Every step of every path is an edge of the minimal tree |
| VoronoiSort.LoopsAt | voronoi.py:199 | Lists the loops anchored at `v` with their second vertex; an empty loop, or a one-vertex loop at `v`, is an IndexError |
| VoronoiSort.Towards | voronoi.py:208-210 | The loops anchored at `v` that leave towards `child`, each once |
| VoronoiSort.AncestorDepth | voronoi.py:196-211 | The ancestor at depth `d` has depth `d` |
| VoronoiSort.AncestorChain | voronoi.py:196-211 | Climbing to depth `d2` can pass through depth `d1` |
| VoronoiSort.SortRec | voronoi.py:196-211 | The recursion terminates on a rooted tree; every emitted index is a loop anchored in the subtree below `v`, and none is emitted twice |
| VoronoiSort.SortChildren | voronoi.py:205-210 | Each index is emitted while visiting its anchor, for its second vertex among the neighbours still to visit, or below a tree child; none twice |
| VoronoiSort.ChildDeeper | voronoi.py:206-207 | A tree neighbour other than the parent is one level deeper and has `v` as its parent |
| VoronoiSort.SortChildrenDistinct | voronoi.py:205-210 | The subtree's indices, the loops at `v` towards the child, and the rest are disjoint |
| VoronoiSort.DistinctConcat | voronoi.py:207-210 | Joining disjoint lists without repeats gives a list without repeats |
| VoronoiSort.Select | voronoi.py:186-191 | `[s[i] for i in order]` |
| VoronoiSort.Reorder | voronoi.py:186-191 | Succeeds exactly when every index of `order` fits every list, IndexError otherwise; points and qpoints get one entry more than `order`, loops and paths one per entry, and a cached `pointed_loops` stays cached with one per entry |
| VoronoiSort.ReorderPoints | voronoi.py:186-187 | `points[0]` and `qpoints[0]` stay first, and new `points[k+1]` is old `points[order[k]+1]` (the same for qpoints) |
| VoronoiSort.ReorderLoops | voronoi.py:188-189 | Loops and paths move by the same `order`: new entry `k` is old entry `order[k]` |
| VoronoiSort.ReorderPointed | voronoi.py:190-191 | A cached `pointed_loops` moves in lockstep with the loops |
| VoronoiSort.SortLoops | voronoi.py:184-192 | The returned order has no repeats and only loop indices, and the lists are reordered by it in lockstep |
| VoronoiSort.ReachesChild | voronoi.py:205-207 | A vertex hanging below `v` does so through a tree neighbour of `v` one level down |
| VoronoiSort.LoopsAtComplete | voronoi.py:199 | Every loop anchored at `v` is listed with its second vertex |
| VoronoiSort.TowardsComplete | voronoi.py:208-210 | Every listed loop leaving towards `child` is emitted |
| VoronoiSort.SortRecComplete | voronoi.py:196-211 | The walk from `v` emits every loop whose anchor hangs below `v` and whose second vertex is a neighbour of the anchor |
| VoronoiSort.SortChildrenComplete | voronoi.py:205-210 | The loop over the neighbours still to visit emits every loop reached through one of them |
| VoronoiSort.CoveringLength | voronoi.py:184-192 | A list without repeats of numbers below `n` that contains each of them has `n` entries |
| VoronoiSort.SortLoopsComplete | voronoi.py:184-211 | `sort_loops` emits every loop whose anchor hangs below vertex 0 and which leaves towards a neighbour; when every loop is such, the order is a permutation of all loop indices |
| VoronoiSort.ReorderInverse | voronoi.py:186-191 | Reordering by a permutation and then by its inverse restores a list |
| VoronoiSort.PointedLoopsReordered | voronoi.py:189-191 | Pointed loops recomputed from the reordered paths and loops are the cached ones in the new order |
| Integrator.InverseUnique | integrator.py:75 | In a group a left inverse is the inverse |
| Integrator.StepBack | integrator.py:70-75 | An edge walked forward and straight back multiplies to the identity |
| Integrator.WalkableFront | integrator.py:68-75 | Dropping the last vertex of a walkable path leaves a walkable path |
| Integrator.WalkableTail | integrator.py:68-75 | Dropping the first vertex of a walkable path leaves a walkable path |
| Integrator.Compose | integrator.py:66-75 | Succeeds exactly when every step is stored in one orientation; otherwise `list.index` raises ValueError |
| Integrator.ProductStep | integrator.py:72-75 | The last step's factor premultiplies the product along the rest |
| Integrator.WalkableJoin | integrator.py:68-75 | A joined walk is walkable exactly when both parts are |
| Integrator.ProductJoin | integrator.py:66-75 | The product along `p` then `q` is `q`'s product times `p`'s |
| Integrator.WalkableNoRepeat | integrator.py:68-75 | Over loopless edges a walkable path never repeats a vertex in place |
| Integrator.ThereAndBack | integrator.py:68-75 | The product along `a, b, a` is the identity |
| Integrator.Backtrack | integrator.py:65-75 | Cancelling a backtrack leaves a walkable path with the same product |
| Integrator.ProductSimplifyFrom | integrator.py:65-75 | Each deletion of the simplification loop keeps the product |
| Integrator.ComposeSimplified | integrator.py:65-75 | Over a group, simplifying a walkable path first does not change the composed matrix |
| Integrator.ProductPair | integrator.py:69-75 | The product along one step is that step's factor |
| Integrator.CancelMiddle | integrator.py:75 | `(c s)(t d) = 1` when `s t = 1` and `c` is the inverse of `d` |
| Integrator.ProductReversed | integrator.py:68-75 | Walking a path backwards gives the inverse of its product |
| Integrator.PointedLoopConjugate | integrator.py:64-75 | The product along a pointed loop is the loop's product conjugated by the path's |
| Integrator.TransitionMatrix | integrator.py:65-76 | The only failure is the ValueError of an unstored step |
| Integrator.TransitionOfPointedLoop | integrator.py:64-76 | The transition matrix of a pointed loop is the loop's product conjugated by the path's |
| Integrator.TransitionMatrices | integrator.py:61-78 | One matrix per pointed loop, in pointed-loop order, Ok exactly when every loop succeeds; otherwise the error is that of the first failing loop |
| Integrator.Gather | integrator.py:86-90 | Slot `i` holds the matrix of the last result tagged `i`; untouched slots stay empty; the first result that cannot be stored fails the gather, with its job's error or IndexError for a tag past the end |
| Integrator.GatherSlot | integrator.py:86-90 | When every arriving job succeeded with a valid index, slot `i` holds edge `i`'s matrix exactly when edge `i` arrived, and stays empty otherwise |
| Integrator.IntegratedEdges | integrator.py:81-91 | `n` slots, Ok exactly when every arriving edge integrated successfully and has an index below `n`; otherwise the first arrival that fails gives the error (the integration's own error, or IndexError); slot `i` holds edge `i`'s matrix when edge `i` arrived and is empty otherwise |
| Integrator.GatherOrderFree | integrator.py:81-91 | When each edge index arrives once, slot `i` holds the matrix for edge `i` whatever the arrival order, and one failing edge fails the gather |
| Integrator.GatherAllOk | integrator.py:81-91 | When each edge index arrives once and every integration succeeds, the slots hold the matrices in edge order |
| Integrator.Attempt | integrator.py:104-105 | An attempt succeeds exactly when the integrator returns an invertible matrix, and then returns it |
| Integrator.DoubledIsPower | integrator.py:109-110 | Doubling `k` times multiplies by `2^k` |
| Integrator.RetryFrom | integrator.py:102-116 | Attempt `k` asks for precisions `(nbits*2^k, bounds_prec*2^k)`; every attempt before the last failed; the run makes at most `max(1, maxtries - tries)` attempts, all of them when it fails |
| Integrator.RequestsDoubled | integrator.py:107-112 | After a failure the remaining requests are those of a run started at doubled precisions |
| Integrator.IntegrateEdge | integrator.py:95-123 | An empty path returns the identity without calling the integrator; otherwise attempt `k` uses `eps = 2^-(nbits*2^k)` and `bounds_prec = 256*2^k`, with at most `max(1, maxtries - 1)` attempts |
| Integrator.DefaultRetriesFailing | integrator.py:99-116 | With `maxtries = 5` and an integrator that always fails there are exactly 4 calls, and the last error is raised |
| Integrator.FirstSuccessStops | integrator.py:102-123 | The first success at attempt `k` ends the loop after `k + 1` calls with that matrix |
| Elliptic.ApplyIsProduct | elliptic_singularity.py:45-46 | Multiplying on the left by `U` or `V` is a row operation that keeps the determinant |
| Elliptic.Repeat | elliptic_singularity.py:52-56 | `w * n` has length `len(w) * n` |
| Elliptic.WordProductIsProduct | elliptic_singularity.py:45-57 | A word multiplies out letter by letter, the empty word to the identity |
| Elliptic.WordUnimodular | elliptic_singularity.py:45-57 | Every word over `U` and `V` has determinant 1 |
| Elliptic.ActUnimodular | elliptic_singularity.py:45-57 | Multiplying by a word keeps the determinant |
| Elliptic.ActAppend | elliptic_singularity.py:52-56 | The product of a concatenated word is the product of the products |
| Elliptic.NamesDistinct | elliptic_singularity.py:34-57 | The eight type names are distinct, so both tables have eight keys |
| Elliptic.ClassesUnimodular | elliptic_singularity.py:34-43 | Each normal form has determinant 1 and the trace of the branch of `monodromy_class` that names it |
| Elliptic.UVCube | elliptic_singularity.py:45-46 | `(UV)^3 = -1` |
| Elliptic.RepeatStep | elliptic_singularity.py:52-56 | One more `[U, V]` in front multiplies by `U V` |
| Elliptic.ConfluenceActs | elliptic_singularity.py:48-57 | Each confluence word multiplies to the listed closed-form matrix |
| Elliptic.ActsIII | elliptic_singularity.py:51 | `V U V` multiplies to `[[0, 1], [-1, 0]]` |
| Elliptic.ActsIV | elliptic_singularity.py:52 | `(U V)^2` multiplies to `[[-1, 1], [-1, 0]]` |
| Elliptic.ActsIStar | elliptic_singularity.py:53 | `(U V)^3 U` multiplies to `-U` |
| Elliptic.ActsIIStar | elliptic_singularity.py:54 | `(U V)^5` multiplies to `[[1, -1], [1, 0]]` |
| Elliptic.ActsIIIStar | elliptic_singularity.py:55 | `(U V)^3 V U V` multiplies to `[[0, -1], [1, 0]]` |
| Elliptic.ActsIVStar | elliptic_singularity.py:56 | `(U V)^4` multiplies to `[[0, -1], [1, -1]]` |
| Elliptic.ConfluenceUnimodular | elliptic_singularity.py:45-57 | Each confluence product has determinant 1 |
| Elliptic.ConfluenceTraces | elliptic_singularity.py:34-57 | Each confluence product has the same trace as the normal form of the same key |
| Elliptic.NegateFirstColumn | elliptic_singularity.py:102-103 | Negating the first column negates the determinant |
| Elliptic.SignFix | elliptic_singularity.py:101-104 | Succeeds exactly when the columns have determinant ±1, with a determinant-1 base change whose first column is `±vanishing`; otherwise the `assert` fails |
| Elliptic.FirstConjugation | elliptic_singularity.py:69 | `find_conjugation(...)[0]`: the first base change found, IndexError on an empty list, and the search's own exception otherwise |
| Elliptic.Normalize | elliptic_singularity.py:94-118 | A zero image (empty basis) raises IndexError at `basis()[0]`; on success the multiplicity is the positive gcd of the image vector, the base change has determinant 1, its second column solves `(M + s) x = vanishing * v`, and its first column is `±vanishing` |
| Elliptic.TryPair | elliptic_singularity.py:72-85 | A successful search for the unstarred form wins with multiplicity 1; when it raises, the result is the starred type with the starred search's first base change and multiplicity 1, or that search's exception |
| Elliptic.Unipotent | elliptic_singularity.py:62-66 | The scalar matrix gives the type with base change 1 and multiplicity 0; any result has the given type |
| Elliptic.TraceOne | elliptic_singularity.py:67-71 | II exactly when `M[0,1] > 0`, II* otherwise; succeeds exactly when that search does |
| Elliptic.MonodromyClass | elliptic_singularity.py:60-90 | `None` exactly for traces outside `[-2, 2]`; any type found has a normal form of the same trace; `1` gives `("I", 1, 0)` and `-1` gives `("I*", 1, 0)`; failures only come from searches or normalisations, never for `±1` |
| Elliptic.MonodromyClassDetails | elliptic_singularity.py:67-85 | On trace 1 a successful classification is II or II*, and II exactly when `M[0,1] > 0`; on traces 0 and -1 a successful search for III or IV wins, and when it raises a successful search for III* or IV* gives that type with multiplicity 1 |
| Elliptic.UnipotentUnimodular | elliptic_singularity.py:94-118 | Types I and I* come with a determinant-1 base change |
| Elliptic.ConfluenceClassified | elliptic_singularity.py:45-90 | The products of the confluence words of I, II, I* and II* classify as their own type |
| Elliptic.UnipotentConfluence | elliptic_singularity.py:45-66 | The confluence products of I and I* classify, when they classify, as I and I* |
| Elliptic.TraceOneConfluence | elliptic_singularity.py:45-71 | The confluence products of II and II* classify, when they classify, as II and II* |
| Elliptic.ClassifiedAs | elliptic_singularity.py:67-71 | A trace-1 matrix whose `M[0,1]` sign picks II or II* classifies, when the search succeeds, as that type |
| DoubleCover.Fill | src/lefschetz_family/doubleCover.py:584-590 | Each requested unflagged index is integrated, stored and flagged, others are untouched; the loop runs to the end exactly when every index is in range and every unflagged operator integrates, and otherwise stops with IndexError or the exception `integrate` raised, keeping the slots filled before it |
| DoubleCover.FillCalls | src/lefschetz_family/doubleCover.py:584-590 | Only requested, in-range, unflagged indices are integrated, none twice |
| DoubleCover.FillFlags | src/lefschetz_family/doubleCover.py:584-590 | After a loop that runs to the end every requested index is flagged |
| DoubleCover.FillAllFlagged | src/lefschetz_family/doubleCover.py:584-590 | When every requested index is already flagged, nothing changes and nothing is integrated |
| DoubleCover.TransitionMatrices | src/lefschetz_family/doubleCover.py:579-591 | Both tables exist afterwards, even when the loop raised; the thimble caches are untouched, and a successful result has one entry per request |
| DoubleCover.TransitionMatricesResult | src/lefschetz_family/doubleCover.py:579-591 | The memo stays consistent whether or not the call fails; the call succeeds exactly when every index is in range and every unflagged requested operator integrates, and otherwise raises IndexError or an exception `integrate` raised on a requested operator; a slot is flagged afterwards exactly when it was flagged before or its operator was integrated successfully during the call; on success entry `k` is the integral of operator `l[k]` and every requested index is flagged |
| DoubleCover.IntegratedOnce | src/lefschetz_family/doubleCover.py:584-590 | `integrate` runs only for requested, unflagged indices, at most once each, and for every one of them when the call succeeds |
| DoubleCover.SecondRequestIsCached | src/lefschetz_family/doubleCover.py:579-591 | Repeating a successful request integrates nothing and returns the same list |
| DoubleCover.Forget | src/lefschetz_family/doubleCover.py:606-610 | Succeeds exactly when all four caches exist, and then clears them; a missing one raises AttributeError |
| DoubleCover.ForgetRecomputes | src/lefschetz_family/doubleCover.py:579-610 | After a reset, a request succeeds exactly when every requested operator integrates; it integrates only requested operators, each at most once, and on success every one of them again |
| DoubleCover.Min | src/lefschetz_family/doubleCover.py:154 | `min` is an element no larger than any other |
| DoubleCover.IndicesOf | src/lefschetz_family/doubleCover.py:155 | Exactly the positions holding the degree, in increasing order |
| DoubleCover.HolomorphicForms | src/lefschetz_family/doubleCover.py:153-155 | The ascending list of indices whose degree is minimal; an empty cohomology raises ValueError |
| DoubleCover.HolomorphicFormsNonEmpty | src/lefschetz_family/doubleCover.py:153-155 | A non-empty cohomology has a holomorphic form |
| DoubleCover.ScanFrom | src/lefschetz_family/doubleCover.py:506-508 | The loop from `i` stops at the first non-zero coefficient, or runs to the bound |
| DoubleCover.RestrictionVariable | src/lefschetz_family/doubleCover.py:504-510 | The least index of a non-zero coefficient among the first `dim + 2`, or `dim + 1` when all are zero; a row that is too short and zero raises IndexError |
| DoubleCover.RestrictionVariableIsFirstNonZero | src/lefschetz_family/doubleCover.py:506-509 | With a non-zero coefficient the result is the least non-zero index |
| DoubleCover.ThimbleMatrixTriangular | src/lefschetz_family/doubleCover.py:684-711 | The `r x r` thimble matrix is upper triangular, with the self-pairings on the diagonal and the cross pairings above |
| DoubleCover.MinRat | src/lefschetz_family/doubleCover.py:759 | `min` of the real parts |
| DoubleCover.MaxRat | src/lefschetz_family/doubleCover.py:759 | `max` of the real parts |
| DoubleCover.Basepoint | src/lefschetz_family/doubleCover.py:751-761 | AssertionError when `dim <= 0`; otherwise 0 for a long fibration with depth > 0, else ValueError exactly when there are no critical values, and otherwise within `(xmax - xmin)/10` of `xmin - (xmax - xmin)` |
| DoubleCover.BasepointLeftOfCriticalValues | src/lefschetz_family/doubleCover.py:751-760 | For `dim > 0` and at least one critical value, outside the long-fibration case, the basepoint is strictly left of every critical value when their real parts differ, and equals `xmin` when they agree |
| DoubleCover.BasepointBound | src/lefschetz_family/doubleCover.py:760 | The arithmetic behind that placement |
| DoubleCover.FibreClass | src/lefschetz_family/doubleCover.py:769-770 | A unit vector of length `n + 2` with its 1 at position `n` |
| DoubleCover.Section | src/lefschetz_family/doubleCover.py:777-778 | A unit vector of length `n + 2` with its 1 at position `n + 1` |
| DoubleCover.FibreAndSectionDisjoint | src/lefschetz_family/doubleCover.py:769-778 | The two vectors differ, have disjoint supports, and sum to `[0] * n + [1, 1]` |

## Left out

- The Voronoi diagram itself (`VoronoiDiagram`, the `sage_input` round trip, matching regions to centres): a foreign geometry library. The model takes the selected cells and their bounded edges as input.
- The spanning tree (`boruvka`), `tree.all_paths` and `tree.distance`: Sage graph algorithms. Paths and the distance function are inputs. The tree used by `_sort_loops_rec` is a rooted tree described by a depth and a parent function.
- The angular neighbour order `neighbours` (argument of complex numbers): an input `nbrs` with no repeated neighbour.
- `rationalize`, `prec` and the 500-bit float conversions, and `Util.path`: floating point. Coordinates are exact.
- Geometry.IsClockwise: the warning logged for a determinant below `10e-7` is not modelled; it only logs.
- The numerical integrator (`numerical_transition_matrix`), `DifferentialOperator`, the `@parallel` pool, logging and timing: the integrator is an oracle from precisions to an outcome, and the pool is a sequential list of results in arrival order. A job that raises is an `Err` outcome, and the gather fails with it when it arrives; what Sage's decorator yields for a failed job is not modelled.
- Integrator.Compose: `mats` must hold one matrix per edge, which is what `integrated_edges` builds.
- Integrator.ComposeSimplified: holds only when the unsimplified walk is walkable. A repeat `a, a` is never a stored edge, so simplification can turn a failing walk into a succeeding one.
- Integrator.IntegrateEdge: the retry count follows the code, `max(1, maxtries - 1)` calls on persistent failure, and not `maxtries`.
- `find_conjugation`, the image basis and `solve_right` in `normalize_Iv`/`normalize_Ivstar`: ideal elimination and linear algebra over Sage. They are the oracles in `Elliptic.Oracles`.
- Elliptic.Normalize: does not prove that dividing the image vector by its gcd is exact. The source calls `normalize_Iv` twice with the same argument, and the model evaluates it once. The zero-image branch cannot be reached from `monodromy_class`, which returns early for `M = ±1`.
- Elliptic.ConfluenceClassified: covers I, II, I* and II*. For III, IV, III* and IV*, the result depends on which conjugation search the oracle answers.
- DoubleCover.TransitionMatrices: the memo tables have one slot per cohomology class. Negative Python indices in the request are not modelled, because requests are natural numbers. `integrate` is a function of the operator index, so every attempt on the same operator gives the same outcome; the retry inside `integrate` is Integrator.IntegrateEdge.
- DoubleCover.RestrictionVariable: the attribute cache is not modelled. It is checked as `hasattr(self, "__restriction_variable")` but stored under a mangled name, so it never hits, and the result is recomputed each time.
- `integrated_thimbles`: only whether its two caches exist is modelled (for `forget_transition_matrices`), not their contents.
- The intersection form blocks `intersection_11`/`intersection_02`, Picard–Fuchs equations, Gröbner elimination, Smith forms, period matrices and the random fibration: Sage algebra.
- `Util.invert_morphism`, `find_complement`, `monomials`, `is_simple`, `letter`: randomised or library-bound.
- src/lefschetz_family/monodromyRepresentationGeneric.py and src/lefschetz_family/__init__.py are not part of this model.
- VoronoiSort.SortLoops: does not model a minimal tree that lacks a vertex, where Sage's `neighbors` raises. Its own contract does not say that every loop is emitted; VoronoiSort.SortLoopsComplete proves that for loops whose anchor hangs below vertex 0 in the tree and whose second vertex is a neighbour of the anchor, and says nothing about other loops.

## Findings

| source | as written | input that shows it | evidently intended | confidence | as-written member | corrected member |
|---|---|---|---|---|---|---|
| voronoi.py:149-157 | When no remaining edge touches the end of the walk, the `for` loop runs out. The `assert i != len(polygon)` can never fail inside it, so the `while` loop repeats forever | a cell with the two edges `[0, 1]` and `[2, 3]` | stop with the error "polygon is not a loop" | not executed | VoronoiLoops.StuckCellSpins | VoronoiLoops.ChainCell |
| voronoi.py:230-231 | `step*(ymax-ymin)` is added without a factor `I`, so the left and right border seeds move sideways instead of up and down | points `5+5i, 0, i` with `shift = 1` and `border = 5`: the box is `[0, 0] x [-1, 2]`, and seed 9 is `3/5 - i`, outside the box | `xmin + I*(ymin + step*(ymax-ymin))`, here `-2i/5` on the left side | not executed | VoronoiCells.TallPointsSeed | VoronoiCells.TallPointsSeedCorrected |

=== FILE: base.dfy ===
/** Shared vocabulary: optional values, results carrying the error kind the
    Python code would raise, exact complex coordinates, and small sequence
    helpers used by every component. */
module Base {

  /** A value that may be absent (Python `None`, or an attribute that has
      not been set yet). */
  datatype Option<+T> = None | Some(value: T)

  /** The exception classes the modelled code can raise. */
  datatype Error =
    | IndexError        // indexing past the end of a list, or `pop` on an empty list
    | ValueError        // `list.index` of an absent value, `min` of an empty list
    | ZeroDivision      // `1/0` on an exact rational
    | AssertionFailed   // a failed `assert`
    | AttributeError    // `del` of an attribute that was never set
    | NotALoop          // the polygon-chaining failure the source means to report
    | OracleFailure(code: int) // whatever the numerical oracle raised

  /** Either a value or the exception that ends the computation. */
  datatype Result<+T> = Ok(value: T) | Err(error: Error)

  /** Exact complex number with rational coordinates. */
  datatype Complex = Complex(re: real, im: real)

  /** Squared modulus of `z - w`. Comparing squared moduli orders points
      exactly as comparing the moduli `abs(z - w)` does. */
  function SqDist(z: Complex, w: Complex): real
  {
    (z.re - w.re) * (z.re - w.re) + (z.im - w.im) * (z.im - w.im)
  }

  /** No value occurs twice. */
  predicate Distinct<T(==)>(s: seq<T>)
  {
    forall i, j :: 0 <= i < j < |s| ==> s[i] != s[j]
  }

  /** Python's `list.index`: the first position holding `x`. */
  function IndexOf<T(==)>(s: seq<T>, x: T): (r: Option<nat>)
    ensures r.None? <==> x !in s
    ensures r.Some? ==> r.value < |s| && s[r.value] == x
    ensures r.Some? ==> forall j :: 0 <= j < r.value ==> s[j] != x
  {
    if |s| == 0 then None
    else if s[0] == x then Some(0)
    else match IndexOf(s[1..], x)
      case None => None
      case Some(k) => Some(k + 1)
  }

  /** An element that does not occur earlier is found at its own
      position. */
  lemma IndexOfFirst<T>(s: seq<T>, k: int)
    requires 0 <= k < |s| && forall j :: 0 <= j < k ==> s[j] != s[k]
    ensures IndexOf(s, s[k]) == Some(k)
  {
    var m := IndexOf(s, s[k]).value;
    assert !(m < k);
    assert !(k < m);
  }

  /** `list(reversed(s))`. */
  function Reverse<T>(s: seq<T>): (r: seq<T>)
    ensures |r| == |s|
    ensures forall i :: 0 <= i < |s| ==> r[i] == s[|s| - 1 - i]
  {
    if |s| == 0 then [] else Reverse(s[1..]) + [s[0]]
  }

  lemma ReverseReverse<T>(s: seq<T>)
    ensures Reverse(Reverse(s)) == s
  {
  }

  /** `s[:-1]`: everything but the last element (empty for an empty
      list). */
  function Init<T>(s: seq<T>): (r: seq<T>)
    ensures |s| > 0 ==> |r| == |s| - 1 && r == s[..|s| - 1]
    ensures |s| == 0 ==> r == []
  {
    if |s| == 0 then [] else s[..|s| - 1]
  }

  /** `s[k:] + s[:k]`: the cyclic rotation starting at position `k`. */
  function Rotate<T>(s: seq<T>, k: int): (r: seq<T>)
    requires 0 <= k <= |s|
    ensures |r| == |s|
    ensures forall m :: 0 <= m < |s| - k ==> r[m] == s[m + k]
    ensures forall m :: |s| - k <= m < |s| ==> r[m] == s[m + k - |s|]
  {
    s[k..] + s[..k]
  }

  lemma PrefixTransitive<T>(a: seq<T>, b: seq<T>, c: seq<T>)
    requires a <= b && b <= c
    ensures a <= c
  {
    assert a == b[..|a|] && b == c[..|b|];
    assert c[..|b|][..|a|] == c[..|a|];
  }

  lemma AppendAssoc<T>(a: seq<T>, b: seq<T>, c: seq<T>)
    ensures (a + b) + c == a + (b + c)
  {
  }

  /** `[f(x) for x in s]` where `f` may raise: the first exception ends
      the comprehension. */
  function MapResult<A, B>(f: A -> Result<B>, s: seq<A>): (r: Result<seq<B>>)
    ensures r.Ok? <==> forall i :: 0 <= i < |s| ==> f(s[i]).Ok?
    ensures r.Ok? ==> |r.value| == |s|
    ensures r.Ok? ==> forall i :: 0 <= i < |s| ==> r.value[i] == f(s[i]).value
    ensures r.Err? ==> exists i :: 0 <= i < |s| && f(s[i]) == Err(r.error) && forall j :: 0 <= j < i ==> f(s[j]).Ok?
  {
    if |s| == 0 then Ok([])
    else match f(s[0])
      case Err(e) => Err(e)
      case Ok(y) =>
        assert forall j :: 0 <= j < |s| - 1 ==> s[1..][j] == s[j + 1];
        match MapResult(f, s[1..])
        case Err(e) =>
          var i :| 0 <= i < |s| - 1 && f(s[1..][i]) == Err(e) && forall j :: 0 <= j < i ==> f(s[1..][j]).Ok?;
          assert f(s[i + 1]) == Err(e) && forall j :: 0 <= j < i + 1 ==> f(s[j]).Ok?;
          Err(e)
        case Ok(ys) => Ok([y] + ys)
  }

  /** Integer power of two. */
  function Pow2(k: nat): (r: nat)
    ensures r >= 1
  {
    if k == 0 then 1 else 2 * Pow2(k - 1)
  }
}

=== FILE: bezout.dfy ===
/** `Util.xgcd_list`: the gcd of a list of integers together with Bézout
    coefficients for it, built by folding a two-argument extended gcd. */
module Bezout {

  ghost predicate Divides(d: int, n: int)
  {
    exists k :: n == d * k
  }

  /** `g` is the non-negative gcd of `xs`: its divisors are exactly the
      common divisors of the entries. */
  ghost predicate IsGcdOf(g: int, xs: seq<int>)
  {
    && g >= 0
    && forall c :: Divides(c, g) <==> (forall k :: 0 <= k < |xs| ==> Divides(c, xs[k]))
  }

  /** `sum(coeffs[i] * xs[i])` over the common length. */
  function Combination(coeffs: seq<int>, xs: seq<int>): int
    requires |coeffs| == |xs|
  {
    if |coeffs| == 0 then 0
    else Combination(coeffs[..|coeffs| - 1], xs[..|xs| - 1])
         + coeffs[|coeffs| - 1] * xs[|xs| - 1]
  }

  function Scale(coeffs: seq<int>, u: int): (r: seq<int>)
    ensures |r| == |coeffs|
    ensures forall k :: 0 <= k < |coeffs| ==> r[k] == coeffs[k] * u
  {
    seq(|coeffs|, k requires 0 <= k < |coeffs| => coeffs[k] * u)
  }

  lemma {:induction false} CombinationScale(coeffs: seq<int>, xs: seq<int>, u: int)
    requires |coeffs| == |xs|
    ensures Combination(Scale(coeffs, u), xs) == u * Combination(coeffs, xs)
  {
    if |coeffs| > 0 {
      var n := |coeffs| - 1;
      assert Scale(coeffs, u)[..n] == Scale(coeffs[..n], u);
      CombinationScale(coeffs[..n], xs[..n], u);
      assert coeffs[n] * u * xs[n] == u * (coeffs[n] * xs[n]);
    }
  }

  lemma DividesSum(c: int, x: int, y: int, p: int, q: int)
    requires Divides(c, x) && Divides(c, y)
    ensures Divides(c, x * p + y * q)
  {
    var kx :| x == c * kx;
    var ky :| y == c * ky;
    assert x * p + y * q == c * (kx * p + ky * q);
  }

  lemma DividesTransitive(a: int, b: int, c: int)
    requires Divides(a, b) && Divides(b, c)
    ensures Divides(a, c)
  {
    var k1 :| b == a * k1;
    var k2 :| c == b * k2;
    assert c == a * (k1 * k2);
  }

  lemma DividesItself(a: int)
    ensures Divides(a, a)
  {
    assert a == a * 1;
  }

  /** An extended Euclid standing in for Sage's `xgcd(a, b)`: `(g, s, t)`
      with `g >= 0` dividing both arguments and `a*s + b*t == g`. */
  function Xgcd(a: int, b: int): (r: (int, int, int))
    ensures r.0 >= 0
    ensures a * r.1 + b * r.2 == r.0
    ensures Divides(r.0, a) && Divides(r.0, b)
    decreases if b < 0 then -b else b
  {
    if b == 0 then
      assert a == a * 1 && 0 == a * 0 && -a * -1 == a && 0 == -a * 0;
      if a >= 0 then (a, 1, 0) else (-a, -1, 0)
    else
      var (g, s, t) := Xgcd(b, a % b);
      XgcdStep(a, b, g, s, t);
      (g, t, s - (a / b) * t)
  }

  /** One Euclid step of the extended gcd, read backwards. */
  lemma XgcdStep(a: int, b: int, g: int, s: int, t: int)
    requires b != 0
    requires b * s + (a % b) * t == g
    requires Divides(g, b) && Divides(g, a % b)
    ensures a * t + b * (s - (a / b) * t) == g
    ensures Divides(g, a)
  {
    var q := a / b;
    var m := a % b;
    assert a == b * q + m;
    assert a * t == b * q * t + m * t;
    assert b * (s - q * t) == b * s - b * q * t;
    DividesSum(g, b, m, q, 1);
  }

  /** The divisors of `xgcd(a, b)[0]` are exactly the common divisors of
      `a` and `b`. */
  lemma XgcdDivisors(a: int, b: int, c: int)
    ensures Divides(c, Xgcd(a, b).0) <==> Divides(c, a) && Divides(c, b)
  {
    var (g, s, t) := Xgcd(a, b);
    if Divides(c, g) {
      DividesTransitive(c, g, a);
      DividesTransitive(c, g, b);
    }
    if Divides(c, a) && Divides(c, b) {
      DividesSum(c, a, b, s, t);
    }
  }

  /** Two non-negative gcds of the same list are equal, so
      `assert d2 == d` in `xgcd_list` always holds. */
  lemma GcdUnique(g1: int, g2: int, xs: seq<int>)
    requires IsGcdOf(g1, xs) && IsGcdOf(g2, xs)
    ensures g1 == g2
  {
    DividesItself(g1);
    DividesItself(g2);
    assert forall k :: 0 <= k < |xs| ==> Divides(g1, xs[k]);
    assert forall k :: 0 <= k < |xs| ==> Divides(g2, xs[k]);
    assert Divides(g2, g1) && Divides(g1, g2);
    var k1 :| g1 == g2 * k1;
    var k2 :| g2 == g1 * k2;
    if g1 != 0 && g2 != 0 {
      assert g1 == g1 * (k2 * k1);
      assert k2 * k1 == 1;
      assert k1 > 0 by {
        assert g2 > 0 && g2 * k1 > 0;
      }
      assert k1 == 1;
    }
  }

  /** `xgcd_list(l)`: `(0, [])` for the empty list, `(l[0], [1])` for a
      singleton, and otherwise the gcd of the whole list with coefficients
      `coeffs` such that `sum(coeffs[i] * l[i]) == d`. */
  method XgcdList(l: seq<int>) returns (d: int, coeffs: seq<int>)
    ensures |coeffs| == |l|
    ensures Combination(coeffs, l) == d
    ensures |l| == 0 ==> d == 0 && coeffs == []
    ensures |l| == 1 ==> d == l[0] && coeffs == [1]
    ensures |l| >= 2 ==> IsGcdOf(d, l)
  {
    if |l| == 0 {
      return 0, [];
    }
    if |l| == 1 {
      assert l[..0] == [];
      return l[0], [1];
    }
    coeffs := [1];
    var a := l[0];
    var i := 0;
    assert l[..1] == [l[0]] && l[..1][..0] == [];
    while i < |l| - 1
      invariant 0 <= i <= |l| - 1
      invariant |coeffs| == i + 1
      invariant Combination(coeffs, l[..i + 1]) == a
      invariant i > 0 ==> a >= 0
      invariant forall c :: Divides(c, a) <==> (forall k :: 0 <= k <= i ==> Divides(c, l[k]))
    {
      var b := l[i + 1];
      var (d2, u, v) := Xgcd(a, b);
      CombinationScale(coeffs, l[..i + 1], u);
      var next := Scale(coeffs, u) + [v];
      assert l[..i + 2][..i + 1] == l[..i + 1];
      assert next[..i + 1] == Scale(coeffs, u);
      assert Combination(next, l[..i + 2]) == u * a + v * b;
      forall c
        ensures Divides(c, d2) <==> (forall k :: 0 <= k <= i + 1 ==> Divides(c, l[k]))
      {
        XgcdDivisors(a, b, c);
      }
      coeffs := next;
      a := d2;
      i := i + 1;
    }
    assert l[..|l|] == l;
    d := a;
  }
}

=== FILE: continued_fractions.dfy ===
/** `Util.evaluate_continued_fraction` and `Util.simple_rational`: rational
    approximation of a number by truncating its continued-fraction
    expansion at the first convergent within the tolerance. */
module ContinuedFractions {
  import opened Base
  import opened Rationals

  /** Value of `[l0; l1, ..., lk] = l0 + 1/(l1 + 1/(... + 1/lk))`, read
      from the left as the doc comment of the source describes it. An empty
      list has no last term (IndexError); a zero partial value is a
      division by zero. */
  function Eval(l: seq<int>): Result<real>
  {
    if |l| == 0 then Err(IndexError)
    else if |l| == 1 then Ok(l[0] as real)
    else match Eval(l[1..])
      case Err(e) => Err(e)
      case Ok(v) => if v == 0.0 then Err(ZeroDivision) else Ok(l[0] as real + 1.0 / v)
  }

  /** An error in the evaluation of a suffix is the error of the whole list. */
  lemma {:induction false} EvalErrorPropagates(l: seq<int>, k: nat)
    requires k < |l| && Eval(l[k..]).Err?
    ensures Eval(l) == Eval(l[k..])
    decreases k
  {
    if k > 0 {
      assert l[1..][k - 1..] == l[k..];
      EvalErrorPropagates(l[1..], k - 1);
    }
  }

  /** The loop of `evaluate_continued_fraction`: it folds the list from the
      right, `p := l[-1] + 1/p`, and computes the left-recursive value. */
  method EvaluateContinuedFraction(l: seq<int>) returns (r: Result<real>)
    ensures r == Eval(l)
  {
    if |l| == 0 {
      return Err(IndexError);
    }
    var p: real := l[|l| - 1] as real;
    var k := |l| - 1;
    while k > 0
      invariant 0 <= k < |l|
      invariant Eval(l[k..]) == Ok(p)
    {
      assert l[k - 1..][1..] == l[k..];
      if p == 0.0 {
        assert Eval(l[k - 1..]) == Err(ZeroDivision);
        EvalErrorPropagates(l, k - 1);
        return Err(ZeroDivision);
      }
      p := l[k - 1] as real + 1.0 / p;
      k := k - 1;
    }
    assert l[0..] == l;
    r := Ok(p);
  }

  /** Every partial quotient after the first is at least 1, as in the
      expansion of any number. */
  predicate Regular(l: seq<int>)
  {
    forall i :: 1 <= i < |l| ==> l[i] >= 1
  }

  /** Value of `[l0; ..., l(k-1), x]` whose last entry is the real complete
      quotient `x`. */
  function EvalWith(l: seq<int>, x: real): (r: real)
    requires Regular(l)
    requires |l| > 0 ==> x >= 1.0
    ensures (forall i :: 0 <= i < |l| ==> l[i] >= 1) && x >= 1.0 ==> r >= 1.0
  {
    if |l| == 0 then x
    else
      var v := EvalWith(l[1..], x);
      l[0] as real + 1.0 / v
  }

  /** Replacing the complete quotient `a + 1/y` by the term `a` followed by
      the complete quotient `y` keeps the value. */
  lemma {:induction false} EvalWithSplit(pre: seq<int>, x: real, a: int, y: real)
    requires Regular(pre) && Regular(pre + [a]) && y >= 1.0
    requires |pre| > 0 ==> x >= 1.0
    requires x == a as real + 1.0 / y
    ensures EvalWith(pre, x) == EvalWith(pre + [a], y)
  {
    if |pre| > 0 {
      assert (pre + [a])[1..] == pre[1..] + [a];
      EvalWithSplit(pre[1..], x, a, y);
    }
  }

  /** When the complete quotient is the integer `a`, the list `pre + [a]`
      evaluates to the same value. */
  lemma {:induction false} EvalWithIntegral(pre: seq<int>, a: int)
    requires Regular(pre) && Regular(pre + [a])
    requires |pre| > 0 ==> a >= 1
    ensures Eval(pre + [a]) == Ok(EvalWith(pre, a as real))
  {
    if |pre| > 0 {
      var t := pre[1..] + [a];
      assert (pre + [a])[1..] == t;
      EvalWithIntegral(pre[1..], a);
      var v := EvalWith(pre[1..], a as real);
      assert forall i :: 0 <= i < |t| ==> t[i] >= 1;
      assert Eval(t) == Ok(v) && v >= 1.0;
    }
  }

  /** A regular list always evaluates. */
  lemma {:induction false} RegularEvaluates(l: seq<int>)
    requires |l| > 0 && Regular(l)
    ensures Eval(l).Ok?
    ensures (forall i :: 0 <= i < |l| ==> l[i] >= 1) ==> Eval(l).value >= 1.0
  {
    if |l| > 1 {
      RegularEvaluates(l[1..]);
    }
  }

  /** The `while` loop of `simple_rational`, entered with the terms
      `pre + [floor(x)]` so far and the complete quotient `x` (a rational,
      so each step is one step of Euclid's algorithm on `(num, den)`). The
      loop stops at the first list within `r` of `p`; a zero remainder
      before that makes `1/(x - l[-1])` a division by zero. */
  function Expand(p: real, x: Rat, pre: seq<int>, r: real): (res: Result<seq<int>>)
    requires Regular(pre) && Regular(pre + [Floor(x)])
    requires |pre| > 0 ==> Value(x) >= 1.0
    requires p == EvalWith(pre, Value(x))
    ensures res.Ok? <==> r >= 0.0
    ensures res.Ok? ==> |res.value| > |pre| && res.value[..|pre| + 1] == pre + [Floor(x)]
    ensures res.Ok? ==> Regular(res.value) && Eval(res.value).Ok?
    ensures res.Ok? ==> Abs(p - Eval(res.value).value) <= r
    decreases x.den
  {
    var l := pre + [Floor(x)];
    RegularEvaluates(l);
    var q := Eval(l).value;
    if Abs(p - q) <= r then Ok(l)
    else if x.num % x.den == 0 then
      IntegralValue(x);
      EvalWithIntegral(pre, Floor(x));
      Err(ZeroDivision)
    else
      var x' := Fraction(x.den, x.num % x.den);
      ComplementStep(x);
      FloorBounds(x');
      EvalWithSplit(pre, Value(x), Floor(x), Value(x'));
      var res := Expand(p, x', l, r);
      assert res.Ok? ==> res.value[..|pre| + 1] == res.value[..|l| + 1][..|pre| + 1];
      res
  }

  /** The continued-fraction terms `simple_rational(p, r)` accumulates. */
  function Terms(p: Rat, r: real): (res: Result<seq<int>>)
    ensures res.Ok? <==> r >= 0.0
    ensures res.Ok? ==> |res.value| >= 1 && res.value[0] == Floor(p)
    ensures res.Ok? ==> Regular(res.value) && Eval(res.value).Ok?
    ensures res.Ok? ==> Abs(Value(p) - Eval(res.value).value) <= r
  {
    Expand(Value(p), p, [], r)
  }

  /** `simple_rational(p, r)`: the value of its own continued-fraction
      terms. For an exact rational `p` it succeeds exactly when `r >= 0`
      (for `r < 0` the expansion reaches a zero remainder and divides by
      zero); the result is within `r` of `p`, is `floor(p)` when `r >= 1`,
      and is `p` itself when `p` is an integer. */
  function SimpleRational(p: Rat, r: real): (res: Result<real>)
    ensures res.Ok? <==> r >= 0.0
    ensures res.Ok? ==> Abs(Value(p) - res.value) <= r
    ensures res.Ok? ==> exists l :: Terms(p, r) == Ok(l) && l[0] == Floor(p) && Eval(l) == res
    ensures r >= 1.0 ==> res == Ok(Floor(p) as real)
    ensures r >= 0.0 && p.num % p.den == 0 ==> res == Ok(Value(p))
  {
    FloorBounds(p);
    IntegralValue(p);
    match Terms(p, r)
    case Err(e) => Err(e)
    case Ok(l) => Eval(l)
  }
}

=== FILE: double_cover.dfy ===
/** The bookkeeping slice of `DoubleCover`: the per-operator memo of
    transition matrices and its reset, the choice of holomorphic forms and
    of the restriction variable, the triangular shape of the thimble
    intersection product, the placement of the basepoint, and the fibre and
    section classes. The algebra that produces forms, operators and
    monodromy (Picard–Fuchs equations, Gröbner bases, Smith forms) is
    represented by the values it hands to these pieces. */
module DoubleCover {
  import opened Base
  import opened Rationals
  import ContinuedFractions

  // ---------------------------------------------------------------------
  // Transition-matrix memo

  /** The cache attributes of a `DoubleCover`: `_integratedQ` and
      `_transition_matrices` (absent until the first request), and whether
      `_integrated_thimbles` and `_integrated_thimblesQ` are set (their
      contents belong to `integrated_thimbles`, which is not modelled). */
  datatype Memo<M> = Memo(
    integrated: Option<seq<bool>>,
    matrices: Option<seq<Option<M>>>,
    thimbles: bool,
    thimblesIntegrated: bool)

  /** The memo slots after processing a prefix of the request: the flags,
      the cached matrices, the operators integrated so far (in order), and
      the exception that stopped the loop, if any. */
  datatype Filled<M> = Filled(flags: seq<bool>, mats: seq<Option<M>>, calls: seq<nat>, error: Option<Error>)

  /** Every flagged slot holds the integral of its operator, which
      succeeded. */
  predicate Consistent<M(==)>(flags: seq<bool>, mats: seq<Option<M>>, integrate: nat -> Result<M>)
  {
    |flags| == |mats|
    && forall i :: 0 <= i < |flags| && flags[i] ==> integrate(i).Ok? && mats[i] == Some(integrate(i).value)
  }

  /** Every requested index is in range, and every one not yet flagged
      integrates without an exception: the loop then runs to the end. */
  predicate Completes<M>(flags: seq<bool>, integrate: nat -> Result<M>, l: seq<nat>)
  {
    forall k :: 0 <= k < |l| ==> l[k] < |flags| && (flags[l[k]] || integrate(l[k]).Ok?)
  }

  /** The exception that can stop the loop: IndexError from an index past
      the end of the flag list, or the exception `integrate` raised on a
      requested index. */
  predicate RaisedBy<M>(e: Error, integrate: nat -> Result<M>, l: seq<nat>)
  {
    e == IndexError || exists k :: 0 <= k < |l| && integrate(l[k]) == Err(e)
  }

  /** The loop `for i in l: if not _integratedQ[i]: ...`: integrate each
      unflagged index once, store it and flag it. An index past the end of
      the flag list raises IndexError, and an exception of `integrate`
      propagates before its slot is stored or flagged; either way the slots
      filled so far stay filled. `calls` lists every integration started,
      the failing one included. */
  function Fill<M>(flags: seq<bool>, mats: seq<Option<M>>, integrate: nat -> Result<M>, l: seq<nat>): (r: Filled<M>)
    requires |flags| == |mats|
    ensures |r.flags| == |flags| && |r.mats| == |flags|
    ensures r.error.None? <==> Completes(flags, integrate, l)
    ensures r.error.Some? ==> RaisedBy(r.error.value, integrate, l)
    ensures forall i :: 0 <= i < |flags| ==> r.flags[i] == (flags[i] || (i in r.calls && integrate(i).Ok?))
    ensures forall i :: 0 <= i < |flags| ==>
      r.mats[i] == if i in r.calls && integrate(i).Ok? then Some(integrate(i).value) else mats[i]
    decreases |l|
  {
    if |l| == 0 then Filled(flags, mats, [], None)
    else if l[0] >= |flags| then Filled(flags, mats, [], Some(IndexError))
    else if flags[l[0]] then
      var r := Fill(flags, mats, integrate, l[1..]);
      assert forall k :: 1 <= k < |l| ==> l[k] == l[1..][k - 1];
      r
    else
      var i := l[0];
      match integrate(i)
      case Err(e) => Filled(flags, mats, [i], Some(e))
      case Ok(m) =>
        var r := Fill(flags[i := true], mats[i := Some(m)], integrate, l[1..]);
        assert forall k :: 1 <= k < |l| ==> l[k] == l[1..][k - 1];
        Filled(r.flags, r.mats, [i] + r.calls, r.error)
  }

  /** The loop integrates only requested, unflagged operators, and none
      twice. */
  lemma {:induction false} FillCalls<M>(flags: seq<bool>, mats: seq<Option<M>>, integrate: nat -> Result<M>, l: seq<nat>)
    requires |flags| == |mats|
    ensures var r := Fill(flags, mats, integrate, l);
      && Distinct(r.calls)
      && (forall c :: c in r.calls ==> c in l && c < |flags| && !flags[c])
    decreases |l|
  {
    if |l| > 0 && l[0] < |flags| {
      assert forall c :: c in l[1..] ==> c in l;
      var i := l[0];
      if flags[i] {
        FillCalls(flags, mats, integrate, l[1..]);
      } else if integrate(i).Ok? {
        FillCalls(flags[i := true], mats[i := Some(integrate(i).value)], integrate, l[1..]);
      }
    }
  }

  /** When the loop runs to the end, every requested index is flagged. */
  lemma {:induction false} FillFlags<M>(flags: seq<bool>, mats: seq<Option<M>>, integrate: nat -> Result<M>, l: seq<nat>)
    requires |flags| == |mats|
    ensures var r := Fill(flags, mats, integrate, l);
      r.error.None? ==> forall k :: 0 <= k < |l| ==> r.flags[l[k]]
    decreases |l|
  {
    if |l| > 0 && l[0] < |flags| {
      assert forall k :: 1 <= k < |l| ==> l[k] == l[1..][k - 1];
      var i := l[0];
      if flags[i] {
        FillFlags(flags, mats, integrate, l[1..]);
      } else if integrate(i).Ok? {
        FillFlags(flags[i := true], mats[i := Some(integrate(i).value)], integrate, l[1..]);
      }
    }
  }

  /** What a call of `transition_matrices(l)` leaves behind and returns. */
  datatype Request<M> = Request(memo: Memo<M>, calls: seq<nat>, result: Result<seq<Option<M>>>)

  /** `transition_matrices(l)`: create the flag and cache lists (one slot
      per cohomology class, `n` of them) if absent, integrate every
      requested operator not yet flagged, and return the cached matrices in
      the order of `l`. An exception of the loop propagates, after the
      tables and the slots filled before it have been stored. */
  function TransitionMatrices<M>(memo: Memo<M>, n: nat, integrate: nat -> Result<M>, l: seq<nat>): (r: Request<M>)
    requires memo.integrated.Some? && memo.matrices.Some? ==> |memo.integrated.value| == |memo.matrices.value|
    requires memo.integrated.Some? <==> memo.matrices.Some?
    ensures r.memo.integrated.Some? && r.memo.matrices.Some?
    ensures r.memo.thimbles == memo.thimbles && r.memo.thimblesIntegrated == memo.thimblesIntegrated
    ensures r.result.Ok? ==> |r.result.value| == |l|
  {
    var flags := if memo.integrated.Some? then memo.integrated.value else seq(n, _ => false);
    var mats := if memo.matrices.Some? then memo.matrices.value else seq(n, _ => None);
    var f := Fill(flags, mats, integrate, l);
    var memo' := memo.(integrated := Some(f.flags), matrices := Some(f.mats));
    if f.error.Some? then Request(memo', f.calls, Err(f.error.value))
    else Request(memo', f.calls, Ok(seq(|l|, k requires 0 <= k < |l| => f.mats[l[k]])))
  }

  /** The flag and cache lists of a memo (empty ones when absent). */
  function Flags<M>(memo: Memo<M>, n: nat): seq<bool>
  {
    if memo.integrated.Some? then memo.integrated.value else seq(n, _ => false)
  }

  function Cache<M>(memo: Memo<M>, n: nat): seq<Option<M>>
  {
    if memo.matrices.Some? then memo.matrices.value else seq(n, _ => None)
  }

  /** A memo whose two lists are both present or both absent, of equal
      length, with every flagged slot holding its operator's integral. */
  predicate WellFormed<M(==)>(memo: Memo<M>, n: nat, integrate: nat -> Result<M>)
  {
    (memo.integrated.Some? <==> memo.matrices.Some?)
    && Consistent(Flags(memo, n), Cache(memo, n), integrate)
  }

  /** One entry per requested index, in the order requested, each the
      integral of that operator. The call fails exactly when an index is
      out of range or an unflagged operator fails to integrate, with
      IndexError or that operator's exception. Whether or not it fails, the
      memo stays consistent, and a slot is flagged afterwards exactly when
      it was flagged before or its operator was integrated successfully
      during the call. */
  lemma TransitionMatricesResult<M>(memo: Memo<M>, n: nat, integrate: nat -> Result<M>, l: seq<nat>)
    requires WellFormed(memo, n, integrate)
    ensures var r := TransitionMatrices(memo, n, integrate, l);
      && WellFormed(r.memo, n, integrate)
      && (r.result.Ok? <==> Completes(Flags(memo, n), integrate, l))
      && (r.result.Err? ==> RaisedBy(r.result.error, integrate, l))
      && (forall i :: 0 <= i < |Flags(memo, n)| ==>
            r.memo.integrated.value[i] == (Flags(memo, n)[i] || (i in r.calls && integrate(i).Ok?)))
      && (r.result.Ok? ==> forall k :: 0 <= k < |l| ==>
            integrate(l[k]).Ok? && r.result.value[k] == Some(integrate(l[k]).value))
      && (r.result.Ok? ==> forall k :: 0 <= k < |l| ==> r.memo.integrated.value[l[k]])
  {
    var flags := Flags(memo, n);
    var mats := Cache(memo, n);
    var f := Fill(flags, mats, integrate, l);
    FillFlags(flags, mats, integrate, l);
    assert Consistent(f.flags, f.mats, integrate);
  }

  /** Each operator is integrated at most once between resets: only
      requested, unflagged indices are integrated, none twice, and every
      requested unflagged index is integrated when the request succeeds. */
  lemma IntegratedOnce<M>(memo: Memo<M>, n: nat, integrate: nat -> Result<M>, l: seq<nat>)
    requires WellFormed(memo, n, integrate)
    ensures var r := TransitionMatrices(memo, n, integrate, l);
      && Distinct(r.calls)
      && (forall c :: c in r.calls ==> c in l && c < |Flags(memo, n)| && !Flags(memo, n)[c])
      && (forall k :: 0 <= k < |l| && l[k] < |Flags(memo, n)| && !Flags(memo, n)[l[k]] && r.result.Ok? ==> l[k] in r.calls)
  {
    FillCalls(Flags(memo, n), Cache(memo, n), integrate, l);
    FillFlags(Flags(memo, n), Cache(memo, n), integrate, l);
  }

  /** Asking again for matrices already computed integrates nothing and
      returns the same list. */
  lemma SecondRequestIsCached<M>(memo: Memo<M>, n: nat, integrate: nat -> Result<M>, l: seq<nat>)
    requires WellFormed(memo, n, integrate)
    requires TransitionMatrices(memo, n, integrate, l).result.Ok?
    ensures var r := TransitionMatrices(memo, n, integrate, l);
      var r2 := TransitionMatrices(r.memo, n, integrate, l);
      r2.calls == [] && r2.result == r.result && r2.memo == r.memo
  {
    var r := TransitionMatrices(memo, n, integrate, l);
    TransitionMatricesResult(memo, n, integrate, l);
    var r2 := TransitionMatrices(r.memo, n, integrate, l);
    TransitionMatricesResult(r.memo, n, integrate, l);
    FillAllFlagged(r.memo.integrated.value, r.memo.matrices.value, integrate, l);
    assert r2.result.value == r.result.value;
  }

  /** When every requested index is in range and flagged, the loop changes
      nothing and integrates nothing. */
  lemma {:induction false} FillAllFlagged<M>(flags: seq<bool>, mats: seq<Option<M>>, integrate: nat -> Result<M>, l: seq<nat>)
    requires |flags| == |mats|
    requires forall k :: 0 <= k < |l| ==> l[k] < |flags| && flags[l[k]]
    ensures Fill(flags, mats, integrate, l) == Filled(flags, mats, [], None)
    decreases |l|
  {
    if |l| > 0 {
      assert forall k :: 1 <= k < |l| ==> l[k] == l[1..][k - 1];
      FillAllFlagged(flags, mats, integrate, l[1..]);
    }
  }

  /** `forget_transition_matrices`: delete the four cache attributes in
      turn; deleting one that is not set raises AttributeError, after the
      earlier deletions have happened. */
  function Forget<M>(memo: Memo<M>): (r: (Memo<M>, Result<()>))
    ensures r.1.Ok? <==> memo.integrated.Some? && memo.matrices.Some? && memo.thimbles && memo.thimblesIntegrated
    ensures r.1.Err? ==> r.1.error == AttributeError
    ensures r.1.Ok? ==> r.0 == Memo(None, None, false, false)
  {
    if memo.integrated.None? then (memo, Err(AttributeError))
    else
      var m1 := memo.(integrated := None);
      if m1.matrices.None? then (m1, Err(AttributeError))
      else
        var m2 := m1.(matrices := None);
        if !m2.thimbles then (m2, Err(AttributeError))
        else
          var m3 := m2.(thimbles := false);
          if !m3.thimblesIntegrated then (m3, Err(AttributeError))
          else (m3.(thimblesIntegrated := false), Ok(()))
  }

  /** After a reset, the next request integrates requested operators
      again, each at most once; it succeeds exactly when every requested
      operator integrates, and then every one of them is integrated. */
  lemma ForgetRecomputes<M>(memo: Memo<M>, n: nat, integrate: nat -> Result<M>, l: seq<nat>)
    requires Forget(memo).1.Ok?
    requires forall k :: 0 <= k < |l| ==> l[k] < n
    ensures var r := TransitionMatrices(Forget(memo).0, n, integrate, l);
      && (r.result.Ok? <==> forall k :: 0 <= k < |l| ==> integrate(l[k]).Ok?)
      && Distinct(r.calls)
      && (forall c :: c in r.calls ==> c in l)
      && (r.result.Ok? ==> forall c :: c in l ==> c in r.calls)
  {
    var cleared := Forget(memo).0;
    assert WellFormed(cleared, n, integrate);
    IntegratedOnce(cleared, n, integrate, l);
    TransitionMatricesResult(cleared, n, integrate, l);
  }

  // ---------------------------------------------------------------------
  // Holomorphic forms

  /** `min(s)` over a non-empty list. */
  function Min(s: seq<nat>): (m: nat)
    requires |s| > 0
    ensures m in s
    ensures forall k :: 0 <= k < |s| ==> m <= s[k]
  {
    if |s| == 1 then s[0]
    else
      var rest := Min(s[1..]);
      assert forall k :: 1 <= k < |s| ==> s[k] == s[1..][k - 1];
      if s[0] <= rest then s[0] else rest
  }

  /** `[i for i, m in enumerate(s) if m == d]`, starting at position `from`. */
  function IndicesOf(s: seq<nat>, d: nat, from: nat): (r: seq<nat>)
    requires from <= |s|
    ensures forall i :: i in r <==> from <= i < |s| && s[i] == d
    ensures forall a, b :: 0 <= a < b < |r| ==> r[a] < r[b]
    ensures forall a :: 0 <= a < |r| ==> from <= r[a]
    decreases |s| - from
  {
    if from == |s| then []
    else
      var rest := IndicesOf(s, d, from + 1);
      if s[from] == d then [from] + rest else rest
  }

  /** `holomorphic_forms`: the positions, in increasing order, of the
      cohomology classes whose degree is the least degree; `min` of an
      empty cohomology raises ValueError. */
  function HolomorphicForms(degrees: seq<nat>): (r: Result<seq<nat>>)
    ensures r.Err? <==> |degrees| == 0
    ensures r.Err? ==> r.error == ValueError
    ensures r.Ok? ==> forall i :: i in r.value <==> 0 <= i < |degrees| && forall k :: 0 <= k < |degrees| ==> degrees[i] <= degrees[k]
    ensures r.Ok? ==> forall a, b :: 0 <= a < b < |r.value| ==> r.value[a] < r.value[b]
  {
    if |degrees| == 0 then Err(ValueError)
    else Ok(IndicesOf(degrees, Min(degrees), 0))
  }

  /** The least degree is attained, so there is at least one holomorphic
      form. */
  lemma HolomorphicFormsNonEmpty(degrees: seq<nat>)
    requires |degrees| > 0
    ensures HolomorphicForms(degrees).Ok? && |HolomorphicForms(degrees).value| > 0
  {
    var m := Min(degrees);
    var i :| 0 <= i < |degrees| && degrees[i] == m;
    assert i in HolomorphicForms(degrees).value;
  }

  // ---------------------------------------------------------------------
  // Restriction variable

  /** `_restriction_variable`: scan `range(dim + 2)` for the first non-zero
      coefficient of the first fibration form; without one the loop variable
      ends at `dim + 1`. Reading past the end of the form raises
      IndexError. */
  function RestrictionVariable(row: seq<int>, dim: nat): (r: Result<nat>)
    ensures r.Ok? ==> r.value <= dim + 1 && r.value < |row|
    ensures r.Ok? ==> forall j :: 0 <= j < r.value ==> row[j] == 0
    ensures r.Ok? ==> row[r.value] != 0 || (r.value == dim + 1 && forall j :: 0 <= j <= dim + 1 ==> row[j] == 0)
    ensures r.Err? ==> r.error == IndexError && |row| < dim + 2 && forall j :: 0 <= j < |row| ==> row[j] == 0
  {
    ScanFrom(row, dim + 2, 0)
  }

  function ScanFrom(row: seq<int>, bound: nat, i: nat): (r: Result<nat>)
    requires 1 <= bound && i < bound
    requires forall j :: 0 <= j < i ==> j < |row| && row[j] == 0
    ensures r.Ok? ==> i <= r.value < bound && r.value < |row|
    ensures r.Ok? ==> forall j :: 0 <= j < r.value ==> row[j] == 0
    ensures r.Ok? ==> row[r.value] != 0 || (r.value == bound - 1 && forall j :: 0 <= j < bound ==> row[j] == 0)
    ensures r.Err? ==> r.error == IndexError && |row| < bound && forall j :: 0 <= j < |row| ==> row[j] == 0
    decreases bound - i
  {
    if i >= |row| then Err(IndexError)
    else if row[i] != 0 || i == bound - 1 then Ok(i)
    else ScanFrom(row, bound, i + 1)
  }

  /** On a form of the expected length `dim + 2` with a non-zero
      coefficient, the restriction variable is the least index of a non-zero
      coefficient. */
  lemma RestrictionVariableIsFirstNonZero(row: seq<int>, dim: nat, i: nat)
    requires |row| == dim + 2 && i < |row| && row[i] != 0
    ensures RestrictionVariable(row, dim).Ok?
    ensures var v := RestrictionVariable(row, dim).value;
      v <= i && row[v] != 0 && forall j :: 0 <= j < v ==> row[j] == 0
  {
  }

  // ---------------------------------------------------------------------
  // Thimble intersection product

  /** `_compute_intersection_product_thimbles(i, j)`: the self-pairing
      `resid(i)` on the diagonal, the pairing `res(i, j)` of the two
      vanishing cycles above it, and 0 below. */
  function ThimbleProduct(i: nat, j: nat, res: (nat, nat) -> int, resid: nat -> int): int
  {
    if i == j then resid(i) else if i < j then res(i, j) else 0
  }

  /** `inter_prod_thimbles`: the `r × r` matrix of thimble products. */
  function ThimbleMatrix(r: nat, res: (nat, nat) -> int, resid: nat -> int): (m: seq<seq<int>>)
    ensures |m| == r && forall i :: 0 <= i < r ==> |m[i]| == r
    ensures forall i, j :: 0 <= i < r && 0 <= j < r ==> m[i][j] == ThimbleProduct(i, j, res, resid)
  {
    seq(r, i requires 0 <= i < r => seq(r, j requires 0 <= j < r => ThimbleProduct(i, j, res, resid)))
  }

  predicate UpperTriangular(m: seq<seq<int>>)
  {
    forall i, j :: 0 <= j < i < |m| && j < |m[i]| ==> m[i][j] == 0
  }

  /** The thimble intersection matrix is upper triangular, with the
      self-pairings on the diagonal and the cross pairings above it. */
  lemma ThimbleMatrixTriangular(r: nat, res: (nat, nat) -> int, resid: nat -> int)
    ensures UpperTriangular(ThimbleMatrix(r, res, resid))
    ensures forall i :: 0 <= i < r ==> ThimbleMatrix(r, res, resid)[i][i] == resid(i)
    ensures forall i, j :: 0 <= i < j < r ==> ThimbleMatrix(r, res, resid)[i][j] == res(i, j)
  {
  }

  // ---------------------------------------------------------------------
  // Basepoint

  /** `min(reals)` and `max(reals)` by value. */
  function MinRat(s: seq<Rat>): (m: Rat)
    requires |s| > 0
    ensures m in s
    ensures forall k :: 0 <= k < |s| ==> Value(m) <= Value(s[k])
  {
    if |s| == 1 then s[0]
    else
      var rest := MinRat(s[1..]);
      assert forall k :: 1 <= k < |s| ==> s[k] == s[1..][k - 1];
      if Value(s[0]) <= Value(rest) then s[0] else rest
  }

  function MaxRat(s: seq<Rat>): (m: Rat)
    requires |s| > 0
    ensures m in s
    ensures forall k :: 0 <= k < |s| ==> Value(s[k]) <= Value(m)
  {
    if |s| == 1 then s[0]
    else
      var rest := MaxRat(s[1..]);
      assert forall k :: 1 <= k < |s| ==> s[k] == s[1..][k - 1];
      if Value(s[0]) >= Value(rest) then s[0] else rest
  }

  /** `basepoint`: `assert self.dim > 0` first (AssertionError for a
      variety of dimension 0 or less); then 0 for a long fibration at
      positive depth; otherwise `simple_rational(xmin - (xmax - xmin),
      (xmax - xmin)/10)` over the real parts of the critical values (`min`
      of none raises ValueError). */
  function Basepoint(dim: int, longFibration: bool, depth: int, reals: seq<Rat>): (r: Result<real>)
    ensures dim <= 0 ==> r == Err(AssertionFailed)
    ensures dim > 0 && longFibration && depth > 0 ==> r == Ok(0.0)
    ensures dim > 0 && !(longFibration && depth > 0) ==> (r.Err? <==> |reals| == 0)
    ensures r.Err? ==> r.error == if dim <= 0 then AssertionFailed else ValueError
    ensures r.Ok? && !(longFibration && depth > 0) ==>
      var lo := Value(MinRat(reals));
      var hi := Value(MaxRat(reals));
      Abs(r.value - (lo - (hi - lo))) <= (hi - lo) / 10.0
  {
    if dim <= 0 then Err(AssertionFailed)
    else if longFibration && depth > 0 then Ok(0.0)
    else if |reals| == 0 then Err(ValueError)
    else
      var xmin := MinRat(reals);
      var xmax := MaxRat(reals);
      var width := SubScaled(xmax, xmin, 1);
      ContinuedFractions.SimpleRational(SubScaled(xmin, width, 1), Value(width) / 10.0)
  }

  /** Being within a tenth of the spread of `xmin - (xmax - xmin)`, the
      basepoint lies strictly left of every critical value when their real
      parts are not all equal, and at `xmin` when they are. */
  lemma BasepointLeftOfCriticalValues(dim: int, reals: seq<Rat>, depth: int, longFibration: bool)
    requires dim > 0 && |reals| > 0 && !(longFibration && depth > 0)
    ensures var b := Basepoint(dim, longFibration, depth, reals).value;
      var lo := Value(MinRat(reals));
      var hi := Value(MaxRat(reals));
      && (lo < hi ==> forall k :: 0 <= k < |reals| ==> b < Value(reals[k]))
      && (lo == hi ==> b == lo)
  {
    var lo := Value(MinRat(reals));
    var hi := Value(MaxRat(reals));
    var b := Basepoint(dim, longFibration, depth, reals).value;
    BasepointBound(lo, hi, b);
  }

  /** The arithmetic behind the basepoint bound. */
  lemma BasepointBound(lo: real, hi: real, b: real)
    requires lo <= hi && Abs(b - (lo - (hi - lo))) <= (hi - lo) / 10.0
    ensures lo < hi ==> b < lo
    ensures lo == hi ==> b == lo
  {
  }

  // ---------------------------------------------------------------------
  // Fibre and section classes

  /** `[0] * n`. */
  function Zeros(n: nat): (r: seq<int>)
    ensures |r| == n && forall k :: 0 <= k < n ==> r[k] == 0
  {
    seq(n, _ => 0)
  }

  /** `fibre_class`: `[0] * n + [1, 0]` for `n` extensions. */
  function FibreClass(n: nat): (v: seq<int>)
    ensures |v| == n + 2
    ensures forall k :: 0 <= k < n + 2 ==> v[k] == if k == n then 1 else 0
  {
    Zeros(n) + [1, 0]
  }

  /** `section`: `[0] * n + [0, 1]`. */
  function Section(n: nat): (v: seq<int>)
    ensures |v| == n + 2
    ensures forall k :: 0 <= k < n + 2 ==> v[k] == if k == n + 1 then 1 else 0
  {
    Zeros(n) + [0, 1]
  }

  /** The fibre and section classes are distinct unit vectors with
      disjoint supports, whose sum is `[0] * n + [1, 1]`. */
  lemma FibreAndSectionDisjoint(n: nat)
    ensures FibreClass(n) != Section(n)
    ensures forall k :: 0 <= k < n + 2 ==> FibreClass(n)[k] * Section(n)[k] == 0
    ensures forall k :: 0 <= k < n + 2 ==> FibreClass(n)[k] + Section(n)[k] == if k < n then 0 else 1
  {
    assert FibreClass(n)[n] != Section(n)[n];
  }
}

=== FILE: elliptic.dfy ===
/** `EllipticSingularities`: Kodaira types of elliptic fibres read off from
    the trace of an integer 2×2 monodromy matrix, the tables of normal forms
    and of confluence words in `U` and `V`, and the sign fix that turns the
    vanishing cycle and its complement into a base change of determinant 1.
    The Gröbner-basis conjugation search, the image basis and the linear
    solver are oracles passed as parameters. */
module Elliptic {
  import opened Base
  import Bezout

  /** The integer matrix `[[a, b], [c, d]]`. */
  datatype Mat = Mat(a: int, b: int, c: int, d: int)

  function Mul(x: Mat, y: Mat): Mat
  {
    Mat(x.a * y.a + x.b * y.c, x.a * y.b + x.b * y.d,
        x.c * y.a + x.d * y.c, x.c * y.b + x.d * y.d)
  }

  function Det(m: Mat): int
  {
    m.a * m.d - m.b * m.c
  }

  function Trace(m: Mat): int
  {
    m.a + m.d
  }

  function Transpose(m: Mat): Mat
  {
    Mat(m.a, m.c, m.b, m.d)
  }

  /** `m + s·1`: `M - 1` for `s = -1`, `M + 1` for `s = 1`. */
  function Shift(m: Mat, s: int): Mat
  {
    Mat(m.a + s, m.b, m.c, m.d + s)
  }

  const Id: Mat := Mat(1, 0, 0, 1)
  const MinusId: Mat := Mat(-1, 0, 0, -1)

  /** The Kodaira types the classification distinguishes. */
  datatype Kind = I | II | III | IV | IStar | IIStar | IIIStar | IVStar

  /** The dictionary key of each type. */
  function Name(k: Kind): string
  {
    match k
    case I => "I"
    case II => "II"
    case III => "III"
    case IV => "IV"
    case IStar => "I*"
    case IIStar => "II*"
    case IIIStar => "III*"
    case IVStar => "IV*"
  }

  /** `classes`: the normal form of the monodromy of each type. */
  function Classes(k: Kind): Mat
  {
    match k
    case I => Mat(1, 1, 0, 1)
    case II => Mat(1, 1, -1, 0)
    case III => Mat(0, 1, -1, 0)
    case IV => Mat(0, 1, -1, -1)
    case IStar => Mat(-1, -1, 0, -1)
    case IIStar => Mat(0, -1, 1, 1)
    case IIIStar => Mat(0, -1, 1, 0)
    case IVStar => Mat(-1, -1, 1, 0)
  }

  /** The generators `U = [[1, 1], [0, 1]]` and `V = [[1, 0], [-1, 1]]`
      the confluence words are spelled with. */
  datatype Letter = U | V

  function Matrix(l: Letter): Mat
  {
    match l
    case U => Mat(1, 1, 0, 1)
    case V => Mat(1, 0, -1, 1)
  }

  /** Left multiplication by a generator, written out: `U` adds the
      second row to the first, `V` subtracts the first row from the
      second. */
  function Apply(l: Letter, x: Mat): Mat
  {
    match l
    case U => Mat(x.a + x.c, x.b + x.d, x.c, x.d)
    case V => Mat(x.a, x.b, x.c - x.a, x.d - x.b)
  }

  lemma ApplyIsProduct(l: Letter, x: Mat)
    ensures Apply(l, x) == Mul(Matrix(l), x)
    ensures Det(Apply(l, x)) == Det(x)
  {
  }

  /** Python's `w * n` on lists. */
  function Repeat<T>(w: seq<T>, n: nat): (r: seq<T>)
    ensures |r| == |w| * n
  {
    if n == 0 then [] else w + Repeat(w, n - 1)
  }

  /** `fibre_confluence`: for each type, a word in `U` and `V` whose
      product has that type's monodromy. */
  function FibreConfluence(k: Kind): seq<Letter>
  {
    match k
    case I => [U]
    case II => [U, V]
    case III => [V, U, V]
    case IV => Repeat([U, V], 2)
    case IStar => Repeat([U, V], 3) + [U]
    case IIStar => Repeat([U, V], 5)
    case IIIStar => Repeat([U, V], 3) + [V, U, V]
    case IVStar => Repeat([U, V], 4)
  }

  /** `w[0]·w[1]·…·x`: the word, read left to right, multiplied onto `x`. */
  function Act(w: seq<Letter>, x: Mat): Mat
  {
    if |w| == 0 then x else Apply(w[0], Act(w[1..], x))
  }

  /** The product of the matrices of a word, read left to right. */
  function WordProduct(w: seq<Letter>): Mat
  {
    Act(w, Id)
  }

  /** `WordProduct` is the matrix product `w[0]·(w[1]·…)`. */
  lemma WordProductIsProduct(w: seq<Letter>)
    ensures |w| == 0 ==> WordProduct(w) == Id
    ensures |w| > 0 ==> WordProduct(w) == Mul(Matrix(w[0]), WordProduct(w[1..]))
  {
    if |w| > 0 {
      ApplyIsProduct(w[0], Act(w[1..], Id));
    }
  }

  /** Every word in `U` and `V` multiplies to a matrix of SL(2, Z). */
  lemma WordUnimodular(w: seq<Letter>)
    ensures Det(WordProduct(w)) == 1
  {
    ActUnimodular(w, Id);
  }

  lemma {:induction false} ActUnimodular(w: seq<Letter>, x: Mat)
    ensures Det(Act(w, x)) == Det(x)
  {
    if |w| > 0 {
      ActUnimodular(w[1..], x);
      ApplyIsProduct(w[0], Act(w[1..], x));
    }
  }

  /** Multiplying by a concatenated word is multiplying by each part. */
  lemma {:induction false} ActAppend(w1: seq<Letter>, w2: seq<Letter>, x: Mat)
    ensures Act(w1 + w2, x) == Act(w1, Act(w2, x))
  {
    if |w1| == 0 {
      assert w1 + w2 == w2;
    } else {
      assert (w1 + w2)[1..] == w1[1..] + w2;
      ActAppend(w1[1..], w2, x);
    }
  }

  /** The type names are pairwise different, so the tables are
      dictionaries with eight keys. */
  lemma NamesDistinct(k1: Kind, k2: Kind)
    ensures Name(k1) == Name(k2) <==> k1 == k2
  {
  }

  /** Every normal form lies in SL(2, Z) and has the trace under which
      `monodromy_class` files it. */
  lemma ClassesUnimodular(k: Kind)
    ensures Det(Classes(k)) == 1
    ensures Trace(Classes(k)) == BranchTrace(k)
  {
  }

  /** The trace test of `monodromy_class` that leads to each type. */
  function BranchTrace(k: Kind): int
  {
    match k
    case I => 2
    case II | IIStar => 1
    case III | IIIStar => 0
    case IV | IVStar => -1
    case IStar => -2
  }

  /** `U·V·U·V·U·V = -1`. */
  lemma UVCube(y: Mat)
    ensures Apply(U, Apply(V, Apply(U, Apply(V, Apply(U, Apply(V, y)))))) == Mat(-y.a, -y.b, -y.c, -y.d)
  {
  }

  /** One more copy of `[U, V]` in front multiplies by `U·V`. */
  lemma RepeatStep(n: nat, t: seq<Letter>, x: Mat)
    ensures Act(Repeat([U, V], n + 1) + t, x) == Apply(U, Apply(V, Act(Repeat([U, V], n) + t, x)))
  {
    var r := Repeat([U, V], n);
    assert Repeat([U, V], n + 1) + t == [U, V] + (r + t);
    assert ([U, V] + (r + t))[1..] == [V] + (r + t);
    assert ([V] + (r + t))[1..] == r + t;
  }

  /** The product of each confluence word, in closed form. */
  function ConfluenceProduct(k: Kind): Mat
  {
    match k
    case I => Mat(1, 1, 0, 1)
    case II => Mat(0, 1, -1, 1)
    case III => Mat(0, 1, -1, 0)
    case IV => Mat(-1, 1, -1, 0)
    case IStar => Mat(-1, -1, 0, -1)
    case IIStar => Mat(1, -1, 1, 0)
    case IIIStar => Mat(0, -1, 1, 0)
    case IVStar => Mat(0, -1, 1, -1)
  }

  /** Multiplying by a confluence word, letter by letter, is multiplying by
      its product. */
  lemma ConfluenceActs(k: Kind, x: Mat)
    ensures Act(FibreConfluence(k), x) == Mul(ConfluenceProduct(k), x)
  {
    match k
    case I =>
      assert [U][1..] == [];
    case II =>
      RepeatStep(0, [], x);
      assert Repeat([U, V], 1) + [] == [U, V] && Repeat([U, V], 0) + [] == [];
    case III => ActsIII(x);
    case IV => ActsIV(x);
    case IStar => ActsIStar(x);
    case IIStar => ActsIIStar(x);
    case IIIStar => ActsIIIStar(x);
    case IVStar => ActsIVStar(x);
  }

  lemma ActsIII(x: Mat)
    ensures Act(FibreConfluence(III), x) == Mul(ConfluenceProduct(III), x)
  {
    RepeatStep(0, [], x);
    assert Repeat([U, V], 1) + [] == [U, V] == [V, U, V][1..] && Repeat([U, V], 0) + [] == [];
  }

  lemma ActsIV(x: Mat)
    ensures Act(FibreConfluence(IV), x) == Mul(ConfluenceProduct(IV), x)
  {
    RepeatStep(1, [], x);
    RepeatStep(0, [], x);
    assert Repeat([U, V], 2) + [] == Repeat([U, V], 2) && Repeat([U, V], 0) + [] == [];
  }

  lemma ActsIStar(x: Mat)
    ensures Act(FibreConfluence(IStar), x) == Mul(ConfluenceProduct(IStar), x)
  {
    RepeatStep(2, [U], x);
    RepeatStep(1, [U], x);
    RepeatStep(0, [U], x);
    assert Repeat([U, V], 0) + [U] == [U] && [U][1..] == [];
    UVCube(Apply(U, x));
  }

  lemma ActsIIStar(x: Mat)
    ensures Act(FibreConfluence(IIStar), x) == Mul(ConfluenceProduct(IIStar), x)
  {
    RepeatStep(4, [], x);
    RepeatStep(3, [], x);
    RepeatStep(2, [], x);
    RepeatStep(1, [], x);
    RepeatStep(0, [], x);
    UVCube(x);
    assert Repeat([U, V], 5) + [] == Repeat([U, V], 5) && Repeat([U, V], 0) + [] == [];
  }

  lemma ActsIIIStar(x: Mat)
    ensures Act(FibreConfluence(IIIStar), x) == Mul(ConfluenceProduct(IIIStar), x)
  {
    var t := [V, U, V];
    RepeatStep(2, t, x);
    RepeatStep(1, t, x);
    RepeatStep(0, t, x);
    assert Repeat([U, V], 0) + t == t == FibreConfluence(III);
    ActsIII(x);
    UVCube(Act(t, x));
  }

  lemma ActsIVStar(x: Mat)
    ensures Act(FibreConfluence(IVStar), x) == Mul(ConfluenceProduct(IVStar), x)
  {
    RepeatStep(3, [], x);
    RepeatStep(2, [], x);
    RepeatStep(1, [], x);
    RepeatStep(0, [], x);
    UVCube(x);
    assert Repeat([U, V], 4) + [] == Repeat([U, V], 4) && Repeat([U, V], 0) + [] == [];
  }

  /** The product of each confluence word lies in SL(2, Z). */
  lemma ConfluenceUnimodular(k: Kind)
    ensures Det(ConfluenceProduct(k)) == 1
  {
  }

  /** The product of each confluence word has the trace of the normal form
      of the same type, the invariant a conjugation keeps. */
  lemma ConfluenceTraces(k: Kind)
    ensures Trace(ConfluenceProduct(k)) == Trace(Classes(k))
  {
  }

  /** `matrix([v, c]).transpose()`: the matrix with columns `v` and `c`. */
  function Columns(v: (int, int), c: (int, int)): Mat
  {
    Mat(v.0, c.0, v.1, c.1)
  }

  /** Negating the first column negates the determinant. */
  lemma NegateFirstColumn(v: (int, int), c: (int, int))
    ensures Det(Columns((-v.0, -v.1), c)) == -Det(Columns(v, c))
  {
  }

  /** The end of `normalize_Iv` and `normalize_Ivstar`: the columns
      `vanishing, compl`, with the first one negated when the determinant
      is not 1; anything but determinant 1 then fails the final
      `assert`. */
  function SignFix(vanishing: (int, int), compl: (int, int)): (r: Result<Mat>)
    ensures r.Ok? <==> Det(Columns(vanishing, compl)) == 1 || Det(Columns(vanishing, compl)) == -1
    ensures r.Err? ==> r.error == AssertionFailed
    ensures r.Ok? ==> Det(r.value) == 1
    ensures r.Ok? ==> r.value == Columns(vanishing, compl) || r.value == Columns((-vanishing.0, -vanishing.1), compl)
  {
    var bc := Columns(vanishing, compl);
    var bc' := if Det(bc) != 1 then Columns((-vanishing.0, -vanishing.1), compl) else bc;
    NegateFirstColumn(vanishing, compl);
    if Det(bc') == 1 then Ok(bc') else Err(AssertionFailed)
  }

  /** The numerical and algebraic helpers the classification calls:
      `find_conjugation(M1, M2)` (the list of base changes it found, or the
      exception it raised), the first basis vector of the image of a matrix
      (`(0, 0)` standing for an empty basis, so only for the zero matrix),
      and `solve_right`. */
  datatype Oracles = Oracles(
    conjugations: (Mat, Mat) -> Result<seq<Mat>>,
    image: Mat -> (int, int),
    solveRight: (Mat, (int, int)) -> Result<(int, int)>)

  /** `find_conjugation(M1, M2)[0]`: IndexError when the search found
      nothing. */
  function FirstConjugation(o: Oracles, m1: Mat, m2: Mat): (r: Result<Mat>)
    ensures r.Ok? <==> o.conjugations(m1, m2).Ok? && |o.conjugations(m1, m2).value| > 0
    ensures r.Ok? ==> r.value == o.conjugations(m1, m2).value[0]
  {
    match o.conjugations(m1, m2)
    case Err(e) => Err(e)
    case Ok(s) => if |s| == 0 then Err(IndexError) else Ok(s[0])
  }

  /** `vanishing / v` on an integer vector, `v` not 0. */
  function Quotient(w: (int, int), v: int): (int, int)
    requires v != 0
  {
    (w.0 / v, w.1 / v)
  }

  /** `normalize_Iv(M)` for `s = -1` and `normalize_Ivstar(M)` for
      `s = 1`: the vanishing cycle is the image vector `w` of `(M + s)ᵀ`
      divided by the gcd `v` of its entries (IndexError from `basis()[0]`
      when the image is zero); its complement solves `(M + s)·x = vanishing·v`; the sign fix makes
      the base change unimodular. The result is the base change and `v`. */
  function Normalize(o: Oracles, m: Mat, s: int): (r: Result<(Mat, int)>)
    ensures o.image(Transpose(Shift(m, s))) == (0, 0) ==> r == Err(IndexError)
    ensures r.Ok? ==> var w := o.image(Transpose(Shift(m, s)));
      && r.value.1 == Bezout.Xgcd(w.0, w.1).0 && r.value.1 > 0
      && Det(r.value.0) == 1
      && var q := Quotient(w, r.value.1);
         && o.solveRight(Shift(m, s), (q.0 * r.value.1, q.1 * r.value.1)) == Ok((r.value.0.b, r.value.0.d))
         && ((r.value.0.a, r.value.0.c) == q || (r.value.0.a, r.value.0.c) == (-q.0, -q.1))
  {
    var w := o.image(Transpose(Shift(m, s)));
    var v := Bezout.Xgcd(w.0, w.1).0;
    if v == 0 then Err(IndexError)
    else
      var vanishing := Quotient(w, v);
      match o.solveRight(Shift(m, s), (vanishing.0 * v, vanishing.1 * v))
      case Err(e) => Err(e)
      case Ok(compl) =>
        match SignFix(vanishing, compl)
        case Err(e) => Err(e)
        case Ok(bc) => Ok((bc, v))
  }

  /** What `monodromy_class` returns: the type, a base change, and the
      multiplicity of the vanishing cycle (0 for ±identity, 1 for the
      finite-order types). */
  datatype Classification = Classification(kind: Kind, baseChange: Mat, index: int)

  /** Types with trace 0 or −1: the first type if `find_conjugation`
      finds a base change to its normal form; any exception there falls
      through to the starred type, whose exceptions propagate. */
  function TryPair(o: Oracles, m: Mat, first: Kind, second: Kind): (r: Result<Classification>)
    ensures r.Ok? ==> r.value.kind == first || r.value.kind == second
    ensures FirstConjugation(o, m, Classes(first)).Ok? ==> r == Ok(Classification(first, FirstConjugation(o, m, Classes(first)).value, 1))
    ensures FirstConjugation(o, m, Classes(first)).Err? ==> r.Ok? == FirstConjugation(o, m, Classes(second)).Ok?
    ensures FirstConjugation(o, m, Classes(first)).Err? && FirstConjugation(o, m, Classes(second)).Ok? ==>
      r == Ok(Classification(second, FirstConjugation(o, m, Classes(second)).value, 1))
    ensures FirstConjugation(o, m, Classes(first)).Err? && FirstConjugation(o, m, Classes(second)).Err? ==>
      r == Err(FirstConjugation(o, m, Classes(second)).error)
  {
    match FirstConjugation(o, m, Classes(first))
    case Ok(bc) => Ok(Classification(first, bc, 1))
    case Err(_) =>
      match FirstConjugation(o, m, Classes(second))
      case Ok(bc) => Ok(Classification(second, bc, 1))
      case Err(e) => Err(e)
  }

  /** The unipotent types, `I` (trace 2, `s = -1`) and `I*` (trace −2,
      `s = 1`): the scalar matrix `-s` itself has multiplicity 0 and
      base change 1; any other matrix is normalised. */
  function Unipotent(o: Oracles, m: Mat, s: int, k: Kind): (r: Result<Classification>)
    ensures r.Ok? ==> r.value.kind == k
    ensures m == Mat(-s, 0, 0, -s) ==> r == Ok(Classification(k, Id, 0))
  {
    if m == Mat(-s, 0, 0, -s) then Ok(Classification(k, Id, 0))
    else
      match Normalize(o, m, s)
      case Err(e) => Err(e)
      case Ok(n) => Ok(Classification(k, n.0, n.1))
  }

  /** Trace 1: `II` when `M[0,1] > 0`, `II*` otherwise, with the first
      base change `find_conjugation` returns. */
  function TraceOne(o: Oracles, m: Mat): (r: Result<Classification>)
    ensures r.Ok? ==> (r.value.kind == II <==> m.b > 0) && (r.value.kind == II || r.value.kind == IIStar)
    ensures r.Ok? <==> FirstConjugation(o, m, Classes(if m.b > 0 then II else IIStar)).Ok?
  {
    var k := if m.b > 0 then II else IIStar;
    match FirstConjugation(o, m, Classes(k))
    case Err(e) => Err(e)
    case Ok(bc) => Ok(Classification(k, bc, 1))
  }

  function Found(r: Result<Classification>): Result<Option<Classification>>
  {
    match r
    case Ok(c) => Ok(Some(c))
    case Err(e) => Err(e)
  }

  /** `monodromy_class(M)`: dispatch on the trace. Trace 2 is type I (the
      identity with multiplicity 0, otherwise normalised by
      `normalize_Iv`); trace 1 is II when `M[0,1] > 0` and II* otherwise;
      trace 0 is III or III*; trace −1 is IV or IV*; trace −2 is I* (minus
      the identity with multiplicity 0, otherwise `normalize_Ivstar`).
      Any other trace falls off the end of the function: `None`. */
  function MonodromyClass(o: Oracles, m: Mat): (r: Result<Option<Classification>>)
    ensures r == Ok(None) <==> Trace(m) < -2 || Trace(m) > 2
    ensures r.Ok? && r.value.Some? ==> Trace(Classes(r.value.value.kind)) == Trace(m)
    ensures m == Id ==> r == Ok(Some(Classification(I, Id, 0)))
    ensures m == MinusId ==> r == Ok(Some(Classification(IStar, Id, 0)))
    ensures r.Err? ==> -2 <= Trace(m) <= 2 && m != Id && m != MinusId
  {
    var t := Trace(m);
    if t == 2 then
      var u := Unipotent(o, m, -1, I);
      assert u.Ok? ==> Trace(Classes(u.value.kind)) == 2;
      Found(u)
    else if t == 1 then
      var u := TraceOne(o, m);
      assert u.Ok? ==> Trace(Classes(u.value.kind)) == 1;
      Found(u)
    else if t == 0 then
      var u := TryPair(o, m, III, IIIStar);
      assert u.Ok? ==> Trace(Classes(u.value.kind)) == 0;
      Found(u)
    else if t == -1 then
      var u := TryPair(o, m, IV, IVStar);
      assert u.Ok? ==> Trace(Classes(u.value.kind)) == -1;
      Found(u)
    else if t == -2 then
      var u := Unipotent(o, m, 1, IStar);
      assert u.Ok? ==> Trace(Classes(u.value.kind)) == -2;
      Found(u)
    else Ok(None)
  }

  /** What the classification promises beyond the trace: on trace 1 the
      sign of `M[0,1]` decides between II and II*, and on traces 0 and −1 a
      successful search for the unstarred normal form wins. */
  lemma MonodromyClassDetails(o: Oracles, m: Mat)
    ensures var r := MonodromyClass(o, m);
      r.Ok? && Trace(m) == 1 ==>
        && r.value.Some?
        && (r.value.value.kind == II || r.value.value.kind == IIStar)
        && (r.value.value.kind == II <==> m.b > 0)
    ensures Trace(m) == 0 && FirstConjugation(o, m, Classes(III)).Ok? ==>
      MonodromyClass(o, m) == Ok(Some(Classification(III, FirstConjugation(o, m, Classes(III)).value, 1)))
    ensures Trace(m) == -1 && FirstConjugation(o, m, Classes(IV)).Ok? ==>
      MonodromyClass(o, m) == Ok(Some(Classification(IV, FirstConjugation(o, m, Classes(IV)).value, 1)))
    ensures Trace(m) == 0 && FirstConjugation(o, m, Classes(III)).Err? && FirstConjugation(o, m, Classes(IIIStar)).Ok? ==>
      MonodromyClass(o, m) == Ok(Some(Classification(IIIStar, FirstConjugation(o, m, Classes(IIIStar)).value, 1)))
    ensures Trace(m) == -1 && FirstConjugation(o, m, Classes(IV)).Err? && FirstConjugation(o, m, Classes(IVStar)).Ok? ==>
      MonodromyClass(o, m) == Ok(Some(Classification(IVStar, FirstConjugation(o, m, Classes(IVStar)).value, 1)))
  {
    if Trace(m) == 1 {
      assert MonodromyClass(o, m) == Found(TraceOne(o, m));
    } else if Trace(m) == 0 {
      assert MonodromyClass(o, m) == Found(TryPair(o, m, III, IIIStar));
    } else if Trace(m) == -1 {
      assert MonodromyClass(o, m) == Found(TryPair(o, m, IV, IVStar));
    }
  }

  /** The unipotent types come with a base change of determinant 1. */
  lemma UnipotentUnimodular(o: Oracles, m: Mat)
    ensures var r := MonodromyClass(o, m);
      r.Ok? && r.value.Some? && (r.value.value.kind == I || r.value.value.kind == IStar) ==> Det(r.value.value.baseChange) == 1
  {
    var t := Trace(m);
    if t == 2 || t == -2 {
      var s := if t == 2 then -1 else 1;
      if m != Mat(-s, 0, 0, -s) {
        match Normalize(o, m, s)
        case Err(_) =>
        case Ok(n) =>
      }
    }
  }

  /** The product of the confluence word of `k` classifies, when it
      classifies at all, as `k`. */
  predicate ClassifiesAsItself(o: Oracles, k: Kind)
  {
    var r := MonodromyClass(o, ConfluenceProduct(k));
    r.Ok? ==> r.value.Some? && r.value.value.kind == k
  }

  /** For the types whose trace test decides alone, the product of the
      confluence word is classified as that type. */
  lemma ConfluenceClassified(o: Oracles, k: Kind)
    requires k == I || k == II || k == IStar || k == IIStar
    ensures var r := MonodromyClass(o, ConfluenceProduct(k));
      r.Ok? ==> r.value.Some? && r.value.value.kind == k
  {
    if k == I || k == IStar {
      UnipotentConfluence(o, k);
    } else {
      TraceOneConfluence(o, k);
    }
  }

  lemma UnipotentConfluence(o: Oracles, k: Kind)
    requires k == I || k == IStar
    ensures ClassifiesAsItself(o, k)
  {
    var m := ConfluenceProduct(k);
    var s := if k == I then -1 else 1;
    assert Trace(m) == -2 * s;
    assert MonodromyClass(o, m) == Found(Unipotent(o, m, s, k));
  }

  lemma TraceOneConfluence(o: Oracles, k: Kind)
    requires k == II || k == IIStar
    ensures ClassifiesAsItself(o, k)
  {
    ClassifiedAs(o, ConfluenceProduct(k), k);
  }

  /** A trace-1 matrix whose `M[0,1]` sign names type `k` is classified as
      `k` whenever the search succeeds. */
  lemma ClassifiedAs(o: Oracles, m: Mat, k: Kind)
    requires Trace(m) == 1 && (k == II <==> m.b > 0) && (k == II || k == IIStar)
    ensures var r := MonodromyClass(o, m);
      r.Ok? ==> r.value.Some? && r.value.value.kind == k
  {
    MonodromyClassDetails(o, m);
  }

}

=== FILE: geometry.dfy ===
/** `Util.select_closest`, `Util.select_closest_index` and
    `Util.is_clockwise`. Distances are compared through squared moduli,
    which order points as the moduli do. */
module Geometry {
  import opened Base

  /** `k` is the first index of `l` at minimal distance to `e`. */
  predicate FirstClosest(l: seq<Complex>, e: Complex, k: int)
  {
    && 0 <= k < |l|
    && (forall j :: 0 <= j < |l| ==> SqDist(l[k], e) <= SqDist(l[j], e))
    && (forall j :: 0 <= j < k ==> SqDist(l[j], e) > SqDist(l[k], e))
  }

  /** The loop of `select_closest_index` from position `i` with the best
      index `r` so far; a later element replaces `r` only when strictly
      closer. */
  function ClosestIndexFrom(l: seq<Complex>, e: Complex, i: int, r: int): (k: int)
    requires 0 <= r < i <= |l|
    requires FirstClosest(l[..i], e, r)
    ensures FirstClosest(l, e, k)
    decreases |l| - i
  {
    if i == |l| then
      assert l[..i] == l;
      r
    else
      var r' := if SqDist(l[i], e) < SqDist(l[r], e) then i else r;
      assert l[..i + 1][..i] == l[..i];
      ClosestIndexFrom(l, e, i + 1, r')
  }

  /** `select_closest_index(l, e)`: the first index at minimal distance to
      `e`. On an empty list the loop does not run and the index is 0. */
  function SelectClosestIndex(l: seq<Complex>, e: Complex): (k: int)
    ensures |l| == 0 ==> k == 0
    ensures |l| > 0 ==> FirstClosest(l, e, k)
  {
    if |l| == 0 then 0 else ClosestIndexFrom(l, e, 1, 0)
  }

  /** The loop of `select_closest`, which keeps the best element rather
      than its index; `at` is the position that element came from. */
  function ClosestValueFrom(l: seq<Complex>, e: Complex, i: int, best: Complex, ghost at: int): (v: Complex)
    requires 0 <= at < i <= |l| && best == l[at]
    requires FirstClosest(l[..i], e, at)
    ensures v == l[ClosestIndexFrom(l, e, i, at)]
    decreases |l| - i
  {
    if i == |l| then best
    else
      assert l[..i + 1][..i] == l[..i];
      if SqDist(l[i], e) < SqDist(best, e) then ClosestValueFrom(l, e, i + 1, l[i], i)
      else ClosestValueFrom(l, e, i + 1, best, at)
  }

  /** `select_closest(l, e)`: the element at the first index of minimal
      distance; `l[0]` raises IndexError on an empty list. */
  function SelectClosest(l: seq<Complex>, e: Complex): (r: Result<Complex>)
    ensures r.Ok? <==> |l| > 0
    ensures r.Ok? ==> r.value == l[SelectClosestIndex(l, e)]
    ensures r.Ok? ==> forall j :: 0 <= j < |l| ==> SqDist(r.value, e) <= SqDist(l[j], e)
  {
    if |l| == 0 then Err(IndexError) else Ok(ClosestValueFrom(l, e, 1, l[0], 0))
  }

  /** The order of `min(l, key=lambda v: (v.imag(), v.real()))`. */
  predicate LowerThan(a: Complex, b: Complex)
  {
    a.im < b.im || (a.im == b.im && a.re < b.re)
  }

  /** Index of the element `min` returns: the first one whose key is
      minimal. */
  function LowestIndex(l: seq<Complex>): (k: int)
    requires |l| > 0
    ensures 0 <= k < |l|
    ensures forall j :: 0 <= j < |l| ==> !LowerThan(l[j], l[k])
    ensures forall j :: 0 <= j < k ==> LowerThan(l[k], l[j])
  {
    if |l| == 1 then 0
    else
      var k := LowestIndex(l[..|l| - 1]);
      if LowerThan(l[|l| - 1], l[k]) then |l| - 1 else k
  }

  /** Determinant of the 3×3 matrix with rows `[1, x, y]` for `p`, `s`, `n`,
      expanded along the first column. */
  function Det(p: Complex, s: Complex, n: Complex): real
  {
    (s.re * n.im - s.im * n.re) - (p.re * n.im - p.im * n.re) + (p.re * s.im - p.im * s.re)
  }

  /** `l[i+1]`, wrapping to `l[0]` past the end. */
  function Next(l: seq<Complex>, i: int): Complex
    requires 0 <= i < |l|
  {
    l[if i + 1 < |l| then i + 1 else 0]
  }

  /** `l[i-1]`, which Python reads as the last element when `i == 0`. */
  function Prev(l: seq<Complex>, i: int): Complex
    requires 0 <= i < |l|
  {
    l[if i >= 1 then i - 1 else |l| - 1]
  }

  /** The determinant `is_clockwise` tests: at the lowest vertex `l[i]`
      (where `i = l.index(min(...))`) with its cyclic neighbours. */
  function Orientation(l: seq<Complex>): real
    requires |l| > 0
  {
    var i := IndexOf(l, l[LowestIndex(l)]).value;
    Det(Prev(l, i), l[i], Next(l, i))
  }

  /** `is_clockwise(l)`: the determinant at the lowest vertex is negative;
      `min` of an empty list raises ValueError. */
  function IsClockwise(l: seq<Complex>): (r: Result<bool>)
    ensures r.Ok? <==> |l| > 0
  {
    if |l| == 0 then Err(ValueError) else Ok(Orientation(l) < 0.0)
  }

  /** `l.index(min(...))` is the index `min` found. */
  lemma IndexOfLowest(l: seq<Complex>)
    requires |l| > 0
    ensures IndexOf(l, l[LowestIndex(l)]) == Some(LowestIndex(l))
  {
    var k := LowestIndex(l);
    assert forall j :: 0 <= j < k ==> l[j] != l[k] by {
      forall j | 0 <= j < k
        ensures l[j] != l[k]
      {
        assert LowerThan(l[k], l[j]);
      }
    }
    IndexOfFirst(l, k);
  }

  /** Exchanging the two neighbours negates the determinant. */
  lemma DetSwap(p: Complex, s: Complex, n: Complex)
    ensures Det(n, s, p) == -Det(p, s, n)
  {
  }

  /** In a list without repetitions the lowest vertex is unique, so it
      keeps its place when the list is read backwards. */
  lemma LowestReversed(l: seq<Complex>)
    requires |l| > 0 && Distinct(l)
    ensures LowestIndex(Reverse(l)) == |l| - 1 - LowestIndex(l)
  {
    var rl := Reverse(l);
    var k := LowestIndex(l);
    var k' := LowestIndex(rl);
    var j := |l| - 1 - k';
    assert l[j] == l[k] by {
      assert rl[|l| - 1 - k] == l[k] && rl[k'] == l[j];
      assert !LowerThan(rl[|l| - 1 - k], rl[k']);
      SameKey(l[j], l[k]);
    }
    DistinctAt(l, j, k);
  }

  /** Points neither of which is lower than the other are equal. */
  lemma SameKey(a: Complex, b: Complex)
    requires !LowerThan(a, b) && !LowerThan(b, a)
    ensures a == b
  {
  }

  lemma DistinctAt<T>(s: seq<T>, i: int, j: int)
    requires Distinct(s) && 0 <= i < |s| && 0 <= j < |s| && s[i] == s[j]
    ensures i == j
  {
  }

  /** Reading the vertices in the opposite order swaps the two neighbours
      of the lowest vertex, so the orientation changes sign, and
      `is_clockwise` flips whenever the determinant is not zero. */
  lemma ClockwiseReversed(l: seq<Complex>)
    requires |l| > 0 && Distinct(l)
    ensures Orientation(Reverse(l)) == -Orientation(l)
    ensures Orientation(l) != 0.0 ==> IsClockwise(Reverse(l)) == Ok(!IsClockwise(l).value)
  {
    var k := LowestIndex(l);
    LowestReversed(l);
    IndexOfLowest(l);
    IndexOfLowest(Reverse(l));
    NeighboursReversed(l, k);
    DetSwap(Prev(l, k), l[k], Next(l, k));
  }

  /** Backwards, the predecessor becomes the successor and vice versa. */
  lemma NeighboursReversed(l: seq<Complex>, k: int)
    requires 0 <= k < |l|
    ensures Reverse(l)[|l| - 1 - k] == l[k]
    ensures Prev(Reverse(l), |l| - 1 - k) == Next(l, k)
    ensures Next(Reverse(l), |l| - 1 - k) == Prev(l, k)
  {
    var r := Reverse(l);
    var n := |l|;
    var m := n - 1 - k;
    assert r[m] == l[k];
    if m >= 1 {
      assert r[m - 1] == l[k + 1];
    } else {
      assert r[n - 1] == l[0];
    }
    if m + 1 < n {
      assert r[m + 1] == l[k - 1];
    } else {
      assert r[0] == l[n - 1];
    }
  }

  /** Position of `l[i]` after rotating `l` to start at `k`. */
  function RotatedIndex(n: int, k: int, i: int): int
  {
    if i >= k then i - k else i + n - k
  }

  /** In a list without repetitions the lowest vertex is unique, so after a
      rotation it is found where the rotation moved it. */
  lemma LowestRotated(l: seq<Complex>, k: int)
    requires Distinct(l) && 0 <= k < |l|
    ensures LowestIndex(Rotate(l, k)) == RotatedIndex(|l|, k, LowestIndex(l))
  {
    var rl := Rotate(l, k);
    var low := LowestIndex(l);
    var m := RotatedIndex(|l|, k, low);
    assert rl[m] == l[low];
    var m' := LowestIndex(rl);
    var j := if m' < |l| - k then m' + k else m' + k - |l|;
    assert rl[m'] == l[j];
    assert !LowerThan(l[j], l[low]);
    assert !LowerThan(l[low], l[j]) by {
      assert !LowerThan(rl[m], rl[m']);
    }
    SameKey(l[j], l[low]);
    DistinctAt(l, j, low);
  }

  /** A rotation keeps every vertex's cyclic neighbours. */
  lemma NeighboursRotated(l: seq<Complex>, k: int, i: int)
    requires 0 <= k < |l| && 0 <= i < |l|
    ensures Rotate(l, k)[RotatedIndex(|l|, k, i)] == l[i]
    ensures Prev(Rotate(l, k), RotatedIndex(|l|, k, i)) == Prev(l, i)
    ensures Next(Rotate(l, k), RotatedIndex(|l|, k, i)) == Next(l, i)
  {
    var r := Rotate(l, k);
    var n := |l|;
    var m := RotatedIndex(n, k, i);
    assert r[m] == l[i];
    if m >= 1 {
      assert r[m - 1] == l[if i >= 1 then i - 1 else n - 1];
    } else {
      assert r[n - 1] == l[if i >= 1 then i - 1 else n - 1];
    }
    if m + 1 < n {
      assert r[m + 1] == l[if i + 1 < n then i + 1 else 0];
    } else {
      assert r[0] == l[if i + 1 < n then i + 1 else 0];
    }
  }

  /** The orientation test does not depend on where a cyclic list of
      distinct vertices starts. */
  lemma OrientationRotated(l: seq<Complex>, k: int)
    requires Distinct(l) && 0 <= k < |l|
    ensures Orientation(Rotate(l, k)) == Orientation(l)
  {
    var low := LowestIndex(l);
    LowestRotated(l, k);
    IndexOfLowest(l);
    IndexOfLowest(Rotate(l, k));
    NeighboursRotated(l, k, low);
  }
}

=== FILE: integrator.dfy ===
/** `Integrator`: the transition matrix of each pointed loop as a product
    of per-edge matrices, the gathering of the per-edge results computed in
    parallel, and the precision-doubling retry of one edge integration.
    Matrices are elements of an abstract group; the numerical integrator is
    an oracle passed as a parameter. */
module Integrator {
  import opened Base
  import opened Paths
  import opened Permutations
  import opened Undirected
  import VoronoiLoops

  /** A multiplicative group given by its identity, product and inverse. */
  datatype Group<!M> = Group(one: M, mul: (M, M) -> M, inv: M -> M)

  ghost predicate IsGroup<M(!new)>(g: Group<M>)
  {
    && (forall a, b, c {:trigger g.mul(g.mul(a, b), c)} :: g.mul(g.mul(a, b), c) == g.mul(a, g.mul(b, c)))
    && (forall a {:trigger g.mul(g.one, a)} :: g.mul(g.one, a) == a)
    && (forall a {:trigger g.mul(a, g.one)} :: g.mul(a, g.one) == a)
    && (forall a {:trigger g.mul(g.inv(a), a)} :: g.mul(g.inv(a), a) == g.one)
    && (forall a {:trigger g.mul(a, g.inv(a))} :: g.mul(a, g.inv(a)) == g.one)
  }

  /** A left inverse is the inverse. */
  lemma {:induction false} InverseUnique<M(!new)>(g: Group<M>, x: M, a: M)
    requires IsGroup(g) && g.mul(x, a) == g.one
    ensures x == g.inv(a)
  {
    calc {
      x;
      g.mul(x, g.one);
      g.mul(x, g.mul(a, g.inv(a)));
      g.mul(g.mul(x, a), g.inv(a));
      g.mul(g.one, g.inv(a));
      g.inv(a);
    }
  }

  /** No recorded edge joins a vertex to itself. */
  predicate Loopless(edges: seq<Edge>)
  {
    forall k :: 0 <= k < |edges| ==> edges[k].src != edges[k].dst
  }

  /** Every step `path[i] → path[i+1]` is an edge stored in one
      orientation or the other. */
  predicate Walkable(edges: seq<Edge>, path: seq<int>)
  {
    forall i :: 0 <= i < |path| - 1 ==> StepStored(edges, path, i)
  }

  /** The step `path[i] → path[i+1]` is stored in one orientation or the
      other. */
  predicate StepStored(edges: seq<Edge>, path: seq<int>, i: int)
    requires 0 <= i < |path| - 1
  {
    Mentions(edges, Edge(path[i], path[i + 1]))
  }

  /** The factor for the step `a → b`: the matrix of the first edge stored
      as `[a, b]`, otherwise the inverse of the matrix of the first edge
      stored as `[b, a]`. `mats` holds one matrix per edge. */
  function Factor<M>(g: Group<M>, edges: seq<Edge>, mats: seq<M>, a: int, b: int): M
    requires |mats| == |edges| && Mentions(edges, Edge(a, b))
  {
    match IndexOf(edges, Edge(a, b))
    case Some(i) => mats[i]
    case None => g.inv(mats[IndexOf(edges, Edge(b, a)).value])
  }

  /** Walking an edge and straight back multiplies to the identity, as
      long as the edge is stored in only one orientation and is not a
      self-loop. */
  lemma {:induction false} StepBack<M(!new)>(g: Group<M>, edges: seq<Edge>, mats: seq<M>, a: int, b: int)
    requires IsGroup(g) && |mats| == |edges| && Simple(edges)
    requires a != b && Mentions(edges, Edge(a, b))
    ensures Mentions(edges, Edge(b, a))
    ensures g.mul(Factor(g, edges, mats, b, a), Factor(g, edges, mats, a, b)) == g.one
  {
    match IndexOf(edges, Edge(a, b))
    case Some(i) =>
    case None =>
  }

  /** Dropping the last vertex of a walkable path leaves a walkable path,
      and its last step is stored. */
  lemma {:induction false} WalkableFront(edges: seq<Edge>, path: seq<int>)
    requires Walkable(edges, path) && |path| >= 2
    ensures Walkable(edges, path[..|path| - 1])
    ensures Mentions(edges, Edge(path[|path| - 2], path[|path| - 1]))
  {
    var front := path[..|path| - 1];
    forall i | 0 <= i < |front| - 1
      ensures StepStored(edges, front, i)
    {
      assert StepStored(edges, path, i);
    }
    assert StepStored(edges, path, |path| - 2);
  }

  /** Dropping the first vertex of a walkable path leaves a walkable
      path. */
  lemma {:induction false} WalkableTail(edges: seq<Edge>, path: seq<int>)
    requires Walkable(edges, path) && |path| >= 1
    ensures Walkable(edges, path[1..])
  {
    var rest := path[1..];
    forall i | 0 <= i < |rest| - 1
      ensures StepStored(edges, rest, i)
    {
      assert StepStored(edges, path, i + 1);
    }
  }

  /** The inner loop of `transition_matrices` along a walkable path:
      starting from `1`, each step premultiplies the product so far by its
      factor. */
  function Product<M>(g: Group<M>, edges: seq<Edge>, mats: seq<M>, path: seq<int>): M
    requires |mats| == |edges| && Walkable(edges, path)
    decreases |path|
  {
    if |path| < 2 then g.one
    else
      WalkableFront(edges, path);
      g.mul(Factor(g, edges, mats, path[|path| - 2], path[|path| - 1]), Product(g, edges, mats, path[..|path| - 1]))
  }

  /** The inner loop of `transition_matrices`: the product along the
      path, or the ValueError `edges.index` raises at the first step stored
      in neither orientation. */
  function Compose<M>(g: Group<M>, edges: seq<Edge>, mats: seq<M>, path: seq<int>): (r: Result<M>)
    requires |mats| == |edges|
    ensures r.Ok? <==> Walkable(edges, path)
    ensures r.Err? ==> r.error == ValueError
  {
    if Walkable(edges, path) then Ok(Product(g, edges, mats, path)) else Err(ValueError)
  }

  /** The last step's factor premultiplies the product along the rest. */
  lemma {:induction false} ProductStep<M>(g: Group<M>, edges: seq<Edge>, mats: seq<M>, w: seq<int>)
    requires |mats| == |edges| && Walkable(edges, w) && |w| >= 2
    ensures Walkable(edges, w[..|w| - 1])
    ensures Mentions(edges, Edge(w[|w| - 2], w[|w| - 1]))
    ensures Product(g, edges, mats, w)
         == g.mul(Factor(g, edges, mats, w[|w| - 2], w[|w| - 1]), Product(g, edges, mats, w[..|w| - 1]))
  {
    WalkableFront(edges, w);
  }

  /** A walk that goes along `p` and then along `q` is walkable exactly
      when both are. */
  lemma {:induction false} WalkableJoin(edges: seq<Edge>, p: seq<int>, q: seq<int>)
    requires |p| > 0 && |q| > 0 && p[|p| - 1] == q[0]
    ensures Walkable(edges, p + q[1..]) <==> Walkable(edges, p) && Walkable(edges, q)
  {
    var w := p + q[1..];
    var d := |p| - 1;
    forall i | 0 <= i < |w| - 1
      ensures StepStored(edges, w, i) <==> if i < d then StepStored(edges, p, i) else StepStored(edges, q, i - d)
    {
      if i < d {
        assert w[i] == p[i] && w[i + 1] == p[i + 1];
      } else {
        assert w[i] == q[i - d] && w[i + 1] == q[i - d + 1];
      }
    }
    if Walkable(edges, w) {
      forall j | 0 <= j < |q| - 1
        ensures StepStored(edges, q, j)
      {
        assert StepStored(edges, w, j + d);
      }
    }
  }

  /** The product along `p` followed by `q` is `q`'s product times `p`'s. */
  lemma {:induction false} ProductJoin<M(!new)>(g: Group<M>, edges: seq<Edge>, mats: seq<M>, p: seq<int>, q: seq<int>)
    requires IsGroup(g) && |mats| == |edges|
    requires |p| > 0 && |q| > 0 && p[|p| - 1] == q[0]
    requires Walkable(edges, p) && Walkable(edges, q)
    ensures Walkable(edges, p + q[1..])
    ensures Product(g, edges, mats, p + q[1..]) == g.mul(Product(g, edges, mats, q), Product(g, edges, mats, p))
    decreases |q|
  {
    WalkableJoin(edges, p, q);
    if |q| == 1 {
      assert p + q[1..] == p;
    } else {
      var q' := q[..|q| - 1];
      var w := p + q[1..];
      ProductStep(g, edges, mats, q);
      ProductJoin(g, edges, mats, p, q');
      JoinFront(p, q);
      ProductStep(g, edges, mats, w);
      var f := Factor(g, edges, mats, q[|q| - 2], q[|q| - 1]);
      var pq', pp := Product(g, edges, mats, q'), Product(g, edges, mats, p);
      assert g.mul(g.mul(f, pq'), pp) == g.mul(f, g.mul(pq', pp));
    }
  }

  /** Dropping the last vertex of a joined walk drops it from the second
      part. */
  lemma {:induction false} JoinFront(p: seq<int>, q: seq<int>)
    requires |p| > 0 && |q| >= 2 && p[|p| - 1] == q[0]
    ensures var w := p + q[1..];
      && w[..|w| - 1] == p + q[..|q| - 1][1..]
      && w[|w| - 2] == q[|q| - 2] && w[|w| - 1] == q[|q| - 1]
  {
    var w := p + q[1..];
    assert q[..|q| - 1][1..] == q[1..|q| - 1];
    assert w[..|w| - 1] == p + q[1..|q| - 1];
  }

  /** Consecutive entries of a walkable path over loopless edges are
      distinct. */
  lemma {:induction false} WalkableNoRepeat(edges: seq<Edge>, path: seq<int>, i: int)
    requires Loopless(edges) && Walkable(edges, path) && 0 <= i < |path| - 1
    ensures path[i] != path[i + 1]
    ensures Mentions(edges, Edge(path[i], path[i + 1]))
  {
    assert StepStored(edges, path, i);
  }

  /** `a, b, a` in the middle of a path, as the three pieces `ProductJoin`
      glues together. */
  lemma {:induction false} BacktrackSplit(path: seq<int>, i: int)
    requires 1 <= i < |path| - 1 && path[i - 1] == path[i + 1]
    ensures var mid := [path[i - 1], path[i], path[i + 1]];
      && path == (path[..i] + mid[1..]) + path[i + 1..][1..]
      && path[..i] + path[i + 2..] == path[..i] + path[i + 1..][1..]
      && (path[..i] + mid[1..])[|path[..i] + mid[1..]| - 1] == path[i + 1..][0]
  {
    var mid := [path[i - 1], path[i], path[i + 1]];
    assert path == path[..i] + [path[i], path[i + 1]] + path[i + 2..];
    assert mid[1..] == [path[i], path[i + 1]];
    assert path[i + 1..][1..] == path[i + 2..];
  }

  /** The product along `a, b, a` is the identity. */
  lemma {:induction false} ThereAndBack<M(!new)>(g: Group<M>, edges: seq<Edge>, mats: seq<M>, a: int, b: int)
    requires IsGroup(g) && |mats| == |edges| && Simple(edges)
    requires a != b && Mentions(edges, Edge(a, b))
    ensures Walkable(edges, [a, b, a])
    ensures Product(g, edges, mats, [a, b, a]) == g.one
  {
    StepBack(g, edges, mats, a, b);
    ProductPair(g, edges, mats, a, b);
    ProductPair(g, edges, mats, b, a);
    ProductJoin(g, edges, mats, [a, b], [b, a]);
    ThereAndBackPath(a, b);
  }

  lemma {:induction false} ThereAndBackPath(a: int, b: int)
    ensures [a, b] + [b, a][1..] == [a, b, a]
    ensures [a, b][1] == [b, a][0]
  {
  }

  /** Cancelling a backtrack `a, b, a` from a walkable path leaves a
      walkable path with the same product. */
  lemma {:induction false} Backtrack<M(!new)>(g: Group<M>, edges: seq<Edge>, mats: seq<M>, path: seq<int>, i: int)
    requires IsGroup(g) && |mats| == |edges| && Simple(edges) && Loopless(edges)
    requires 1 <= i < |path| - 1 && path[i - 1] == path[i + 1]
    requires Walkable(edges, path)
    ensures Walkable(edges, path[..i] + path[i + 2..])
    ensures Product(g, edges, mats, path[..i] + path[i + 2..]) == Product(g, edges, mats, path)
  {
    var a := path[..i];
    var mid := [path[i - 1], path[i], path[i + 1]];
    var b := path[i + 1..];
    BacktrackPieces(edges, path, i);
    ThereAndBack(g, edges, mats, path[i - 1], path[i]);
    ProductJoin(g, edges, mats, a, mid);
    ProductJoin(g, edges, mats, a + mid[1..], b);
    ProductJoin(g, edges, mats, a, b);
  }

  /** The three pieces of a walkable path around a backtrack are
      walkable, and the backtrack does not stand still. */
  lemma {:induction false} BacktrackPieces(edges: seq<Edge>, path: seq<int>, i: int)
    requires Loopless(edges)
    requires 1 <= i < |path| - 1 && path[i - 1] == path[i + 1]
    requires Walkable(edges, path)
    ensures var mid := [path[i - 1], path[i], path[i + 1]];
      && path == (path[..i] + mid[1..]) + path[i + 1..][1..]
      && path[..i] + path[i + 2..] == path[..i] + path[i + 1..][1..]
      && (path[..i] + mid[1..])[|path[..i] + mid[1..]| - 1] == path[i + 1..][0]
      && Walkable(edges, path[..i]) && Walkable(edges, path[i + 1..])
      && path[i - 1] != path[i] && Mentions(edges, Edge(path[i - 1], path[i]))
  {
    var a := path[..i];
    var mid := [path[i - 1], path[i], path[i + 1]];
    var b := path[i + 1..];
    BacktrackSplit(path, i);
    WalkableJoin(edges, a + mid[1..], b);
    WalkableJoin(edges, a, mid);
    WalkableNoRepeat(edges, path, i - 1);
  }

  /** Following the loop of `simplify_path` step by step: every deletion
      either removes a repeated vertex, which a walkable path over loopless
      edges cannot contain, or cancels a backtrack. */
  lemma {:induction false} ProductSimplifyFrom<M(!new)>(g: Group<M>, edges: seq<Edge>, mats: seq<M>, res: seq<int>, i: int)
    requires IsGroup(g) && |mats| == |edges| && Simple(edges) && Loopless(edges)
    requires 1 <= i && CleanBelow(res, i) && Walkable(edges, res)
    ensures Walkable(edges, SimplifyFrom(res, i))
    ensures Product(g, edges, mats, SimplifyFrom(res, i)) == Product(g, edges, mats, res)
    decreases |res|, |res| - i
  {
    if i >= |res| - 1 {
    } else if res[i - 1] == res[i] || res[i - 1] == res[i + 1] {
      WalkableNoRepeat(edges, res, i - 1);
      DeletionStep(res, i, 2);
      Backtrack(g, edges, mats, res, i);
      ProductSimplifyFrom(g, edges, mats, res[..i] + res[i + 2..], if i != 1 then i - 1 else i);
    } else {
      ProductSimplifyFrom(g, edges, mats, res, i + 1);
    }
  }

  /** Line 65 of `transition_matrices` simplifies each pointed loop first;
      whenever the product along the unsimplified walk is defined, the
      simplified walk has the same product. */
  lemma {:induction false} ComposeSimplified<M(!new)>(g: Group<M>, edges: seq<Edge>, mats: seq<M>, path: seq<int>)
    requires IsGroup(g) && |mats| == |edges| && Simple(edges) && Loopless(edges)
    requires Compose(g, edges, mats, path).Ok?
    ensures Compose(g, edges, mats, SimplifyPath(path)) == Compose(g, edges, mats, path)
  {
    ProductSimplifyFrom(g, edges, mats, path, 1);
  }

  /** The product along a single step is that step's factor. */
  lemma {:induction false} ProductPair<M(!new)>(g: Group<M>, edges: seq<Edge>, mats: seq<M>, x: int, y: int)
    requires IsGroup(g) && |mats| == |edges| && Mentions(edges, Edge(x, y))
    ensures Walkable(edges, [x, y])
    ensures Product(g, edges, mats, [x, y]) == Factor(g, edges, mats, x, y)
  {
    assert [x, y][..1] == [x];
    assert StepStored(edges, [x, y], 0);
  }

  /** `(c·s)(t·d) = 1` when `s·t = 1` and `c` is the inverse of `d`. */
  lemma {:induction false} CancelMiddle<M(!new)>(g: Group<M>, c: M, s: M, t: M, d: M)
    requires IsGroup(g) && g.mul(s, t) == g.one && c == g.inv(d)
    ensures g.mul(g.mul(c, s), g.mul(t, d)) == g.one
  {
    calc {
      g.mul(g.mul(c, s), g.mul(t, d));
      g.mul(c, g.mul(s, g.mul(t, d)));
      g.mul(c, g.mul(g.mul(s, t), d));
      g.mul(c, g.mul(g.one, d));
      g.mul(c, d);
      g.one;
    }
  }

  /** Walking a path backwards gives the inverse of its product. */
  lemma {:induction false} ProductReversed<M(!new)>(g: Group<M>, edges: seq<Edge>, mats: seq<M>, path: seq<int>)
    requires IsGroup(g) && |mats| == |edges| && Simple(edges) && Loopless(edges)
    requires Walkable(edges, path)
    ensures Walkable(edges, Reverse(path))
    ensures Product(g, edges, mats, Reverse(path)) == g.inv(Product(g, edges, mats, path))
    decreases |path|
  {
    if |path| < 2 {
      assert |Reverse(path)| < 2;
      InverseUnique(g, g.one, g.one);
    } else {
      var a, b, rest := path[0], path[1], path[1..];
      var back := Reverse(rest);
      WalkableTail(edges, path);
      ReverseUnfold(path);
      ReverseTailEnd(path);
      ConsPair(path);
      PairTail(b, a);
      WalkableNoRepeat(edges, path, 0);
      StepBack(g, edges, mats, a, b);
      ProductPair(g, edges, mats, a, b);
      ProductPair(g, edges, mats, b, a);
      ProductJoin(g, edges, mats, [a, b], rest);
      ProductReversed(g, edges, mats, rest);
      ProductJoin(g, edges, mats, back, [b, a]);
      var fab, fba := Factor(g, edges, mats, a, b), Factor(g, edges, mats, b, a);
      var pr, pb := Product(g, edges, mats, rest), Product(g, edges, mats, back);
      InverseUnique(g, fba, fab);
      CancelMiddle(g, fba, pb, pr, fab);
      InverseUnique(g, g.mul(fba, pb), g.mul(pr, fab));
    }
  }

  /** `list(reversed(path))` is the rest reversed, then the first
      vertex. */
  lemma {:induction false} ReverseUnfold(path: seq<int>)
    requires |path| >= 1
    ensures Reverse(path) == Reverse(path[1..]) + [path[0]]
  {
  }

  /** The rest of a path read backwards ends at the path's second vertex. */
  lemma {:induction false} ReverseTailEnd(path: seq<int>)
    requires |path| >= 2
    ensures Reverse(path[1..])[|path| - 2] == path[1]
  {
  }

  /** Walking `[a, b]` and then the rest from `b` is the whole path. */
  lemma {:induction false} ConsPair(path: seq<int>)
    requires |path| >= 2
    ensures [path[0], path[1]] + path[1..][1..] == path
  {
  }

  lemma {:induction false} PairTail(b: int, a: int)
    ensures [b, a][1..] == [a]
  {
  }

  /** The product along a pointed loop (out along the tree path, around
      the loop, back along the path) is the loop's product conjugated by
      the path's. */
  lemma {:induction false} PointedLoopConjugate<M(!new)>(g: Group<M>, edges: seq<Edge>, mats: seq<M>, path: seq<int>, loop: seq<int>)
    requires IsGroup(g) && |mats| == |edges| && Simple(edges) && Loopless(edges)
    requires |path| > 0 && |loop| > 0
    requires path[|path| - 1] == loop[0] && loop[0] == loop[|loop| - 1]
    requires Walkable(edges, path) && Walkable(edges, loop)
    ensures var p := Product(g, edges, mats, path);
      Compose(g, edges, mats, VoronoiLoops.PointedLoop(path, loop))
      == Ok(g.mul(g.inv(p), g.mul(Product(g, edges, mats, loop), p)))
  {
    var back := Reverse(path);
    ProductReversed(g, edges, mats, path);
    ProductJoin(g, edges, mats, path, loop);
    var out := path + loop[1..];
    PointedLoopSplit(path, loop);
    ProductJoin(g, edges, mats, out, back);
  }

  /** The pointed loop is the path followed by the loop followed by the
      path read backwards. */
  lemma {:induction false} PointedLoopSplit(path: seq<int>, loop: seq<int>)
    requires |path| > 0 && |loop| > 0 && path[|path| - 1] == loop[0]
    ensures VoronoiLoops.PointedLoop(path, loop) == (path + loop[1..]) + Reverse(path)[1..]
    ensures Reverse(path)[0] == path[|path| - 1]
    ensures (path + loop[1..])[|path + loop[1..]| - 1] == loop[|loop| - 1]
  {
    InitThenLoop(path, loop);
    ReverseDropFirst(path);
  }

  /** `path[:-1] + loop` is `path` followed by the loop after its first
      vertex. */
  lemma {:induction false} InitThenLoop(path: seq<int>, loop: seq<int>)
    requires |path| > 0 && |loop| > 0 && path[|path| - 1] == loop[0]
    ensures Init(path) + loop == path + loop[1..]
  {
    assert path == Init(path) + [loop[0]];
    assert loop == [loop[0]] + loop[1..];
  }

  /** Reading `path` backwards and dropping the first entry is reading
      `path[:-1]` backwards. */
  lemma {:induction false} ReverseDropFirst(path: seq<int>)
    requires |path| > 0
    ensures Reverse(path)[1..] == Reverse(Init(path))
  {
    var r := Reverse(path)[1..];
    var ri := Reverse(Init(path));
    assert |r| == |ri|;
    forall k | 0 <= k < |r|
      ensures r[k] == ri[k]
    {
      var init := Init(path);
      assert ri[k] == init[|init| - 1 - k];
      assert init[|init| - 1 - k] == path[|path| - 2 - k];
      assert r[k] == Reverse(path)[k + 1] == path[|path| - 2 - k];
    }
  }

  /** `transition_matrix` for one pointed loop: the product along the
      simplified walk. */
  function TransitionMatrix<M>(g: Group<M>, edges: seq<Edge>, mats: seq<M>, pointed: seq<int>): (r: Result<M>)
    requires |mats| == |edges|
    ensures r.Err? ==> r.error == ValueError
  {
    Compose(g, edges, mats, SimplifyPath(pointed))
  }

  /** The transition matrix of `PointedLoop(path, loop)`, for a walkable
      path and loop, is the loop's product conjugated by the path's. */
  lemma {:induction false} TransitionOfPointedLoop<M(!new)>(g: Group<M>, edges: seq<Edge>, mats: seq<M>, path: seq<int>, loop: seq<int>)
    requires IsGroup(g) && |mats| == |edges| && Simple(edges) && Loopless(edges)
    requires |path| > 0 && |loop| > 0
    requires path[|path| - 1] == loop[0] && loop[0] == loop[|loop| - 1]
    requires Walkable(edges, path) && Walkable(edges, loop)
    ensures var p := Product(g, edges, mats, path);
      TransitionMatrix(g, edges, mats, VoronoiLoops.PointedLoop(path, loop))
      == Ok(g.mul(g.inv(p), g.mul(Product(g, edges, mats, loop), p)))
  {
    PointedLoopConjugate(g, edges, mats, path, loop);
    ComposeSimplified(g, edges, mats, VoronoiLoops.PointedLoop(path, loop));
  }

  /** `transition_matrices`: one matrix per pointed loop, in the order of
      the pointed loops; the first failing loop raises. */
  function TransitionMatrices<M>(g: Group<M>, edges: seq<Edge>, mats: seq<M>, pointed: seq<seq<int>>): (r: Result<seq<M>>)
    requires |mats| == |edges|
    ensures r.Ok? <==> forall k :: 0 <= k < |pointed| ==> TransitionMatrix(g, edges, mats, pointed[k]).Ok?
    ensures r.Ok? ==> |r.value| == |pointed|
    ensures r.Ok? ==> forall k :: 0 <= k < |pointed| ==> r.value[k] == TransitionMatrix(g, edges, mats, pointed[k]).value
    ensures r.Err? ==>
      exists k :: 0 <= k < |pointed| && TransitionMatrix(g, edges, mats, pointed[k]) == Err(r.error)
        && forall j :: 0 <= j < k ==> TransitionMatrix(g, edges, mats, pointed[j]).Ok?
  {
    MapResult(p => TransitionMatrix(g, edges, mats, p), pointed)
  }

  /** A parallel result the gather loop can store: its job returned a
      matrix and its index names a slot. */
  predicate Storable<M>(n: int, x: (nat, Result<M>))
  {
    x.1.Ok? && x.0 < n
  }

  /** What the gather loop raises on a result it cannot store: the job's
      own error, or IndexError for an index past the end. */
  function Refusal<M>(x: (nat, Result<M>)): Error
  {
    if x.1.Err? then x.1.error else IndexError
  }

  /** The loop of `integrated_edges` over the parallel results in arrival
      order: the matrix of each result `(i, m)` is stored in slot `i`; a
      job that raised fails the whole gather with its error, and an index
      past the end raises IndexError. */
  function Gather<M>(slots: seq<Option<M>>, results: seq<(nat, Result<M>)>): (r: Result<seq<Option<M>>>)
    ensures r.Ok? <==> forall k :: 0 <= k < |results| ==> Storable(|slots|, results[k])
    ensures r.Err? ==>
      exists k :: 0 <= k < |results| && !Storable(|slots|, results[k]) && r.error == Refusal(results[k])
        && forall j :: 0 <= j < k ==> Storable(|slots|, results[j])
    ensures r.Ok? ==> |r.value| == |slots|
    ensures r.Ok? ==> forall i :: 0 <= i < |slots| && (forall k :: 0 <= k < |results| ==> results[k].0 != i) ==>
      r.value[i] == slots[i]
    ensures r.Ok? ==> forall k :: 0 <= k < |results| && (forall j :: k < j < |results| ==> results[j].0 != results[k].0) ==>
      r.value[results[k].0] == Some(results[k].1.value)
    decreases |results|
  {
    if |results| == 0 then Ok(slots)
    else if !Storable(|slots|, results[0]) then Err(Refusal(results[0]))
    else
      var rest := results[1..];
      assert forall k :: 1 <= k < |results| ==> results[k] == rest[k - 1];
      var r := Gather(slots[results[0].0 := Some(results[0].1.value)], rest);
      assert r.Err? ==>
        exists k :: 0 <= k < |results| && !Storable(|slots|, results[k]) && r.error == Refusal(results[k])
          && forall j :: 0 <= j < k ==> Storable(|slots|, results[j]) by {
        if r.Err? {
          var k :| 0 <= k < |rest| && !Storable(|slots|, rest[k]) && r.error == Refusal(rest[k])
                   && forall j :: 0 <= j < k ==> Storable(|slots|, rest[j]);
          assert results[k + 1] == rest[k];
          assert forall j :: 0 <= j < k + 1 ==> Storable(|slots|, results[j]);
        }
      }
      r
  }

  /** The last position of the list holding the same value as position
      `k`. */
  lemma {:induction false} LastOccurrence(s: seq<nat>, k: nat) returns (l: nat)
    requires k < |s|
    ensures k <= l < |s| && s[l] == s[k]
    ensures forall j :: l < j < |s| ==> s[j] != s[k]
    decreases |s| - k
  {
    if j :| k < j < |s| && s[j] == s[k] {
      l := LastOccurrence(s, j);
    } else {
      l := k;
    }
  }

  /** The parallel results in arrival order: edge `arrival[k]` with the
      outcome of integrating it. */
  function Arrivals<M>(integrate: int -> Result<M>, arrival: seq<nat>): (r: seq<(nat, Result<M>)>)
    ensures |r| == |arrival|
    ensures forall k :: 0 <= k < |arrival| ==> r[k].0 == arrival[k] && r[k].1 == integrate(arrival[k])
  {
    seq(|arrival|, k requires 0 <= k < |arrival| => (arrival[k], integrate(arrival[k])))
  }

  /** `[None] * n`. */
  function NoSlots<M>(n: nat): (r: seq<Option<M>>)
    ensures |r| == n && forall i :: 0 <= i < n ==> r[i].None?
  {
    seq(n, _ => None)
  }

  /** Slot `i` ends up holding edge `i`'s matrix when edge `i` arrived,
      whenever it arrived, and stays empty otherwise. */
  lemma GatherSlot<M>(n: nat, integrate: int -> Result<M>, arrival: seq<nat>, i: nat)
    requires i < n
    requires forall k :: 0 <= k < |arrival| ==> arrival[k] < n && integrate(arrival[k]).Ok?
    ensures Gather(NoSlots(n), Arrivals(integrate, arrival)).value[i]
            == if i in arrival then Some(integrate(i).value) else None
  {
    var results := Arrivals(integrate, arrival);
    assert forall k :: 0 <= k < |results| ==> Storable(n, results[k]);
    if i in arrival {
      var k :| 0 <= k < |arrival| && arrival[k] == i;
      var last := LastOccurrence(arrival, k);
      assert forall j :: last < j < |results| ==> results[j].0 != results[last].0;
    }
  }

  /** `integrated_edges`: `n` empty slots filled from the outcomes of
      integrating each edge, which arrive in the order `arrival`. It
      fails, at the first arrival that cannot be stored, with that edge's
      integration error or with IndexError for an index past the end. */
  function IntegratedEdges<M>(n: nat, integrate: int -> Result<M>, arrival: seq<nat>): (r: Result<seq<Option<M>>>)
    ensures r.Ok? <==> forall k :: 0 <= k < |arrival| ==> arrival[k] < n && integrate(arrival[k]).Ok?
    ensures r.Err? ==>
      exists k :: 0 <= k < |arrival| && (forall j :: 0 <= j < k ==> arrival[j] < n && integrate(arrival[j]).Ok?)
        && (if integrate(arrival[k]).Err? then r.error == integrate(arrival[k]).error
            else arrival[k] >= n && r.error == IndexError)
    ensures r.Ok? ==> |r.value| == n
    ensures r.Ok? ==> forall i :: 0 <= i < n ==> r.value[i] == if i in arrival then Some(integrate(i).value) else None
  {
    var results := Arrivals(integrate, arrival);
    var r := Gather(NoSlots(n), results);
    assert r.Ok? ==> forall i :: 0 <= i < n ==> r.value[i] == if i in arrival then Some(integrate(i).value) else None by {
      if r.Ok? {
        forall i | 0 <= i < n
          ensures r.value[i] == if i in arrival then Some(integrate(i).value) else None
        {
          assert forall k :: 0 <= k < |arrival| ==> Storable(n, results[k]);
          GatherSlot(n, integrate, arrival, i);
        }
      }
    }
    r
  }

  /** When every edge index arrives exactly once and every integration
      succeeds, slot `i` holds the matrix for edge `i`, whatever the
      arrival order; when some edge's integration fails, so does the
      gather. */
  lemma {:induction false} GatherOrderFree<M>(n: nat, integrate: int -> Result<M>, arrival: seq<nat>)
    requires |arrival| == n && IsPermutation(arrival)
    ensures (forall i :: 0 <= i < n ==> integrate(i).Ok?) ==>
      IntegratedEdges(n, integrate, arrival) == Ok(seq(n, i requires 0 <= i < n && integrate(i).Ok? => Some(integrate(i).value)))
    ensures (exists i :: 0 <= i < n && integrate(i).Err?) ==> IntegratedEdges(n, integrate, arrival).Err?
  {
    if forall i :: 0 <= i < n ==> integrate(i).Ok? {
      GatherAllOk(n, integrate, arrival);
    } else {
      var i :| 0 <= i < n && integrate(i).Err?;
      assert i in arrival;
      var k :| 0 <= k < |arrival| && arrival[k] == i;
      assert !(arrival[k] < n && integrate(arrival[k]).Ok?);
    }
  }

  lemma GatherAllOk<M>(n: nat, integrate: int -> Result<M>, arrival: seq<nat>)
    requires |arrival| == n && IsPermutation(arrival)
    requires forall i :: 0 <= i < n ==> integrate(i).Ok?
    ensures IntegratedEdges(n, integrate, arrival)
            == Ok(seq(n, i requires 0 <= i < n && integrate(i).Ok? => Some(integrate(i).value)))
  {
    var r := IntegratedEdges(n, integrate, arrival);
    assert r.Ok?;
    forall i | 0 <= i < n
      ensures r.value[i] == Some(integrate(i).value)
    {
      assert i in arrival;
    }
    assert r.value == seq(n, i requires 0 <= i < n && integrate(i).Ok? => Some(integrate(i).value));
  }

  /** What the numerical integrator produced for one request. */
  datatype Outcome<M> = Returned(m: M) | Raised(code: int)

  /** One attempt of `_integrate_edge`: the integrator at precision
      `nbits` and `bounds_prec`, followed by the inversion that checks the
      matrix is usable; inverting a singular matrix raises
      ZeroDivisionError. */
  function Attempt<M>(oracle: (int, int) -> Outcome<M>, invertible: M -> bool, nbits: int, boundsPrec: int): (r: Result<M>)
    ensures r.Ok? <==> oracle(nbits, boundsPrec).Returned? && invertible(oracle(nbits, boundsPrec).m)
    ensures r.Ok? ==> r.value == oracle(nbits, boundsPrec).m
  {
    match oracle(nbits, boundsPrec)
    case Raised(c) => Err(OracleFailure(c))
    case Returned(m) => if invertible(m) then Ok(m) else Err(ZeroDivision)
  }

  /** The outcome of `_integrate_edge` and the precisions it asked the
      integrator for, in order. */
  datatype Run<M> = Run(result: Result<M>, requests: seq<(int, int)>)

  /** How many attempts the retry loop makes from counter `tries` on
      when every attempt fails: the counter is bumped after a failure and
      the loop goes on only while it stays below `maxtries`. */
  function Budget(tries: int, maxtries: int): nat
  {
    if maxtries - tries > 1 then maxtries - tries else 1
  }

  /** `x` doubled `k` times, that is `x·2^k`. */
  function Doubled(x: int, k: nat): int
    decreases k
  {
    if k == 0 then x else Doubled(2 * x, k - 1)
  }

  lemma {:induction false} DoubledIsPower(x: int, k: nat)
    ensures Doubled(x, k) == x * Pow2(k)
    decreases k
  {
    if k > 0 {
      DoubledIsPower(2 * x, k - 1);
    }
  }

  /** The precisions of attempt `k` when the first attempt uses `nbits`
      and `boundsPrec`: both doubled `k` times. */
  function Request(nbits: int, boundsPrec: int, k: nat): (int, int)
  {
    (Doubled(nbits, k), Doubled(boundsPrec, k))
  }

  /** The `while True` loop of `_integrate_edge` from counter `tries`:
      after a failure the counter goes up and, while it is below
      `maxtries`, both precisions double and the loop goes on; otherwise
      the last error is raised. The first success ends the loop. */
  function RetryFrom<M>(oracle: (int, int) -> Outcome<M>, invertible: M -> bool,
                        nbits: int, boundsPrec: int, tries: int, maxtries: int): (r: Run<M>)
    ensures 1 <= |r.requests| <= Budget(tries, maxtries)
    ensures forall k :: 0 <= k < |r.requests| ==> r.requests[k] == Request(nbits, boundsPrec, k)
    ensures forall k :: 0 <= k < |r.requests| - 1 ==> Attempt(oracle, invertible, r.requests[k].0, r.requests[k].1).Err?
    ensures r.result == Attempt(oracle, invertible, r.requests[|r.requests| - 1].0, r.requests[|r.requests| - 1].1)
    ensures r.result.Err? ==> |r.requests| == Budget(tries, maxtries)
    decreases maxtries - tries
  {
    var here := Attempt(oracle, invertible, nbits, boundsPrec);
    if here.Ok? || tries + 1 >= maxtries then Run(here, [(nbits, boundsPrec)])
    else
      var rest := RetryFrom(oracle, invertible, 2 * nbits, 2 * boundsPrec, tries + 1, maxtries);
      RequestsDoubled(nbits, boundsPrec, rest.requests);
      Run(rest.result, [(nbits, boundsPrec)] + rest.requests)
  }

  /** Prepending the request at the current precision to the requests made
      at double precision gives the doubling sequence from the current one. */
  lemma {:induction false} RequestsDoubled(nbits: int, boundsPrec: int, rest: seq<(int, int)>)
    requires forall k :: 0 <= k < |rest| ==> rest[k] == Request(2 * nbits, 2 * boundsPrec, k)
    ensures var all := [(nbits, boundsPrec)] + rest;
      forall k :: 0 <= k < |all| ==> all[k] == Request(nbits, boundsPrec, k)
  {
    var all := [(nbits, boundsPrec)] + rest;
    forall k | 0 <= k < |all|
      ensures all[k] == Request(nbits, boundsPrec, k)
    {
      if k > 0 {
        assert all[k] == rest[k - 1];
      }
    }
  }

  /** `_integrate_edge(i, L, l, nbits, maxtries)`: along an empty path the
      identity, without calling the integrator; otherwise attempt `k`
      (from 0) asks for `nbits·2^k` bits and bounds precision `256·2^k`,
      the first invertible result is returned, and after
      `max(1, maxtries - 1)` failures the last error is raised. */
  function IntegrateEdge<M>(oracle: (int, int) -> Outcome<M>, invertible: M -> bool, one: M,
                            l: seq<Complex>, nbits: int, maxtries: int): (r: Run<M>)
    ensures l == [] ==> r == Run(Ok(one), [])
    ensures l != [] ==> 1 <= |r.requests| <= Budget(1, maxtries)
    ensures l != [] ==> forall k :: 0 <= k < |r.requests| ==> r.requests[k] == Request(nbits, 256, k)
    ensures l != [] ==> forall k :: 0 <= k < |r.requests| - 1 ==> Attempt(oracle, invertible, r.requests[k].0, r.requests[k].1).Err?
    ensures l != [] ==> r.result == Attempt(oracle, invertible, r.requests[|r.requests| - 1].0, r.requests[|r.requests| - 1].1)
    ensures l != [] && r.result.Err? ==> |r.requests| == Budget(1, maxtries)
  {
    if l == [] then Run(Ok(one), []) else RetryFrom(oracle, invertible, nbits, 256, 1, maxtries)
  }

  /** With the default `maxtries = 5` and an integrator that always fails,
      the loop makes four attempts, not five, and raises the error of the
      fourth, made at `8·nbits` bits and bounds precision 2048. */
  lemma {:induction false} DefaultRetriesFailing<M>(oracle: (int, int) -> Outcome<M>, invertible: M -> bool, one: M, l: seq<Complex>, nbits: int)
    requires l != []
    requires forall n, b :: Attempt(oracle, invertible, n, b).Err?
    ensures |IntegrateEdge(oracle, invertible, one, l, nbits, 5).requests| == 4
    ensures IntegrateEdge(oracle, invertible, one, l, nbits, 5).result == Attempt(oracle, invertible, 8 * nbits, 2048)
  {
    var r := IntegrateEdge(oracle, invertible, one, l, nbits, 5);
    assert r.requests[3] == Request(nbits, 256, 3);
    assert Doubled(nbits, 3) == 8 * nbits;
  }

  /** A first success at attempt `k` ends the loop after `k + 1` requests
      and returns that attempt's matrix. */
  lemma {:induction false} FirstSuccessStops<M>(oracle: (int, int) -> Outcome<M>, invertible: M -> bool, one: M,
                             l: seq<Complex>, nbits: int, maxtries: int, k: nat)
    requires l != [] && k < Budget(1, maxtries)
    requires Attempt(oracle, invertible, Doubled(nbits, k), Doubled(256, k)).Ok?
    requires forall j :: 0 <= j < k ==> Attempt(oracle, invertible, Doubled(nbits, j), Doubled(256, j)).Err?
    ensures |IntegrateEdge(oracle, invertible, one, l, nbits, maxtries).requests| == k + 1
    ensures IntegrateEdge(oracle, invertible, one, l, nbits, maxtries).result
         == Attempt(oracle, invertible, Doubled(nbits, k), Doubled(256, k))
  {
    var r := IntegrateEdge(oracle, invertible, one, l, nbits, maxtries);
    var m := |r.requests|;
    assert r.requests[k] == Request(nbits, 256, k);
  }
}

=== FILE: paths.dfy ===
/** `Util.simplify_path`: removal of repeated vertices and immediate
    backtracks `a, b, a` from a walk of vertex indices. */
module Paths {

  /** Position `i` (with both neighbours present) neither repeats the
      previous vertex nor starts a backtrack `res[i-1], res[i], res[i-1]`. */
  predicate CleanAt(res: seq<int>, i: int)
  {
    1 <= i < |res| - 1 && res[i - 1] != res[i] && res[i - 1] != res[i + 1]
  }

  /** Every interior position below `i` is clean. */
  predicate CleanBelow(res: seq<int>, i: int)
  {
    forall j :: 1 <= j < i && j < |res| - 1 ==> CleanAt(res, j)
  }

  /** Every interior position is clean. */
  predicate Reduced(res: seq<int>)
  {
    forall j :: 1 <= j < |res| - 1 ==> CleanAt(res, j)
  }

  /** `idx` lists, in strictly increasing order, positions of `b` that
      spell out `a`. */
  predicate Embeds(a: seq<int>, b: seq<int>, idx: seq<int>)
  {
    && |idx| == |a|
    && (forall k :: 0 <= k < |a| ==> 0 <= idx[k] < |b| && a[k] == b[idx[k]])
    && (forall k, m :: 0 <= k < m < |a| ==> idx[k] < idx[m])
  }

  /** `a` is obtained from `b` by deleting entries. */
  ghost predicate IsSubsequence(a: seq<int>, b: seq<int>)
  {
    exists idx :: Embeds(a, b, idx)
  }

  lemma SubsequenceOfItself(b: seq<int>)
    ensures IsSubsequence(b, b)
  {
    var idx := seq(|b|, k => k);
    assert Embeds(b, b, idx);
  }

  /** Deleting the block `b[i..j]` leaves a subsequence. */
  lemma SubsequenceByDeletion(b: seq<int>, i: int, j: int)
    requires 0 <= i <= j <= |b|
    ensures IsSubsequence(b[..i] + b[j..], b)
  {
    var a := b[..i] + b[j..];
    var idx := seq(|a|, k => if k < i then k else k + (j - i));
    assert Embeds(a, b, idx);
  }

  lemma SubsequenceTransitive(a: seq<int>, b: seq<int>, c: seq<int>)
    requires IsSubsequence(a, b) && IsSubsequence(b, c)
    ensures IsSubsequence(a, c)
  {
    var i1 :| Embeds(a, b, i1);
    var i2 :| Embeds(b, c, i2);
    var idx := seq(|a|, k requires 0 <= k < |a| => i2[i1[k]]);
    assert Embeds(a, c, idx);
  }

  /** What one deletion of `simplify_path` preserves: the clean prefix
      below the stepped-back cursor, the end vertices, and the
      subsequence relation. */
  lemma DeletionStep(res: seq<int>, i: int, k: int)
    requires 1 <= i < |res| - 1 && CleanBelow(res, i)
    requires (k == 1 && res[i - 1] == res[i]) || (k == 2 && res[i - 1] == res[i + 1])
    ensures CleanBelow(res[..i] + res[i + k..], if i != 1 then i - 1 else i)
    ensures |res[..i] + res[i + k..]| > 0
    ensures (res[..i] + res[i + k..])[0] == res[0]
    ensures Last(res[..i] + res[i + k..]) == Last(res)
    ensures IsSubsequence(res[..i] + res[i + k..], res)
    ensures !Reduced(res)
  {
    var next := res[..i] + res[i + k..];
    SubsequenceByDeletion(res, i, i + k);
    forall j | 1 <= j < i - 1 && j < |next| - 1
      ensures CleanAt(next, j)
    {
      assert CleanAt(res, j);
      assert next[j - 1] == res[j - 1] && next[j] == res[j] && next[j + 1] == res[j + 1];
    }
    assert !CleanAt(res, i);
  }

  function Last(s: seq<int>): int
    requires |s| > 0
  {
    s[|s| - 1]
  }

  /** The `while` loop of `simplify_path` from cursor `i` on the current
      list `res`: a repeated vertex at `i` is deleted; a backtrack
      `res[i-1], res[i], res[i+1] == res[i-1]` loses `res[i]` and `res[i+1]`;
      after a deletion the cursor steps back unless it is at 1; otherwise it
      advances. The measure is lexicographic: the length, then the distance
      from the cursor to the end. */
  function SimplifyFrom(res: seq<int>, i: int): (r: seq<int>)
    requires 1 <= i
    requires CleanBelow(res, i)
    ensures Reduced(r)
    ensures |r| <= |res|
    ensures |res| > 0 ==> |r| > 0 && r[0] == res[0] && Last(r) == Last(res)
    ensures IsSubsequence(r, res)
    ensures Reduced(res) ==> r == res
    decreases |res|, |res| - i
  {
    if i >= |res| - 1 then
      SubsequenceOfItself(res);
      res
    else if res[i - 1] == res[i] || res[i - 1] == res[i + 1] then
      var k := if res[i - 1] == res[i] then 1 else 2;
      var next := res[..i] + res[i + k..];
      DeletionStep(res, i, k);
      var r := SimplifyFrom(next, if i != 1 then i - 1 else i);
      SubsequenceTransitive(r, next, res);
      r
    else
      SimplifyFrom(res, i + 1)
  }

  /** `simplify_path(p)`: a subsequence of `p` with the same first and last
      vertex in which no interior position repeats its predecessor or
      starts a backtrack. */
  function SimplifyPath(p: seq<int>): (r: seq<int>)
    ensures Reduced(r)
    ensures IsSubsequence(r, p)
    ensures |p| > 0 ==> |r| > 0 && r[0] == p[0] && r[|r| - 1] == p[|p| - 1]
    ensures Reduced(p) ==> r == p
  {
    SimplifyFrom(p, 1)
  }

  /** Simplifying twice is simplifying once. */
  lemma SimplifyIdempotent(p: seq<int>)
    ensures SimplifyPath(SimplifyPath(p)) == SimplifyPath(p)
  {
  }
}

=== FILE: permutations.dfy ===
/** `Util.invert_permutation`. */
module Permutations {
  import opened Base

  /** `l` lists each of `0, ..., |l|-1` exactly once. */
  predicate IsPermutation(l: seq<int>)
  {
    && (forall i :: 0 <= i < |l| ==> 0 <= l[i] < |l|)
    && (forall x :: 0 <= x < |l| ==> x in l)
    && Distinct(l)
  }

  /** `[l.index(x) for x in range(k)]`, evaluated left to right; the first
      absent `x` makes `list.index` raise ValueError. */
  function IndicesUpTo(l: seq<int>, k: nat): (r: Result<seq<int>>)
    requires k <= |l|
    ensures r.Ok? <==> forall x :: 0 <= x < k ==> x in l
    ensures r.Err? ==> r.error == ValueError
    ensures r.Ok? ==> |r.value| == k
    ensures r.Ok? ==> forall x :: 0 <= x < k ==> IndexOf(l, x).Some? && IndexOf(l, x).value == r.value[x]
  {
    if k == 0 then Ok([])
    else match IndicesUpTo(l, k - 1)
      case Err(e) => Err(e)
      case Ok(s) =>
        match IndexOf(l, k - 1)
        case None => Err(ValueError)
        case Some(i) => Ok(s + [i])
  }

  /** `invert_permutation(l)`: position `x` of the result holds the first
      index at which `x` occurs in `l`. It succeeds exactly when every value
      of `0..|l|-1` occurs, and for a permutation it is the inverse:
      `r[l[i]] == i`. */
  function InvertPermutation(l: seq<int>): (r: Result<seq<int>>)
    ensures r.Ok? <==> forall x :: 0 <= x < |l| ==> x in l
    ensures r.Ok? ==> |r.value| == |l|
    ensures r.Ok? ==> forall x :: 0 <= x < |l| ==> 0 <= r.value[x] < |l| && l[r.value[x]] == x
    ensures IsPermutation(l) ==> r.Ok? && forall i :: 0 <= i < |l| ==> r.value[l[i]] == i
  {
    FirstIndexInPermutation(l);
    IndicesUpTo(l, |l|)
  }

  /** In a list without repetitions the first index of `l[i]` is `i`. */
  lemma FirstIndexInPermutation(l: seq<int>)
    ensures IsPermutation(l) ==> forall i :: 0 <= i < |l| ==> IndexOf(l, l[i]) == Some(i)
  {
  }

  /** Inverting a permutation gives a permutation, and inverting twice
      gives back the original list. */
  lemma InvertTwice(l: seq<int>)
    requires IsPermutation(l)
    ensures InvertPermutation(l).Ok?
    ensures IsPermutation(InvertPermutation(l).value)
    ensures InvertPermutation(InvertPermutation(l).value) == Ok(l)
  {
    var r := InvertPermutation(l).value;
    forall i | 0 <= i < |l|
      ensures i in r
    {
      assert r[l[i]] == i;
    }
    assert Distinct(r) by {
      forall x, y | 0 <= x < y < |r|
        ensures r[x] != r[y]
      {
        assert l[r[x]] == x && l[r[y]] == y;
      }
    }
    var back := InvertPermutation(r);
    assert back.Ok?;
    forall y | 0 <= y < |l|
      ensures back.value[y] == l[y]
    {
      // r[l[y]] == y, and y occurs once in r, so back[y] == l[y]
      assert r[back.value[y]] == y;
      assert r[l[y]] == y;
    }
    assert back.value == l;
  }
}

=== FILE: rationals.dfy ===
/** Exact rationals as numerator/denominator pairs. The Python code works on
    Sage rationals and 500-bit floats; here every coordinate is an exact
    rational, so the continued-fraction loop becomes Euclid's algorithm on
    the pair. */
module Rationals {

  /** A fraction `num/den`; only positive denominators are meaningful. */
  datatype Fraction = Fraction(num: int, den: int)

  /** Fractions in normal sign form. */
  type Rat = q: Fraction | q.den > 0 witness Fraction(0, 1)

  function Value(q: Rat): real
  {
    q.num as real / q.den as real
  }

  function FromInt(n: int): (q: Rat)
    ensures Value(q) == n as real
  {
    Fraction(n, 1)
  }

  /** `floor(q)`: Dafny's `/` on integers with a positive divisor rounds
      toward minus infinity. */
  function Floor(q: Rat): int
  {
    q.num / q.den
  }

  function Abs(x: real): (r: real)
    ensures r >= 0.0
    ensures r == x || r == -x
  {
    if x < 0.0 then -x else x
  }

  /** `a - k * b` as a fraction; used for `xmin - (xmax - xmin) * shift`. */
  function SubScaled(a: Rat, b: Rat, k: int): (r: Rat)
    ensures Value(r) == Value(a) - k as real * Value(b)
  {
    var r := Fraction(a.num * b.den - k * b.num * a.den, a.den * b.den);
    ValueOfSum(a, b, k);
    r
  }

  lemma ValueOfSum(a: Rat, b: Rat, k: int)
    ensures Value(Fraction(a.num * b.den - k * b.num * a.den, a.den * b.den))
         == Value(a) - k as real * Value(b)
  {
    var d := (a.den * b.den) as real;
    var va := Value(a);
    var vb := Value(b);
    assert va * a.den as real == a.num as real;
    assert vb * b.den as real == b.num as real;
    assert (va - k as real * vb) * d
        == (va * a.den as real) * b.den as real - k as real * (vb * b.den as real) * a.den as real;
  }

  /** The floor is the greatest integer not above the value. */
  lemma FloorBounds(q: Rat)
    ensures Floor(q) as real <= Value(q) < Floor(q) as real + 1.0
  {
    var f := Floor(q);
    var m := q.num % q.den;
    assert q.num == f * q.den + m && 0 <= m < q.den;
    var d := q.den as real;
    var frac := m as real / d;
    assert 0.0 <= frac < 1.0 by {
      assert frac * d == m as real;
    }
    assert Value(q) == f as real + frac by {
      assert (f as real + frac) * d == q.num as real;
    }
  }

  /** One step of the continued-fraction expansion: when the remainder is
      not zero, `q == floor(q) + 1/q'` with `q' = den / (num mod den)`, and
      `q' > 1`. */
  lemma ComplementStep(q: Rat)
    requires q.num % q.den != 0
    ensures var q' := Fraction(q.den, q.num % q.den);
      && q'.den > 0
      && Value(q') > 1.0
      && Value(q) == Floor(q) as real + 1.0 / Value(q')
  {
    var f := Floor(q);
    var m := q.num % q.den;
    assert q.num == f * q.den + m && 0 < m < q.den;
    var d := q.den as real;
    var mr := m as real;
    assert Value(Fraction(q.den, m)) == d / mr;
    assert d / mr > 1.0 by {
      assert d > mr > 0.0;
    }
    assert 1.0 / (d / mr) == mr / d;
    assert Value(q) * d == q.num as real;
    assert Value(q) * d == (f as real + mr / d) * d;
  }

  /** With a zero remainder the value is the integer `floor(q)`. */
  lemma IntegralValue(q: Rat)
    ensures q.num % q.den == 0 ==> Value(q) == Floor(q) as real
  {
    if q.num % q.den == 0 {
      var f := Floor(q);
      assert q.num == f * q.den;
      assert Value(q) * q.den as real == f as real * q.den as real;
    }
  }
}

=== FILE: undirected.dfy ===
/** Edge lists of undirected graphs stored as Python pairs `[a, b]`, and the
    "add unless present in either orientation" de-duplication that
    `FundamentalGroupVoronoi.edges` and `minimal_tree` both perform. */
module Undirected {

  /** The pair `[src, dst]`. */
  datatype Edge = Edge(src: int, dst: int)

  /** `[e[1], e[0]]`. */
  function Flip(e: Edge): Edge
  {
    Edge(e.dst, e.src)
  }

  /** `es` contains `e` in one orientation or the other. */
  predicate Mentions(es: seq<Edge>, e: Edge)
  {
    e in es || Flip(e) in es
  }

  /** No edge occurs twice, in either orientation. */
  predicate Simple(es: seq<Edge>)
  {
    forall i, j :: 0 <= i < j < |es| ==> es[i] != es[j] && es[i] != Flip(es[j])
  }

  /** `if e not in acc and [e[1], e[0]] not in acc: acc += [e]`. */
  function AddEdge(acc: seq<Edge>, e: Edge): seq<Edge>
  {
    if e !in acc && Flip(e) !in acc then acc + [e] else acc
  }

  /** `AddEdge` applied to each edge of `es` in order. The result extends
      `acc`, stays free of repetitions up to orientation, mentions exactly
      the edges mentioned by `acc` or `es`, and every appended entry is an
      edge of `es` as given. */
  function AddEdges(acc: seq<Edge>, es: seq<Edge>): (r: seq<Edge>)
    requires Simple(acc)
    ensures Simple(r)
    ensures acc <= r
    ensures forall e :: Mentions(r, e) <==> Mentions(acc, e) || Mentions(es, e)
    ensures forall k :: |acc| <= k < |r| ==> r[k] in es
    decreases |es|
  {
    if |es| == 0 then acc
    else
      var next := AddEdge(acc, es[0]);
      assert Simple(next);
      assert forall e :: Mentions(es, e) <==> e == es[0] || Flip(e) == es[0] || Mentions(es[1..], e) by {
        assert es == [es[0]] + es[1..];
      }
      AddEdges(next, es[1..])
  }

  /** The edges of each list in `ls`, one list after the other. */
  function Flatten(ls: seq<seq<Edge>>): (r: seq<Edge>)
    ensures forall e :: e in r <==> exists p :: 0 <= p < |ls| && e in ls[p]
  {
    if |ls| == 0 then []
    else
      var r := Flatten(ls[..|ls| - 1]) + ls[|ls| - 1];
      assert forall p :: 0 <= p < |ls| - 1 ==> ls[..|ls| - 1][p] == ls[p];
      r
  }

  /** The flattened lists mention an edge exactly when one of them does. */
  lemma MentionsFlatten(ls: seq<seq<Edge>>, e: Edge)
    ensures Mentions(Flatten(ls), e) <==> exists p :: 0 <= p < |ls| && Mentions(ls[p], e)
  {
    if Mentions(Flatten(ls), e) {
      if e in Flatten(ls) {
        var p :| 0 <= p < |ls| && e in ls[p];
      } else {
        var p :| 0 <= p < |ls| && Flip(e) in ls[p];
      }
    }
  }
}

=== FILE: voronoi_cells.dfy ===
/** The exact-arithmetic part of `FundamentalGroupVoronoi.polygons` and
    `FundamentalGroupVoronoi.edges`: the enlarged bounding box, the border
    seeds added around the points, the de-duplicated vertex list with each
    cell's bounded edges as index pairs, and the edge list of the Voronoi
    graph. The diagram itself is an input: for each selected cell, its
    centre and its bounded edges as pairs of rational points. */
module VoronoiCells {
  import opened Base
  import opened Geometry
  import opened Undirected

  // ---------------------------------------------------------------------
  // Bounding box and border seeds

  /** `xmin, xmax, ymin, ymax`. */
  datatype Box = Box(xmin: real, xmax: real, ymin: real, ymax: real)

  predicate Inside(b: Box, z: Complex)
  {
    b.xmin <= z.re <= b.xmax && b.ymin <= z.im <= b.ymax
  }

  /** `z` lies on one of the four sides of the rectangle. */
  predicate OnBoundary(b: Box, z: Complex)
  {
    Inside(b, z) && (z.re == b.xmin || z.re == b.xmax || z.im == b.ymin || z.im == b.ymax)
  }

  /** `min` over a non-empty list of reals. */
  function MinOf(s: seq<real>): (m: real)
    requires |s| > 0
    ensures m in s
    ensures forall k :: 0 <= k < |s| ==> m <= s[k]
  {
    if |s| == 1 then s[0]
    else
      var m := MinOf(s[1..]);
      if s[0] <= m then s[0] else m
  }

  /** `max` over a non-empty list of reals. */
  function MaxOf(s: seq<real>): (m: real)
    requires |s| > 0
    ensures m in s
    ensures forall k :: 0 <= k < |s| ==> s[k] <= m
  {
    if |s| == 1 then s[0]
    else
      var m := MaxOf(s[1..]);
      if s[0] >= m then s[0] else m
  }

  function Reals(ps: seq<Complex>): (r: seq<real>)
    ensures |r| == |ps| && forall k :: 0 <= k < |ps| ==> r[k] == ps[k].re
  {
    seq(|ps|, k requires 0 <= k < |ps| => ps[k].re)
  }

  function Imags(ps: seq<Complex>): (r: seq<real>)
    ensures |r| == |ps| && forall k :: 0 <= k < |ps| ==> r[k] == ps[k].im
  {
    seq(|ps|, k requires 0 <= k < |ps| => ps[k].im)
  }

  /** The smallest box holding every point of the non-empty list `ps`:
      `min`/`max` of the real and imaginary parts. */
  function Extent(ps: seq<Complex>): (b: Box)
    requires |ps| > 0
    ensures b.xmin <= b.xmax && b.ymin <= b.ymax
    ensures forall k :: 0 <= k < |ps| ==> Inside(b, ps[k])
    ensures b.xmin in Reals(ps) && b.xmax in Reals(ps) && b.ymin in Imags(ps) && b.ymax in Imags(ps)
  {
    var xs, ys := Reals(ps), Imags(ps);
    assert xs[0] == ps[0].re && ys[0] == ps[0].im;
    Box(MinOf(xs), MaxOf(xs), MinOf(ys), MaxOf(ys))
  }

  /** Every side pushed out by `shift` times the width or height. */
  function Enlarge(b: Box, shift: real): (r: Box)
    ensures r.xmax - r.xmin == (1.0 + 2.0 * shift) * (b.xmax - b.xmin)
    ensures r.ymax - r.ymin == (1.0 + 2.0 * shift) * (b.ymax - b.ymin)
    ensures shift >= 0.0 && b.xmin <= b.xmax && b.ymin <= b.ymax ==>
      r.xmin <= b.xmin && b.xmax <= r.xmax && r.ymin <= b.ymin && b.ymax <= r.ymax
  {
    Shifted(b.xmin, b.xmax, shift);
    Shifted(b.ymin, b.ymax, shift);
    Box(b.xmin + shift * (b.xmin - b.xmax), b.xmax + shift * (b.xmax - b.xmin),
        b.ymin + shift * (b.ymin - b.ymax), b.ymax + shift * (b.ymax - b.ymin))
  }

  /** The box around `qpoints[1:]` (the basepoint `qpoints[0]` is not
      counted), enlarged on every side by `shift` times its width or
      height, so that both dimensions grow by the factor `1 + 2*shift`.
      `min` of no critical points raises ValueError. For `shift >= 0`
      every critical point lies inside. */
  function BoundingBox(qpoints: seq<Complex>, shift: real): (r: Result<Box>)
    ensures r.Ok? <==> |qpoints| >= 2
    ensures r.Ok? ==>
      && r.value.xmax - r.value.xmin == (1.0 + 2.0 * shift) * (Extent(qpoints[1..]).xmax - Extent(qpoints[1..]).xmin)
      && r.value.ymax - r.value.ymin == (1.0 + 2.0 * shift) * (Extent(qpoints[1..]).ymax - Extent(qpoints[1..]).ymin)
    ensures r.Ok? && shift >= 0.0 ==> r.value.xmin <= r.value.xmax && r.value.ymin <= r.value.ymax
    ensures r.Ok? && shift >= 0.0 ==> forall k :: 1 <= k < |qpoints| ==> Inside(r.value, qpoints[k])
  {
    if |qpoints| < 2 then Err(ValueError)
    else
      var ps := qpoints[1..];
      var e := Extent(ps);
      assert forall k :: 1 <= k < |qpoints| ==> qpoints[k] == ps[k - 1] && Inside(e, ps[k - 1]);
      Ok(Enlarge(e, shift))
  }

  lemma Shifted(lo: real, hi: real, shift: real)
    ensures hi + shift * (hi - lo) - (lo + shift * (lo - hi)) == (1.0 + 2.0 * shift) * (hi - lo)
    ensures shift >= 0.0 && lo <= hi ==> lo + shift * (lo - hi) <= lo && hi <= hi + shift * (hi - lo)
  {
    assert shift * (hi - lo) == shift * hi - shift * lo;
    assert shift * (lo - hi) == shift * lo - shift * hi;
    assert (1.0 + 2.0 * shift) * (hi - lo) == (hi - lo) + 2.0 * (shift * hi - shift * lo);
    if shift >= 0.0 && lo <= hi {
      assert shift * (hi - lo) >= 0.0;
    }
  }

  /** `QQ(i)/QQ(border)`. */
  function Step(i: int, border: int): real
    requires border > 0
  {
    i as real / border as real
  }

  function Positive(n: int): nat
  {
    if n > 0 then n else 0
  }

  /** Seed `side` of round `i` of the border loop, as the source evidently
      intends it: the top side left to right, the bottom side right to left,
      the left side bottom to top, the right side top to bottom. */
  function Seed(b: Box, border: int, i: int, side: int): Complex
    requires border > 0
  {
    var step := Step(i, border);
    if side == 0 then Complex(b.xmin + step * (b.xmax - b.xmin), b.ymax)
    else if side == 1 then Complex(b.xmax + step * (b.xmin - b.xmax), b.ymin)
    else if side == 2 then Complex(b.xmin, b.ymin + step * (b.ymax - b.ymin))
    else Complex(b.xmax, b.ymax + step * (b.ymin - b.ymax))
  }

  /** Seed `side` of round `i` as the source computes it: in the last two
      lines `step*(ymax-ymin)` is added to a complex number without a
      factor `I`, so it moves the real part, not the imaginary part. */
  function SeedAsWritten(b: Box, border: int, i: int, side: int): Complex
    requires border > 0
  {
    var step := Step(i, border);
    if side == 0 then Complex(b.xmin + step * (b.xmax - b.xmin), b.ymax)
    else if side == 1 then Complex(b.xmax + step * (b.xmin - b.xmax), b.ymin)
    else if side == 2 then Complex(b.xmin + step * (b.ymax - b.ymin), b.ymin)
    else Complex(b.xmax + step * (b.ymin - b.ymax), b.ymax)
  }

  /** Rounds `i, ..., border-1` of the corrected border loop, four seeds
      each (`RoundsAsWritten` is the loop as written). */
  function Rounds(b: Box, border: int, i: nat): (r: seq<Complex>)
    requires border > 0 && i <= border
    ensures |r| == 4 * (border - i)
    ensures b.xmin <= b.xmax && b.ymin <= b.ymax ==> forall k :: 0 <= k < |r| ==> OnBoundary(b, r[k])
    decreases border - i
  {
    if i == border then []
    else
      if b.xmin <= b.xmax && b.ymin <= b.ymax then
        SeedOnBoundary(b, border, i, 0);
        SeedOnBoundary(b, border, i, 1);
        SeedOnBoundary(b, border, i, 2);
        SeedOnBoundary(b, border, i, 3);
        RoundsCons(b, border, i)
      else RoundsCons(b, border, i)
  }

  function RoundsCons(b: Box, border: int, i: nat): (r: seq<Complex>)
    requires border > 0 && i < border
    ensures |r| == 4 * (border - i)
    ensures b.xmin <= b.xmax && b.ymin <= b.ymax && OnBoundary(b, Seed(b, border, i, 0)) && OnBoundary(b, Seed(b, border, i, 1))
            && OnBoundary(b, Seed(b, border, i, 2)) && OnBoundary(b, Seed(b, border, i, 3))
            ==> forall k :: 0 <= k < |r| ==> OnBoundary(b, r[k])
    decreases border - i, 0
  {
    [Seed(b, border, i, 0), Seed(b, border, i, 1), Seed(b, border, i, 2), Seed(b, border, i, 3)]
      + Rounds(b, border, i + 1)
  }

  /** The seeds of the corrected border loop: `border` rounds of four
      (`BorderSeedsAsWritten` is the loop as written). */
  function BorderSeeds(b: Box, border: int): (r: seq<Complex>)
    ensures |r| == 4 * Positive(border)
    ensures b.xmin <= b.xmax && b.ymin <= b.ymax ==> forall k :: 0 <= k < |r| ==> OnBoundary(b, r[k])
  {
    if border <= 0 then [] else Rounds(b, border, 0)
  }

  /** Entry `4*i + side` of the rounds from `j` on is seed `side` of
      round `i`. */
  lemma {:induction false} RoundsAt(b: Box, border: int, j: nat, i: nat, side: int)
    requires border > 0 && j <= i < border && 0 <= side < 4
    ensures Rounds(b, border, j)[4 * (i - j) + side] == Seed(b, border, i, side)
    decreases i - j
  {
    assert Rounds(b, border, j) == RoundsCons(b, border, j);
    if j < i {
      RoundsAt(b, border, j + 1, i, side);
      assert RoundsCons(b, border, j)[4 * (i - j) + side] == Rounds(b, border, j + 1)[4 * (i - j - 1) + side];
    }
  }

  /** The border seeds come round by round, four sides per round. */
  lemma BorderSeedsAt(b: Box, border: int, i: int, side: int)
    requires 0 <= i < border && 0 <= side < 4
    ensures BorderSeeds(b, border)[4 * i + side] == Seed(b, border, i, side)
  {
    RoundsAt(b, border, 0, i, side);
  }

  function RoundsAsWritten(b: Box, border: int, i: nat): (r: seq<Complex>)
    requires border > 0 && i <= border
    ensures |r| == 4 * (border - i)
    decreases border - i
  {
    if i == border then []
    else [SeedAsWritten(b, border, i, 0), SeedAsWritten(b, border, i, 1),
          SeedAsWritten(b, border, i, 2), SeedAsWritten(b, border, i, 3)]
         + RoundsAsWritten(b, border, i + 1)
  }

  function BorderSeedsAsWritten(b: Box, border: int): (r: seq<Complex>)
    ensures |r| == 4 * Positive(border)
  {
    if border <= 0 then [] else RoundsAsWritten(b, border, 0)
  }

  lemma {:induction false} RoundsAsWrittenAt(b: Box, border: int, j: nat, i: nat, side: int)
    requires border > 0 && j <= i < border && 0 <= side < 4
    ensures RoundsAsWritten(b, border, j)[4 * (i - j) + side] == SeedAsWritten(b, border, i, side)
    decreases i - j
  {
    if j < i {
      RoundsAsWrittenAt(b, border, j + 1, i, side);
      assert RoundsAsWritten(b, border, j)[4 * (i - j) + side] == RoundsAsWritten(b, border, j + 1)[4 * (i - j - 1) + side];
    }
  }

  lemma SeedOnBoundary(b: Box, border: int, i: int, side: int)
    requires border > 0 && 0 <= i < border && 0 <= side < 4
    requires b.xmin <= b.xmax && b.ymin <= b.ymax
    ensures OnBoundary(b, Seed(b, border, i, side))
  {
    StepInRange(i, border);
    SidesOnBoundary(b, Step(i, border));
  }

  /** The four points at parameter `t` along the sides of the box. */
  lemma SidesOnBoundary(b: Box, t: real)
    requires 0.0 <= t <= 1.0 && b.xmin <= b.xmax && b.ymin <= b.ymax
    ensures OnBoundary(b, Complex(b.xmin + t * (b.xmax - b.xmin), b.ymax))
    ensures OnBoundary(b, Complex(b.xmax + t * (b.xmin - b.xmax), b.ymin))
    ensures OnBoundary(b, Complex(b.xmin, b.ymin + t * (b.ymax - b.ymin)))
    ensures OnBoundary(b, Complex(b.xmax, b.ymax + t * (b.ymin - b.ymax)))
  {
    Between(b.xmin, b.xmax, t);
    Between(b.ymin, b.ymax, t);
    var dx, dy := t * (b.xmax - b.xmin), t * (b.ymax - b.ymin);
    assert b.xmin <= b.xmin + dx <= b.xmax && b.xmin <= b.xmax - dx <= b.xmax;
    assert b.ymin <= b.ymin + dy <= b.ymax && b.ymin <= b.ymax - dy <= b.ymax;
  }

  lemma StepInRange(i: int, border: int)
    requires border > 0 && 0 <= i < border
    ensures 0.0 <= Step(i, border) < 1.0
  {
  }

  /** Points `lo + t*(hi-lo)` and `hi + t*(lo-hi)` with `0 <= t <= 1` lie
      between `lo` and `hi`. */
  lemma Between(lo: real, hi: real, t: real)
    requires lo <= hi && 0.0 <= t <= 1.0
    ensures 0.0 <= t * (hi - lo) <= hi - lo
    ensures t * (lo - hi) == -(t * (hi - lo))
  {
    var d := hi - lo;
    NonNegativeProduct(t, d);
    NonNegativeProduct(1.0 - t, d);
    assert t * d == d - (1.0 - t) * d;
  }

  lemma NonNegativeProduct(x: real, y: real)
    requires x >= 0.0 && y >= 0.0
    ensures x * y >= 0.0
  {
  }

  /** The seed list `rootapprox` as the source evidently intends it: the
      rational points followed by the corrected border seeds (`Seed`, with
      the factor `I` restored on the left and right sides); the code as
      written is `SeedsAsWritten`. It fails exactly when there is no
      critical point. The points come first unchanged, then exactly
      `4*border` seeds; for `shift >= 0` each seed lies on the boundary of
      the enlarged box, which contains every critical point. */
  function Seeds(qpoints: seq<Complex>, shift: real, border: int): (r: Result<seq<Complex>>)
    ensures r.Ok? <==> |qpoints| >= 2
    ensures r.Ok? ==> |r.value| == |qpoints| + 4 * Positive(border) && r.value[..|qpoints|] == qpoints
    ensures r.Ok? && shift >= 0.0 ==>
      var b := BoundingBox(qpoints, shift).value;
      && (forall k :: 1 <= k < |qpoints| ==> Inside(b, r.value[k]))
      && (forall k :: |qpoints| <= k < |r.value| ==> OnBoundary(b, r.value[k]))
  {
    match BoundingBox(qpoints, shift)
    case Err(e) => Err(e)
    case Ok(b) =>
      var s := BorderSeeds(b, border);
      assert forall k :: |qpoints| <= k < |qpoints| + |s| ==> (qpoints + s)[k] == s[k - |qpoints|];
      Ok(qpoints + s)
  }

  /** The seed list as the source builds it. */
  function SeedsAsWritten(qpoints: seq<Complex>, shift: real, border: int): (r: Result<seq<Complex>>)
    ensures r.Ok? <==> |qpoints| >= 2
    ensures r.Ok? ==> |r.value| == |qpoints| + 4 * Positive(border) && r.value[..|qpoints|] == qpoints
  {
    match BoundingBox(qpoints, shift)
    case Err(e) => Err(e)
    case Ok(b) => Ok(qpoints + BorderSeedsAsWritten(b, border))
  }

  /** A basepoint and two critical points `0` and `i` stacked vertically. */
  const TallPoints: seq<Complex> := [Complex(5.0, 5.0), Complex(0.0, 0.0), Complex(0.0, 1.0)]

  /** Their box enlarged with `shift = 1`: `[0, 0] x [-1, 2]`. */
  const TallBox: Box := Box(0.0, 0.0, -1.0, 2.0)

  /** The box of the two stacked points. */
  lemma TallBoundingBox()
    ensures BoundingBox(TallPoints, 1.0) == Ok(TallBox)
  {
    var ps := TallPoints[1..];
    assert ps == [Complex(0.0, 0.0), Complex(0.0, 1.0)];
    assert Reals(ps) == [0.0, 0.0] && Imags(ps) == [0.0, 1.0];
    assert MinOf([0.0, 0.0]) == 0.0 && MaxOf([0.0, 0.0]) == 0.0;
    assert MinOf([0.0, 1.0]) == 0.0 && MaxOf([0.0, 1.0]) == 1.0;
    assert Extent(ps) == Box(0.0, 0.0, 0.0, 1.0);
  }

  /** Three points whose box, enlarged with `shift = 1`, is `TallBox`
      (such as `TallPoints`): with `border = 5` the source's seed list
      holds `3/5 - i` at position 9 (round 1, third line), outside the
      box. */
  lemma TallPointsSeed(qpoints: seq<Complex>)
    requires |qpoints| == 3 && BoundingBox(qpoints, 1.0) == Ok(TallBox)
    ensures SeedsAsWritten(qpoints, 1.0, 5).value[9] == Complex(0.6, -1.0)
    ensures !Inside(TallBox, SeedsAsWritten(qpoints, 1.0, 5).value[9])
  {
    SeedOutsideBox(qpoints, 1.0, 5, TallBox);
    TallSeedAsWritten();
  }

  lemma TallSeedAsWritten()
    ensures SeedAsWritten(TallBox, 5, 1, 2) == Complex(0.6, -1.0)
  {
  }

  /** The corrected seed at the same position is `-2i/5`, on the box's
      left side. */
  lemma TallPointsSeedCorrected(qpoints: seq<Complex>)
    requires |qpoints| == 3 && BoundingBox(qpoints, 1.0) == Ok(TallBox)
    ensures Seeds(qpoints, 1.0, 5).value[9] == Complex(0.0, -0.4)
    ensures OnBoundary(TallBox, Seeds(qpoints, 1.0, 5).value[9])
  {
    BorderSeedsAt(TallBox, 5, 1, 2);
    TallSeedCorrected();
  }

  lemma TallSeedCorrected()
    ensures Seed(TallBox, 5, 1, 2) == Complex(0.0, -0.4)
  {
  }

  /** Whenever the enlarged box is more than `border` times as tall as it
      is wide (as for `TallPoints`, `shift = 1`, `border = 5`), the seed
      list as written holds, at position `|qpoints| + 6`, a point to the
      right of the box. */
  lemma SeedOutsideBox(qpoints: seq<Complex>, shift: real, border: int, b: Box)
    requires border >= 2 && BoundingBox(qpoints, shift) == Ok(b)
    requires b.xmin <= b.xmax && b.ymax - b.ymin > border as real * (b.xmax - b.xmin)
    ensures |SeedsAsWritten(qpoints, shift, border).value| > |qpoints| + 6
    ensures SeedsAsWritten(qpoints, shift, border).value[|qpoints| + 6] == SeedAsWritten(b, border, 1, 2)
    ensures !Inside(b, SeedAsWritten(b, border, 1, 2))
  {
    var s := BorderSeedsAsWritten(b, border);
    RoundsAsWrittenAt(b, border, 0, 1, 2);
    assert (qpoints + s)[|qpoints| + 6] == s[6];
    SeedAsWrittenOutside(b, border);
  }

  /** In a box more than `border` times as tall as it is wide, the third
      seed of round 1 as written lies to the right of the box. */
  lemma SeedAsWrittenOutside(b: Box, border: int)
    requires border >= 2
    requires b.xmin <= b.xmax && b.ymax - b.ymin > border as real * (b.xmax - b.xmin)
    ensures !Inside(b, SeedAsWritten(b, border, 1, 2))
  {
    var h := b.ymax - b.ymin;
    TallStep(h, b.xmax - b.xmin, border);
    assert SeedAsWritten(b, border, 1, 2).re == b.xmin + Step(1, border) * h;
  }

  /** A step of `1/n` along a side more than `n` times longer than `w`
      exceeds `w`. */
  lemma TallStep(h: real, w: real, n: int)
    requires n >= 2 && w >= 0.0 && h > n as real * w
    ensures Step(1, n) * h > w
  {
    var t := 1.0 / n as real;
    assert t * n as real == 1.0;
    assert t * (n as real * w) == (t * n as real) * w;
    assert t * h > t * (n as real * w);
  }

  // ---------------------------------------------------------------------
  // Vertices and cell edges

  /** A bounded edge of a Voronoi cell, between two rational points. */
  datatype Segment = Segment(a: Complex, b: Complex)

  /** A selected Voronoi cell: its centre and its bounded edges. */
  datatype Cell = Cell(center: Complex, bounded: seq<Segment>)

  /** `[center, edges]` with edges as index pairs into the vertex list. */
  datatype Polygon = Polygon(center: Complex, edges: seq<Edge>)

  /** `self._vertices` and `self._polygons`. */
  datatype Diagram = Diagram(vertices: seq<Complex>, polygons: seq<Polygon>)

  /** Every edge joins two different valid vertex indices. */
  predicate ValidIn(vs: seq<Complex>, es: seq<Edge>)
  {
    forall k :: 0 <= k < |es| ==> 0 <= es[k].src < |vs| && 0 <= es[k].dst < |vs| && es[k].src != es[k].dst
  }

  /** The coordinates the index pairs stand for. */
  function Coords(vs: seq<Complex>, es: seq<Edge>): (r: seq<Segment>)
    requires ValidIn(vs, es)
    ensures |r| == |es|
  {
    if |es| == 0 then []
    else
      var e := es[|es| - 1];
      Coords(vs, es[..|es| - 1]) + [Segment(vs[e.src], vs[e.dst])]
  }

  /** The bounded edges whose two ends differ. */
  function NonDegenerate(bs: seq<Segment>): seq<Segment>
  {
    if |bs| == 0 then []
    else (if bs[0].a != bs[0].b then [bs[0]] else []) + NonDegenerate(bs[1..])
  }

  /** Both ends of every bounded edge. */
  function Ends(bs: seq<Segment>): (r: seq<Complex>)
    ensures forall z :: z in r <==> exists k :: 0 <= k < |bs| && (bs[k].a == z || bs[k].b == z)
  {
    if |bs| == 0 then []
    else
      var r := [bs[0].a, bs[0].b] + Ends(bs[1..]);
      assert forall k :: 1 <= k < |bs| ==> bs[1..][k - 1] == bs[k];
      r
  }

  /** `if z not in vertices: vertices += [z]`. */
  function AddVertex(vs: seq<Complex>, z: Complex): (r: seq<Complex>)
    ensures vs <= r && z in r
    ensures Distinct(vs) ==> Distinct(r)
    ensures forall w :: w in r <==> w in vs || w == z
  {
    if z in vs then vs else vs + [z]
  }

  lemma {:induction false} CoordsPrefix(vs: seq<Complex>, ws: seq<Complex>, es: seq<Edge>)
    requires vs <= ws && ValidIn(vs, es)
    ensures ValidIn(ws, es) && Coords(ws, es) == Coords(vs, es)
    decreases |es|
  {
    if |es| > 0 {
      CoordsPrefix(vs, ws, es[..|es| - 1]);
      var e := es[|es| - 1];
      assert ws[e.src] == vs[e.src] && ws[e.dst] == vs[e.dst];
    }
  }

  lemma {:induction false} CoordsAppend(vs: seq<Complex>, es: seq<Edge>, more: seq<Edge>)
    requires ValidIn(vs, es) && ValidIn(vs, more)
    ensures ValidIn(vs, es + more)
    ensures Coords(vs, es + more) == Coords(vs, es) + Coords(vs, more)
    decreases |more|
  {
    if |more| > 0 {
      var m := more[..|more| - 1];
      var e := more[|more| - 1];
      assert (es + more)[..|es + more| - 1] == es + m;
      assert (es + more)[|es + more| - 1] == e;
      CoordsAppend(vs, es, m);
      AppendAssoc(Coords(vs, es), Coords(vs, m), [Segment(vs[e.src], vs[e.dst])]);
    } else {
      assert es + more == es;
    }
  }

  /** The pair of first indices of a bounded edge's ends, when they differ. */
  function NewEdge(vs: seq<Complex>, s: Segment): (r: seq<Edge>)
    requires s.a in vs && s.b in vs
    ensures Distinct(vs) ==> ValidIn(vs, r) && Coords(vs, r) == if s.a != s.b then [s] else []
  {
    if s.a != s.b then [Edge(IndexOf(vs, s.a).value, IndexOf(vs, s.b).value)] else []
  }

  /** The inner loop of `polygons` over one cell's bounded edges: both ends
      are added to the vertex list when new (`e0` first), and a
      non-degenerate edge is recorded as the pair of their first indices. */
  function ScanCell(vs: seq<Complex>, acc: seq<Edge>, bs: seq<Segment>): (r: (seq<Complex>, seq<Edge>))
    ensures |r.0| >= |vs|
    decreases |bs|
  {
    if |bs| == 0 then (vs, acc)
    else
      var v2 := AddVertex(AddVertex(vs, bs[0].a), bs[0].b);
      ScanCell(v2, acc + NewEdge(v2, bs[0]), bs[1..])
  }

  /** The scan only appends distinct vertices and valid edges. */
  lemma {:induction false} ScanCellShape(vs: seq<Complex>, acc: seq<Edge>, bs: seq<Segment>)
    requires Distinct(vs) && ValidIn(vs, acc)
    ensures vs <= ScanCell(vs, acc, bs).0 && Distinct(ScanCell(vs, acc, bs).0)
    ensures ValidIn(ScanCell(vs, acc, bs).0, ScanCell(vs, acc, bs).1)
    decreases |bs|
  {
    if |bs| > 0 {
      var v2 := AddVertex(AddVertex(vs, bs[0].a), bs[0].b);
      PrefixTransitive(vs, AddVertex(vs, bs[0].a), v2);
      CoordsPrefix(vs, v2, acc);
      var n := NewEdge(v2, bs[0]);
      CoordsAppend(v2, acc, n);
      ScanCellShape(v2, acc + n, bs[1..]);
      PrefixTransitive(vs, v2, ScanCell(vs, acc, bs).0);
    }
  }

  /** The recorded index pairs decode to the cell's non-degenerate bounded
      edges, in order. */
  lemma {:induction false} ScanCellCoords(vs: seq<Complex>, acc: seq<Edge>, bs: seq<Segment>)
    requires Distinct(vs) && ValidIn(vs, acc)
    ensures ValidIn(ScanCell(vs, acc, bs).0, ScanCell(vs, acc, bs).1)
    ensures Coords(ScanCell(vs, acc, bs).0, ScanCell(vs, acc, bs).1) == Coords(vs, acc) + NonDegenerate(bs)
    decreases |bs|
  {
    ScanCellShape(vs, acc, bs);
    if |bs| > 0 {
      var v2 := AddVertex(AddVertex(vs, bs[0].a), bs[0].b);
      var n := NewEdge(v2, bs[0]);
      var head := if bs[0].a != bs[0].b then [bs[0]] else [];
      assert Distinct(v2) && ValidIn(v2, acc + n) && Coords(v2, acc + n) == Coords(vs, acc) + head by {
        PrefixTransitive(vs, AddVertex(vs, bs[0].a), v2);
        CoordsPrefix(vs, v2, acc);
        CoordsAppend(v2, acc, n);
      }
      ScanCellCoords(v2, acc + n, bs[1..]);
      assert NonDegenerate(bs) == head + NonDegenerate(bs[1..]);
      AppendAssoc(Coords(vs, acc), head, NonDegenerate(bs[1..]));
    }
  }

  /** The scan adds exactly the ends of the cell's bounded edges. */
  lemma {:induction false} ScanCellMembers(vs: seq<Complex>, acc: seq<Edge>, bs: seq<Segment>)
    ensures forall z :: z in ScanCell(vs, acc, bs).0 <==> z in vs || z in Ends(bs)
    decreases |bs|
  {
    if |bs| > 0 {
      var v2 := AddVertex(AddVertex(vs, bs[0].a), bs[0].b);
      ScanCellMembers(v2, acc + NewEdge(v2, bs[0]), bs[1..]);
      assert Ends(bs) == [bs[0].a, bs[0].b] + Ends(bs[1..]);
    }
  }

  /** The outer loop of `polygons` over the selected cells, as a right
      fold: the first cell is scanned against `vs`, the remaining cells
      against the vertex list that scan leaves. */
  function ScanCells(vs: seq<Complex>, cells: seq<Cell>): (r: Diagram)
    ensures |r.polygons| == |cells|
    decreases |cells|
  {
    if |cells| == 0 then Diagram(vs, [])
    else
      var sc := ScanCell(vs, [], cells[0].bounded);
      var rest := ScanCells(sc.0, cells[1..]);
      Diagram(rest.vertices, [Polygon(cells[0].center, sc.1)] + rest.polygons)
  }

  /** The vertex list only grows and stays free of repetitions. */
  lemma {:induction false} ScanCellsShape(vs: seq<Complex>, cells: seq<Cell>)
    requires Distinct(vs)
    ensures vs <= ScanCells(vs, cells).vertices && Distinct(ScanCells(vs, cells).vertices)
    decreases |cells|
  {
    if |cells| > 0 {
      var sc := ScanCell(vs, [], cells[0].bounded);
      ScanCellShape(vs, [], cells[0].bounded);
      ScanCellsShape(sc.0, cells[1..]);
      PrefixTransitive(vs, sc.0, ScanCells(sc.0, cells[1..]).vertices);
    }
  }

  /** Polygon `p` of the scan is cell `p`: same centre, and its index pairs
      decode, in the final vertex list, to the cell's non-degenerate
      bounded edges. */
  lemma {:induction false} ScanCellsAt(vs: seq<Complex>, cells: seq<Cell>, p: int)
    requires Distinct(vs) && 0 <= p < |cells|
    ensures ScanCells(vs, cells).polygons[p].center == cells[p].center
    ensures ValidIn(ScanCells(vs, cells).vertices, ScanCells(vs, cells).polygons[p].edges)
    ensures Coords(ScanCells(vs, cells).vertices, ScanCells(vs, cells).polygons[p].edges)
            == NonDegenerate(cells[p].bounded)
    decreases |cells|
  {
    if p == 0 {
      ScanCellsFirst(vs, cells);
    } else {
      var v2 := ScanCell(vs, [], cells[0].bounded).0;
      ScanCellShape(vs, [], cells[0].bounded);
      ScanCellsTail(vs, cells, p);
      ScanCellsAt(v2, cells[1..], p - 1);
    }
  }

  /** Past the first cell, the scan continues from the vertex list the
      first cell's scan leaves. */
  lemma ScanCellsTail(vs: seq<Complex>, cells: seq<Cell>, p: int)
    requires 0 < p < |cells|
    ensures ScanCells(vs, cells).vertices
            == ScanCells(ScanCell(vs, [], cells[0].bounded).0, cells[1..]).vertices
    ensures ScanCells(vs, cells).polygons[p]
            == ScanCells(ScanCell(vs, [], cells[0].bounded).0, cells[1..]).polygons[p - 1]
    ensures cells[1..][p - 1] == cells[p]
  {
  }

  /** The first polygon of the scan is the first cell. */
  lemma ScanCellsFirst(vs: seq<Complex>, cells: seq<Cell>)
    requires Distinct(vs) && 0 < |cells|
    ensures ScanCells(vs, cells).polygons[0].center == cells[0].center
    ensures ValidIn(ScanCells(vs, cells).vertices, ScanCells(vs, cells).polygons[0].edges)
    ensures Coords(ScanCells(vs, cells).vertices, ScanCells(vs, cells).polygons[0].edges)
            == NonDegenerate(cells[0].bounded)
  {
    var sc := ScanCell(vs, [], cells[0].bounded);
    var v2, es := sc.0, sc.1;
    var rest := ScanCells(v2, cells[1..]);
    assert ScanCells(vs, cells).polygons[0] == Polygon(cells[0].center, es);
    assert ValidIn(v2, es) && Coords(v2, es) == NonDegenerate(cells[0].bounded) by {
      ScanCellCoords(vs, [], cells[0].bounded);
      assert Coords(vs, []) == [];
    }
    assert Distinct(v2) by {
      ScanCellShape(vs, [], cells[0].bounded);
    }
    ScanCellsShape(v2, cells[1..]);
    CoordsPrefix(v2, rest.vertices, es);
  }

  /** The vertex list holds exactly the starting vertices and the ends of
      the cells' bounded edges. */
  lemma {:induction false} ScanCellsMembers(vs: seq<Complex>, cells: seq<Cell>)
    ensures forall z :: z in ScanCells(vs, cells).vertices <==>
      z in vs || exists p :: 0 <= p < |cells| && z in Ends(cells[p].bounded)
    decreases |cells|
  {
    if |cells| > 0 {
      var sc := ScanCell(vs, [], cells[0].bounded);
      ScanCellMembers(vs, [], cells[0].bounded);
      ScanCellsMembers(sc.0, cells[1..]);
      assert forall p :: 1 <= p < |cells| ==> cells[1..][p - 1] == cells[p];
    }
  }

  /** The vertex and edge part of `polygons`: the vertex list starts with
      the basepoint and holds every end of a bounded edge exactly once;
      each cell becomes its centre and the index pairs of its
      non-degenerate bounded edges, which join two different vertices and
      decode back to exactly those edges. */
  function Polygons(basepoint: Complex, cells: seq<Cell>): (r: Diagram)
    ensures |r.vertices| > 0 && r.vertices[0] == basepoint && Distinct(r.vertices)
    ensures |r.polygons| == |cells|
    ensures forall p :: 0 <= p < |cells| ==>
      && r.polygons[p].center == cells[p].center
      && ValidIn(r.vertices, r.polygons[p].edges)
      && Coords(r.vertices, r.polygons[p].edges) == NonDegenerate(cells[p].bounded)
    ensures forall z :: z in r.vertices <==> z == basepoint || exists p :: 0 <= p < |cells| && z in Ends(cells[p].bounded)
  {
    var r := ScanCells([basepoint], cells);
    ScanCellsShape([basepoint], cells);
    ScanCellsMembers([basepoint], cells);
    forall p | 0 <= p < |cells|
      ensures r.polygons[p].center == cells[p].center
      ensures ValidIn(r.vertices, r.polygons[p].edges)
      ensures Coords(r.vertices, r.polygons[p].edges) == NonDegenerate(cells[p].bounded)
    {
      ScanCellsAt([basepoint], cells, p);
    }
    r
  }

  // ---------------------------------------------------------------------
  // The Voronoi graph's edges

  function CellEdgeLists(polygons: seq<Polygon>): (r: seq<seq<Edge>>)
    ensures |r| == |polygons| && forall p :: 0 <= p < |polygons| ==> r[p] == polygons[p].edges
  {
    seq(|polygons|, p requires 0 <= p < |polygons| => polygons[p].edges)
  }

  /** The loop of `edges` over the polygons: every cell edge once up to
      orientation, and nothing else. */
  function CellGraphEdges(polygons: seq<Polygon>): (r: seq<Edge>)
    ensures Simple(r)
    ensures forall e :: Mentions(r, e) <==> exists p :: 0 <= p < |polygons| && Mentions(polygons[p].edges, e)
    ensures forall k :: 0 <= k < |r| ==> exists p :: 0 <= p < |polygons| && r[k] in polygons[p].edges
  {
    var ls := CellEdgeLists(polygons);
    assert forall e :: Mentions(Flatten(ls), e) <==> exists p :: 0 <= p < |polygons| && Mentions(polygons[p].edges, e) by {
      forall e
        ensures Mentions(Flatten(ls), e) <==> exists p :: 0 <= p < |polygons| && Mentions(polygons[p].edges, e)
      {
        MentionsFlatten(ls, e);
      }
    }
    AddEdges([], Flatten(ls))
  }

  /** `edges`: the cell edges followed by `[0, k]` joining the basepoint to
      the first vertex `k >= 1` closest to it. `min` over an empty range
      raises ValueError when the basepoint is the only vertex. */
  function GraphEdges(vertices: seq<Complex>, polygons: seq<Polygon>): (r: Result<seq<Edge>>)
    ensures r.Ok? <==> |vertices| >= 2
    ensures r.Ok? ==> |r.value| > 0 && r.value[..|r.value| - 1] == CellGraphEdges(polygons)
    ensures r.Ok? ==>
      var last := r.value[|r.value| - 1];
      && last.src == 0 && 1 <= last.dst < |vertices|
      && (forall j :: 1 <= j < |vertices| ==> SqDist(vertices[last.dst], vertices[0]) <= SqDist(vertices[j], vertices[0]))
      && (forall j :: 1 <= j < last.dst ==> SqDist(vertices[j], vertices[0]) > SqDist(vertices[last.dst], vertices[0]))
  {
    if |vertices| < 2 then Err(ValueError)
    else
      var k := SelectClosestIndex(vertices[1..], vertices[0]) + 1;
      assert forall j :: 1 <= j < |vertices| ==> vertices[1..][j - 1] == vertices[j];
      var es := CellGraphEdges(polygons);
      assert (es + [Edge(0, k)])[..|es|] == es;
      Ok(es + [Edge(0, k)])
  }
}

=== FILE: voronoi_loops.dfy ===
/** The walk bookkeeping of `FundamentalGroupVoronoi`: chaining the edges of
    each cell into one closed walk (`loops`), rotating each walk to its
    anchor vertex (`loop_points`) and wrapping it in a tree path
    (`pointed_loops`). The spanning tree enters only through its paths and
    a distance function. */
module VoronoiLoops {
  import opened Base
  import opened Geometry
  import opened Undirected

  // ---------------------------------------------------------------------
  // Chaining a cell's edges

  /** Edge `e` joins `a` to `b`, in one orientation or the other. Given `e`
      and `a`, at most one `b` qualifies. */
  predicate Joins(e: Edge, a: int, b: int)
  {
    (e.src == a && e.dst == b) || (e.dst == a && e.src == b)
  }

  /** A walk together with the edges it used, one per step. */
  datatype Walk = Walk(vertices: seq<int>, used: seq<Edge>)

  /** Consecutive vertices of the walk are joined by the edge used for that
      step. */
  predicate Steps(w: Walk)
  {
    && |w.vertices| == |w.used| + 1
    && forall k :: 0 <= k < |w.used| ==> Joins(w.used[k], w.vertices[k], w.vertices[k + 1])
  }

  /** How many ends of `e` are at `v` (2 for a loop at `v`). */
  function EndsAt(e: Edge, v: int): int
  {
    (if e.src == v then 1 else 0) + (if e.dst == v then 1 else 0)
  }

  /** The degree of `v`: ends of the edges at `v`, with multiplicity. */
  function Degree(es: seq<Edge>, v: int): int
  {
    if |es| == 0 then 0 else Degree(es[..|es| - 1], v) + EndsAt(es[|es| - 1], v)
  }

  lemma {:induction false} DegreeAppend(a: seq<Edge>, b: seq<Edge>, v: int)
    ensures Degree(a + b, v) == Degree(a, v) + Degree(b, v)
    decreases |b|
  {
    if |b| > 0 {
      var n := |b| - 1;
      assert (a + b)[..|a + b| - 1] == a + b[..n];
      DegreeAppend(a, b[..n], v);
    } else {
      assert a + b == a;
    }
  }

  lemma DegreeRemove(s: seq<Edge>, i: int, v: int)
    requires 0 <= i < |s|
    ensures Degree(Remove(s, i), v) + EndsAt(s[i], v) == Degree(s, v)
  {
    assert s == s[..i] + [s[i]] + s[i + 1..];
    DegreeAppend(s[..i], [s[i]], v);
    DegreeAppend(s[..i] + [s[i]], s[i + 1..], v);
    DegreeAppend(s[..i], s[i + 1..], v);
    assert Degree([s[i]], v) == EndsAt(s[i], v) by {
      assert [s[i]][..0] == [];
    }
  }

  /** Degrees depend only on which edges occur, not on their order. */
  lemma {:induction false} DegreePermuted(a: seq<Edge>, b: seq<Edge>, v: int)
    requires multiset(a) == multiset(b)
    ensures Degree(a, v) == Degree(b, v)
    decreases |a|
  {
    if |a| > 0 {
      var n := |a| - 1;
      var x := a[n];
      assert a == a[..n] + [x];
      assert x in multiset(b);
      var i :| 0 <= i < |b| && b[i] == x;
      assert multiset(a[..n]) == multiset(Remove(b, i)) by {
        assert multiset(a) == multiset(a[..n]) + multiset{x};
        Cancel(multiset(a[..n]), multiset(Remove(b, i)), multiset{x});
      }
      DegreePermuted(a[..n], Remove(b, i), v);
      DegreeRemove(b, i, v);
    } else {
      assert b == [];
    }
  }

  /** `polygon.pop(i)`: the list without its entry at `i`. */
  function Remove(s: seq<Edge>, i: int): (r: seq<Edge>)
    requires 0 <= i < |s|
    ensures |r| == |s| - 1
    ensures multiset(r) + multiset{s[i]} == multiset(s)
  {
    assert s == s[..i] + [s[i]] + s[i + 1..];
    s[..i] + s[i + 1..]
  }

  /** Where the inner `for` loop of `loops` stops: the first remaining edge
      with an end at `end`, with its other end. */
  function FindLink(rest: seq<Edge>, end: int): (r: Option<(nat, int)>)
    ensures r.None? <==> forall j :: 0 <= j < |rest| ==> rest[j].src != end && rest[j].dst != end
    ensures r.Some? ==> r.value.0 < |rest| && Joins(rest[r.value.0], end, r.value.1)
    ensures r.Some? ==> forall j :: 0 <= j < r.value.0 ==> rest[j].src != end && rest[j].dst != end
    decreases |rest|
  {
    if |rest| == 0 then None
    else if rest[0].src == end then Some((0, rest[0].dst))
    else if rest[0].dst == end then Some((0, rest[0].src))
    else match FindLink(rest[1..], end)
      case None => None
      case Some((i, n)) => Some((i + 1, n))
  }

  /** The `while` loop of `loops` with the intended failure: while edges
      remain, the first one touching the walk's end is removed and its
      other end appended; when none touches the end the polygon is not a
      single loop and chaining fails. The result extends the walk, has
      used each remaining edge exactly once, and keeps the walk joined. */
  function ChainFrom(w: Walk, rest: seq<Edge>): (r: Result<Walk>)
    requires |w.vertices| > 0
    ensures r.Err? ==> r.error == NotALoop
    ensures r.Ok? ==> w.vertices <= r.value.vertices && w.used <= r.value.used
    ensures r.Ok? ==> |r.value.vertices| == |w.vertices| + |rest| && |r.value.used| == |w.used| + |rest|
    ensures r.Ok? ==> multiset(r.value.used) == multiset(w.used) + multiset(rest)
    ensures r.Ok? && Steps(w) ==> Steps(r.value)
    decreases |rest|
  {
    if |rest| == 0 then Ok(w)
    else
      var end := w.vertices[|w.vertices| - 1];
      match FindLink(rest, end)
      case None => Err(NotALoop)
      case Some((i, n)) =>
        var w' := Walk(w.vertices + [n], w.used + [rest[i]]);
        StepsExtend(w, rest[i], n);
        var r := ChainFrom(w', Remove(rest, i));
        assert r.Ok? ==> multiset(r.value.used) == multiset(w.used) + multiset(rest) by {
          if r.Ok? {
            assert multiset(w'.used) == multiset(w.used) + multiset{rest[i]};
            Regroup(multiset(w.used), multiset{rest[i]}, multiset(Remove(rest, i)), multiset(rest));
          }
        }
        assert r.Ok? ==> w.vertices <= r.value.vertices && w.used <= r.value.used by {
          if r.Ok? {
            assert w.vertices <= w'.vertices && w.used <= w'.used;
          }
        }
        r
  }

  /** Appending a step along an edge that joins the walk's end keeps the
      walk joined. */
  lemma StepsExtend(w: Walk, e: Edge, n: int)
    requires |w.vertices| > 0 && Joins(e, w.vertices[|w.vertices| - 1], n)
    ensures Steps(w) ==> Steps(Walk(w.vertices + [n], w.used + [e]))
  {
    var w' := Walk(w.vertices + [n], w.used + [e]);
    if Steps(w) {
      forall k | 0 <= k < |w'.used|
        ensures Joins(w'.used[k], w'.vertices[k], w'.vertices[k + 1])
      {
        if k < |w.used| {
          assert w'.used[k] == w.used[k] && w'.vertices[k] == w.vertices[k] && w'.vertices[k + 1] == w.vertices[k + 1];
        }
      }
    }
  }

  lemma Cancel<T>(p: multiset<T>, q: multiset<T>, x: multiset<T>)
    requires p + x == q + x
    ensures p == q
  {
    assert forall y :: p[y] == (p + x)[y] - x[y];
  }

  lemma Regroup<T>(a: multiset<T>, x: multiset<T>, b: multiset<T>, c: multiset<T>)
    requires b + x == c
    ensures (a + x) + b == a + c
  {
  }

  /** The chaining of one cell (`polygon.pop()` raises IndexError on an
      empty edge list): the walk starts with the last edge as stored and
      uses every edge of the cell exactly once. */
  function ChainCell(poly: seq<Edge>): (r: Result<Walk>)
    ensures r.Ok? ==> |poly| > 0 && |r.value.vertices| == |poly| + 1 && Steps(r.value)
    ensures r.Ok? ==> multiset(r.value.used) == multiset(poly)
    ensures r.Ok? ==> r.value.vertices[..2] == [poly[|poly| - 1].src, poly[|poly| - 1].dst]
    ensures |poly| == 0 <==> r == Err(IndexError)
    ensures r.Err? && |poly| > 0 ==> r.error == NotALoop
  {
    if |poly| == 0 then Err(IndexError)
    else
      var e := poly[|poly| - 1];
      var rest := poly[..|poly| - 1];
      assert poly == rest + [e];
      var w := Walk([e.src, e.dst], [e]);
      var r := ChainFrom(w, rest);
      assert r.Ok? ==> r.value.vertices[..2] == w.vertices by {
        if r.Ok? {
          assert r.value.vertices[..2] == r.value.vertices[..|w.vertices|];
        }
      }
      r
  }

  /** Occurrences of `v` in `s`. */
  function Occurrences(s: seq<int>, v: int): int
  {
    if |s| == 0 then 0 else Occurrences(s[..|s| - 1], v) + (if s[|s| - 1] == v then 1 else 0)
  }

  function Indicator(b: bool): int
  {
    if b then 1 else 0
  }

  /** Every vertex of a walk is counted twice among the ends of its
      edges, except that the first and last vertices are counted once
      each. */
  lemma {:induction false} WalkEnds(w: Walk, v: int)
    requires Steps(w)
    ensures Degree(w.used, v) + Indicator(w.vertices[0] == v) + Indicator(w.vertices[|w.vertices| - 1] == v)
            == 2 * Occurrences(w.vertices, v)
    decreases |w.used|
  {
    var vs := w.vertices;
    var n := |w.used|;
    if n > 0 {
      var w' := Walk(vs[..n], w.used[..n - 1]);
      assert Steps(w') by {
        forall k | 0 <= k < n - 1
          ensures Joins(w'.used[k], w'.vertices[k], w'.vertices[k + 1])
        {
          assert w'.used[k] == w.used[k] && w'.vertices[k] == vs[k] && w'.vertices[k + 1] == vs[k + 1];
        }
      }
      WalkEnds(w', v);
      assert vs[..|vs| - 1] == vs[..n];
      assert Joins(w.used[n - 1], vs[n - 1], vs[n]);
      assert EndsAt(w.used[n - 1], v) == Indicator(vs[n - 1] == v) + Indicator(vs[n] == v);
    } else {
      assert vs[..0] == [];
    }
  }

  /** Every vertex is an end of an even number of the edges. */
  ghost predicate EvenDegrees(es: seq<Edge>)
  {
    forall v :: Degree(es, v) % 2 == 0
  }

  /** A chained walk is closed exactly when every vertex of the cell has
      even degree; in particular the walk of a cell whose edges form one
      cycle ends where it starts. */
  lemma ChainClosed(poly: seq<Edge>)
    requires ChainCell(poly).Ok?
    ensures var vs := ChainCell(poly).value.vertices;
      vs[0] == vs[|vs| - 1] <==> EvenDegrees(poly)
  {
    var w := ChainCell(poly).value;
    var vs := w.vertices;
    var a, b := vs[0], vs[|vs| - 1];
    if a == b {
      forall v
        ensures Degree(poly, v) % 2 == 0
      {
        WalkEnds(w, v);
        DegreePermuted(w.used, poly, v);
        Parity(Degree(poly, v), Occurrences(vs, v) - Indicator(a == v));
      }
    } else {
      WalkEnds(w, a);
      DegreePermuted(w.used, poly, a);
      Parity(Degree(poly, a) + 1, Occurrences(vs, a));
    }
  }

  lemma Parity(d: int, k: int)
    requires d == 2 * k
    ensures d % 2 == 0 && (d - 1) % 2 == 1
  {
  }

  /** The edges `[vs[k], vs[k+1]]` of a path, in order. */
  function PathEdges(vs: seq<int>): (r: seq<Edge>)
    ensures |vs| > 0 ==> |r| == |vs| - 1
    decreases |vs|
  {
    if |vs| < 2 then [] else [Edge(vs[0], vs[1])] + PathEdges(vs[1..])
  }

  /** Step `k` of a path is the edge from its `k`-th to its `k+1`-th
      vertex. */
  lemma {:induction false} PathEdgesAt(vs: seq<int>)
    ensures forall k :: 0 <= k < |vs| - 1 ==> PathEdges(vs)[k] == Edge(vs[k], vs[k + 1])
    decreases |vs|
  {
    if |vs| >= 2 {
      PathEdgesAt(vs[1..]);
    }
  }

  /** A cell whose edges are stored consecutively around the cycle
      `vs[0], vs[1], ..., vs[n-1]`. */
  function CycleEdges(vs: seq<int>): (r: seq<Edge>)
    requires |vs| > 0
    ensures |r| == |vs|
  {
    PathEdges(vs) + [Edge(vs[|vs| - 1], vs[0])]
  }

  /** Chaining along the edges of a path, starting from its first vertex,
      walks the path. */
  lemma {:induction false} ChainPath(w: Walk, vs: seq<int>)
    requires |w.vertices| > 0 && |vs| > 0 && w.vertices[|w.vertices| - 1] == vs[0]
    ensures ChainFrom(w, PathEdges(vs)).Ok?
    ensures ChainFrom(w, PathEdges(vs)).value.vertices == w.vertices + vs[1..]
    decreases |vs|
  {
    var rest := PathEdges(vs);
    if |vs| >= 2 {
      assert rest[0] == Edge(vs[0], vs[1]);
      assert FindLink(rest, vs[0]) == Some((0, vs[1]));
      assert Remove(rest, 0) == PathEdges(vs[1..]);
      var w' := Walk(w.vertices + [vs[1]], w.used + [rest[0]]);
      ChainPath(w', vs[1..]);
      assert vs[1..] == [vs[1]] + vs[1..][1..];
      AppendAssoc(w.vertices, [vs[1]], vs[1..][1..]);
    } else {
      assert vs[1..] == [];
      assert w.vertices + vs[1..] == w.vertices;
    }
  }

  /** A cell stored consecutively around a cycle chains into that cycle,
      started at its last vertex. */
  lemma ChainCycle(vs: seq<int>)
    requires |vs| > 0
    ensures ChainCell(CycleEdges(vs)).Ok?
    ensures ChainCell(CycleEdges(vs)).value.vertices == [vs[|vs| - 1]] + vs
  {
    var n := |vs|;
    var w := Walk([vs[n - 1], vs[0]], [Edge(vs[n - 1], vs[0])]);
    ChainCycleStart(vs);
    ChainPath(w, vs);
    ConsFirst(vs[n - 1], vs);
  }

  lemma ConsFirst(a: int, vs: seq<int>)
    requires |vs| > 0
    ensures [a, vs[0]] + vs[1..] == [a] + vs
  {
    assert [a, vs[0]] == [a] + [vs[0]];
    assert vs == [vs[0]] + vs[1..];
    AppendAssoc([a], [vs[0]], vs[1..]);
  }

  /** Chaining a cycle starts from its closing edge with the path's edges
      left. */
  lemma ChainCycleStart(vs: seq<int>)
    requires |vs| > 0
    ensures ChainCell(CycleEdges(vs))
            == ChainFrom(Walk([vs[|vs| - 1], vs[0]], [Edge(vs[|vs| - 1], vs[0])]), PathEdges(vs))
  {
    var poly := CycleEdges(vs);
    assert poly[|vs| - 1] == Edge(vs[|vs| - 1], vs[0]);
    assert poly[..|vs| - 1] == PathEdges(vs);
  }

  // ---------------------------------------------------------------------
  // Cells stored in any order

  /** An edge with its smaller end first. */
  function Normal(e: Edge): (r: Edge)
    ensures r == e || r == Flip(e)
    ensures r.src <= r.dst
  {
    if e.src <= e.dst then e else Flip(e)
  }

  /** Two edges have the same normal form exactly when they are the same
      pair up to orientation. */
  lemma NormalSame(e: Edge, f: Edge)
    ensures Normal(e) == Normal(f) <==> e == f || e == Flip(f)
  {
  }

  /** The normal forms of a list of edges, position by position. */
  function Normals(s: seq<Edge>): (r: seq<Edge>)
    ensures |r| == |s| && forall k :: 0 <= k < |s| ==> r[k] == Normal(s[k])
  {
    seq(|s|, k requires 0 <= k < |s| => Normal(s[k]))
  }

  /** Two edge lists hold the same undirected edges, each as often, in any
      order and either orientation. */
  predicate SameEdges(a: seq<Edge>, b: seq<Edge>)
  {
    multiset(Normals(a)) == multiset(Normals(b))
  }

  lemma NormalsAppend(a: seq<Edge>, b: seq<Edge>)
    ensures Normals(a + b) == Normals(a) + Normals(b)
  {
  }

  lemma NormalsRemove(s: seq<Edge>, i: int)
    requires 0 <= i < |s|
    ensures multiset(Normals(Remove(s, i))) + multiset{Normal(s[i])} == multiset(Normals(s))
  {
    assert s == s[..i] + [s[i]] + s[i + 1..];
    NormalsAppend(s[..i] + [s[i]], s[i + 1..]);
    NormalsAppend(s[..i], [s[i]]);
    NormalsAppend(s[..i], s[i + 1..]);
  }

  /** Lists that hold the same directed edges hold the same undirected
      ones. */
  lemma {:induction false} NormalsPermuted(a: seq<Edge>, b: seq<Edge>)
    requires multiset(a) == multiset(b)
    ensures SameEdges(a, b)
    decreases |a|
  {
    if |a| > 0 {
      var n := |a| - 1;
      var x := a[n];
      assert a == a[..n] + [x];
      assert x in multiset(b);
      var i :| 0 <= i < |b| && b[i] == x;
      assert multiset(a[..n]) == multiset(Remove(b, i)) by {
        assert multiset(a) == multiset(a[..n]) + multiset{x};
        Cancel(multiset(a[..n]), multiset(Remove(b, i)), multiset{x});
      }
      NormalsPermuted(a[..n], Remove(b, i));
      NormalsRemove(b, i);
      assert Remove(a, n) == a[..n];
      NormalsRemove(a, n);
    } else {
      assert b == [];
    }
  }

  /** Joining two paths end to start adds one step between them. */
  lemma {:induction false} PathSplit(a: seq<int>, b: seq<int>)
    requires |a| > 0 && |b| > 0
    ensures PathEdges(a + b) == PathEdges(a) + [Edge(a[|a| - 1], b[0])] + PathEdges(b)
    decreases |a|
  {
    if |a| == 1 {
      assert (a + b)[1..] == b;
    } else {
      assert (a + b)[1..] == a[1..] + b;
      PathSplit(a[1..], b);
    }
  }

  /** A path walked backwards has the same undirected edges. */
  lemma {:induction false} PathReversed(q: seq<int>)
    ensures SameEdges(PathEdges(Reverse(q)), PathEdges(q))
    decreases |q|
  {
    if |q| >= 2 {
      PathReversed(q[1..]);
      assert Reverse(q) == Reverse(q[1..]) + [q[0]];
      PathSplit(Reverse(q[1..]), [q[0]]);
      assert PathEdges(Reverse(q)) == PathEdges(Reverse(q[1..])) + [Edge(q[1], q[0])];
      NormalsAppend(PathEdges(Reverse(q[1..])), [Edge(q[1], q[0])]);
      NormalsAppend([Edge(q[0], q[1])], PathEdges(q[1..]));
      assert Normal(Edge(q[1], q[0])) == Normal(Edge(q[0], q[1]));
    } else {
      assert |Reverse(q)| < 2;
    }
  }

  /** Step `k` of a cycle joins `vs[k]` to the next vertex round it. */
  lemma CycleEdgesAt(vs: seq<int>, k: int)
    requires 0 <= k < |vs|
    ensures CycleEdges(vs)[k] == Edge(vs[k], if k + 1 < |vs| then vs[k + 1] else vs[0])
  {
    PathEdgesAt(vs);
  }

  /** A cycle is the path round it and back to its first vertex. */
  lemma CycleAsPath(vs: seq<int>)
    requires |vs| > 0
    ensures CycleEdges(vs) == PathEdges(vs + [vs[0]])
  {
    PathSplit(vs, [vs[0]]);
  }

  /** Rotating a cycle to start after `vs[k]` reads the closed list
      `vs + [vs[0]]` from `k + 1` to its end, then from 1 to `k`. */
  lemma RotateSplit(vs: seq<int>, k: int)
    requires 0 <= k < |vs|
    ensures Rotate(vs, k + 1) == (vs + [vs[0]])[k + 1..] + (vs + [vs[0]])[1..k + 1]
  {
    var c := vs + [vs[0]];
    assert c[k + 1..] == vs[k + 1..] + [vs[0]];
    assert c[1..k + 1] == vs[1..k + 1];
    assert vs[..k + 1] == [vs[0]] + vs[1..k + 1];
  }

  /** Without its step `k` a cycle is the path from the vertex after
      `vs[k]` round to `vs[k]`, as directed edges. */
  lemma CycleSplit(vs: seq<int>, k: int)
    requires 0 <= k < |vs|
    ensures multiset(CycleEdges(vs)) == multiset(PathEdges(Rotate(vs, k + 1)) + [CycleEdges(vs)[k]])
  {
    var c := vs + [vs[0]];
    var front, back := c[..k + 1], c[k + 1..];
    var e := Edge(c[k], c[k + 1]);
    assert CycleEdges(vs) == PathEdges(front) + [e] + PathEdges(back) by {
      CycleAsPath(vs);
      assert c == front + back;
      PathSplit(front, back);
    }
    RotateSplit(vs, k);
    var mid := c[1..k + 1];
    assert Rotate(vs, k + 1) == back + mid;
    if k == 0 {
      assert mid == [];
      assert back + mid == back;
      assert PathEdges(front) == [];
    } else {
      assert PathEdges(front) == [Edge(c[0], c[1])] + PathEdges(mid) by {
        assert front == [c[0]] + mid;
        PathSplit([c[0]], mid);
      }
      assert PathEdges(back + mid) == PathEdges(back) + [Edge(c[0], c[1])] + PathEdges(mid) by {
        PathSplit(back, mid);
      }
    }
  }

  /** Without its step `k` a cycle is the path from the vertex after
      `vs[k]` round to `vs[k]`. */
  lemma CycleWithout(vs: seq<int>, k: int)
    requires 0 <= k < |vs|
    ensures multiset(Normals(CycleEdges(vs)))
            == multiset(Normals(PathEdges(Rotate(vs, k + 1)))) + multiset{Normal(CycleEdges(vs)[k])}
  {
    var e := CycleEdges(vs)[k];
    var path := PathEdges(Rotate(vs, k + 1));
    CycleSplit(vs, k);
    NormalsPermuted(CycleEdges(vs), path + [e]);
    NormalsAppend(path, [e]);
    assert Normals([e]) == [Normal(e)];
  }

  lemma MultisetRotate<T>(s: seq<T>, k: int)
    requires 0 <= k <= |s|
    ensures multiset(Rotate(s, k)) == multiset(s)
  {
    assert s == s[..k] + s[k..];
  }

  /** The first step of a path is among edges that are the path's own. */
  lemma FirstStepPresent(rest: seq<Edge>, p: seq<int>)
    requires |p| >= 2 && SameEdges(rest, PathEdges(p))
    ensures FindLink(rest, p[0]).Some?
  {
    var first := Edge(p[0], p[1]);
    assert PathEdges(p) == [first] + PathEdges(p[1..]);
    assert Normals(PathEdges(p))[0] == Normal(first);
    assert Normal(first) in multiset(Normals(rest));
    var j :| 0 <= j < |rest| && Normals(rest)[j] == Normal(first);
    NormalSame(rest[j], first);
  }

  /** In a path without repeated vertices the only step with an end at
      the first vertex is the first step. */
  lemma OnlyFirstStep(rest: seq<Edge>, p: seq<int>, i: int, n: int)
    requires |p| >= 2 && Distinct(p) && SameEdges(rest, PathEdges(p))
    requires 0 <= i < |rest| && Joins(rest[i], p[0], n)
    ensures n == p[1] && Normal(rest[i]) == Normal(Edge(p[0], p[1]))
  {
    assert Normal(rest[i]) in multiset(Normals(PathEdges(p)));
    var k :| 0 <= k < |PathEdges(p)| && Normals(PathEdges(p))[k] == Normal(rest[i]);
    PathEdgesAt(p);
    assert PathEdges(p)[k] == Edge(p[k], p[k + 1]);
    NormalSame(rest[i], Edge(p[k], p[k + 1]));
    assert k == 0 by {
      assert p[0] != p[k + 1];
    }
  }

  /** Taking the first step out of a path's edges leaves the edges of the
      rest of the path. */
  lemma RemoveFirstStep(rest: seq<Edge>, p: seq<int>, i: int)
    requires |p| >= 2 && SameEdges(rest, PathEdges(p))
    requires 0 <= i < |rest| && Normal(rest[i]) == Normal(Edge(p[0], p[1]))
    ensures SameEdges(Remove(rest, i), PathEdges(p[1..]))
  {
    var first := Edge(p[0], p[1]);
    var left := multiset(Normals(Remove(rest, i)));
    var tail := multiset(Normals(PathEdges(p[1..])));
    PathNormalsFirst(p);
    assert left + multiset{Normal(first)} == multiset(Normals(rest)) by {
      NormalsRemove(rest, i);
    }
    Cancel(left, tail, multiset{Normal(first)});
  }

  lemma PathNormalsFirst(p: seq<int>)
    requires |p| >= 2
    ensures multiset(Normals(PathEdges(p)))
            == multiset(Normals(PathEdges(p[1..]))) + multiset{Normal(Edge(p[0], p[1]))}
  {
    var first := Edge(p[0], p[1]);
    assert PathEdges(p) == [first] + PathEdges(p[1..]);
    NormalsAppend([first], PathEdges(p[1..]));
    assert Normals([first]) == [Normal(first)];
  }

  lemma SameLength(a: seq<Edge>, b: seq<Edge>)
    requires SameEdges(a, b)
    ensures |a| == |b|
  {
    assert |Normals(a)| == |multiset(Normals(a))|;
    assert |Normals(b)| == |multiset(Normals(b))|;
  }

  /** Chaining the edges of a path without repeated vertices, stored in
      any order and orientation, from the path's first vertex walks the
      path: the only remaining edge at the walk's end is always the
      path's next step. */
  lemma {:induction false} ChainAnyPath(w: Walk, rest: seq<Edge>, p: seq<int>)
    requires |w.vertices| > 0 && |p| > 0 && w.vertices[|w.vertices| - 1] == p[0]
    requires Distinct(p) && SameEdges(rest, PathEdges(p))
    ensures ChainFrom(w, rest).Ok?
    ensures ChainFrom(w, rest).value.vertices == w.vertices + p[1..]
    decreases |rest|
  {
    SameLength(rest, PathEdges(p));
    if |rest| == 0 {
      assert p[1..] == [];
      assert w.vertices + p[1..] == w.vertices;
    } else {
      FirstStepPresent(rest, p);
      var i, n := FindLink(rest, p[0]).value.0, FindLink(rest, p[0]).value.1;
      OnlyFirstStep(rest, p, i, n);
      RemoveFirstStep(rest, p, i);
      var w' := Walk(w.vertices + [n], w.used + [rest[i]]);
      ChainStep(w, rest);
      ChainAnyPath(w', Remove(rest, i), p[1..]);
      ExtendByStep(w.vertices, p);
    }
  }

  /** One pass of the `while` loop: the first edge at the walk's end is
      used and removed. */
  lemma ChainStep(w: Walk, rest: seq<Edge>)
    requires |w.vertices| > 0 && |rest| > 0
    requires FindLink(rest, w.vertices[|w.vertices| - 1]).Some?
    ensures var link := FindLink(rest, w.vertices[|w.vertices| - 1]).value;
      ChainFrom(w, rest) == ChainFrom(Walk(w.vertices + [link.1], w.used + [rest[link.0]]), Remove(rest, link.0))
  {
  }

  lemma ExtendByStep(a: seq<int>, p: seq<int>)
    requires |p| >= 2
    ensures (a + [p[1]]) + p[1..][1..] == a + p[1..]
  {
    assert p[1..] == [p[1]] + p[1..][1..];
    AppendAssoc(a, [p[1]], p[1..][1..]);
  }

  /** The vertex after `vs[k]` round the cycle. */
  function NextIndex(n: int, k: int): int
  {
    if k + 1 < n then k + 1 else 0
  }

  /** The last stored edge of a cell whose edges are those of a cycle is
      some step `k` of the cycle, and the other edges are those of the
      path from the vertex after `vs[k]` round to `vs[k]`. */
  lemma CycleLastEdge(poly: seq<Edge>, vs: seq<int>) returns (k: int)
    requires |vs| > 0 && SameEdges(poly, CycleEdges(vs))
    ensures |poly| == |vs| && 0 <= k < |vs|
    ensures Normal(poly[|vs| - 1]) == Normal(Edge(vs[k], vs[NextIndex(|vs|, k)]))
    ensures SameEdges(poly[..|vs| - 1], PathEdges(Rotate(vs, NextIndex(|vs|, k))))
  {
    var n := |vs|;
    SameLength(poly, CycleEdges(vs));
    var e := poly[n - 1];
    var cycle := Normals(CycleEdges(vs));
    NormalsLast(poly);
    assert Normal(e) in multiset(cycle);
    k :| 0 <= k < n && cycle[k] == Normal(e);
    var path := PathEdges(Rotate(vs, k + 1));
    assert multiset(cycle) == multiset(Normals(path)) + multiset{Normal(e)} by {
      CycleWithout(vs, k);
    }
    CycleEdgesAt(vs, k);
    assert Rotate(vs, k + 1) == Rotate(vs, NextIndex(n, k));
    Cancel(multiset(Normals(poly[..n - 1])), multiset(Normals(path)), multiset{Normal(e)});
  }

  lemma NormalsLast(s: seq<Edge>)
    requires |s| > 0
    ensures multiset(Normals(s)) == multiset(Normals(s[..|s| - 1])) + multiset{Normal(s[|s| - 1])}
  {
    var n := |s| - 1;
    assert s == s[..n] + [s[n]];
    NormalsAppend(s[..n], [s[n]]);
    assert Normals([s[n]]) == [Normal(s[n])];
  }

  /** The walk `[p[n-1]] + p` is closed, and without its last vertex it
      is `p` rotated to start at its last entry. */
  lemma InitRotate(p: seq<int>, l: seq<int>)
    requires |p| > 0 && l == [p[|p| - 1]] + p
    ensures |l| == |p| + 1 && l[0] == l[|p|]
    ensures Init(l) == Rotate(p, |p| - 1)
  {
    assert Init(l) == [p[|p| - 1]] + p[..|p| - 1];
  }

  /** A closed walk `[p[n-1]] + p` over a list `p` without repeats visits
      each entry of `p` once. */
  lemma ClosedOver(p: seq<int>, l: seq<int>)
    requires |p| > 0 && Distinct(p) && l == [p[|p| - 1]] + p
    ensures l[0] == l[|p|] && Distinct(Init(l)) && multiset(Init(l)) == multiset(p)
  {
    InitRotate(p, l);
    DistinctRotate(p, |p| - 1);
    MultisetRotate(p, |p| - 1);
  }

  /** A cell whose edges are those of a cycle through distinct vertices,
      stored in any order and orientation, chains into a closed walk that
      visits every vertex of the cycle exactly once: round the cycle one
      way or the other, starting from the first end of the last stored
      edge. */
  lemma ChainAnyCycle(poly: seq<Edge>, vs: seq<int>) returns (p: seq<int>)
    requires |vs| > 0 && Distinct(vs) && SameEdges(poly, CycleEdges(vs))
    ensures ChainCell(poly).Ok?
    ensures |p| == |vs| && ChainCell(poly).value.vertices == [p[|vs| - 1]] + p
    ensures exists k :: 0 <= k < |vs| && (p == Rotate(vs, k) || p == Reverse(Rotate(vs, k)))
    ensures var l := ChainCell(poly).value.vertices;
      && l[0] == l[|vs|]
      && Distinct(Init(l)) && multiset(Init(l)) == multiset(vs)
  {
    var n := |vs|;
    var k := CycleLastEdge(poly, vs);
    var next := NextIndex(n, k);
    var a, b := vs[k], vs[next];
    var q := Rotate(vs, next);
    assert q[0] == b && q[n - 1] == a;
    DistinctRotate(vs, next);
    MultisetRotate(vs, next);
    assert poly[n - 1] == Edge(q[n - 1], q[0]) || poly[n - 1] == Edge(q[0], q[n - 1]) by {
      NormalSame(poly[n - 1], Edge(a, b));
    }
    p := CellClosing(poly, q);
    assert p == Rotate(vs, next) || p == Reverse(Rotate(vs, next));
  }

  /** A cell whose last stored edge closes the path `q`, and whose other
      edges are those of `q` in any order and orientation, is chained into
      the closed loop along `q` or its reverse. */
  lemma CellClosing(poly: seq<Edge>, q: seq<int>) returns (p: seq<int>)
    requires |q| > 0 && |poly| == |q| && Distinct(q) && SameEdges(poly[..|q| - 1], PathEdges(q))
    requires poly[|q| - 1] == Edge(q[|q| - 1], q[0]) || poly[|q| - 1] == Edge(q[0], q[|q| - 1])
    ensures ChainCell(poly).Ok?
    ensures |p| == |q| && ChainCell(poly).value.vertices == [p[|q| - 1]] + p
    ensures p == q || p == Reverse(q)
    ensures var l := ChainCell(poly).value.vertices;
      && l[0] == l[|q|]
      && Distinct(Init(l)) && multiset(Init(l)) == multiset(q)
  {
    ChainCellUnfold(poly);
    p := ChainClosing(poly[|q| - 1], poly[..|q| - 1], q);
    ClosedOver(p, [p[|q| - 1]] + p);
  }

  /** `loops` starts each cell from its last stored edge. */
  lemma ChainCellUnfold(poly: seq<Edge>)
    requires |poly| > 0
    ensures var e := poly[|poly| - 1];
      ChainCell(poly) == ChainFrom(Walk([e.src, e.dst], [e]), poly[..|poly| - 1])
  {
  }

  /** A walk started from the closing edge of the path `q`, taken in
      either direction, runs along `q` or its reverse. */
  lemma ChainClosing(e: Edge, rest: seq<Edge>, q: seq<int>) returns (p: seq<int>)
    requires |q| > 0 && Distinct(q) && SameEdges(rest, PathEdges(q))
    requires e == Edge(q[|q| - 1], q[0]) || e == Edge(q[0], q[|q| - 1])
    ensures ChainFrom(Walk([e.src, e.dst], [e]), rest).Ok?
    ensures |p| == |q| && ChainFrom(Walk([e.src, e.dst], [e]), rest).value.vertices == [p[|q| - 1]] + p
    ensures p == q || p == Reverse(q)
    ensures Distinct(p) && multiset(p) == multiset(q)
  {
    var w := Walk([e.src, e.dst], [e]);
    if e == Edge(q[|q| - 1], q[0]) {
      ChainAnyPath(w, rest, q);
      p := q;
      ConsFirst(q[|q| - 1], q);
    } else {
      PathReversed(q);
      DistinctReverse(q);
      MultisetReverse(q);
      p := Reverse(q);
      ChainAnyPath(w, rest, p);
      ConsFirst(q[0], p);
    }
  }

  /** The `while` loop of `loops` as written, allowed `fuel` passes: when
      no remaining edge touches the walk's end the `for` loop runs out
      without `break` (its `assert i != len(polygon)` can never fail) and
      the `while` loop repeats with nothing changed. `None` means the loop
      is still running when the fuel is spent. */
  function ChainAsWritten(walk: seq<int>, rest: seq<Edge>, fuel: nat): (r: Option<seq<int>>)
    requires |walk| > 0
    ensures r.Some? ==> |r.value| == |walk| + |rest| && walk <= r.value
    decreases fuel
  {
    if |rest| == 0 then Some(walk)
    else if fuel == 0 then None
    else match FindLink(rest, walk[|walk| - 1])
      case None => ChainAsWritten(walk, rest, fuel - 1)
      case Some((i, n)) =>
        var r := ChainAsWritten(walk + [n], Remove(rest, i), fuel - 1);
        assert r.Some? ==> walk <= walk + [n] <= r.value;
        r
  }

  /** One cell as written: `polygon.pop()` on an empty list raises
      IndexError; otherwise the outcome of the loop after `fuel` passes. */
  function ChainCellAsWritten(poly: seq<Edge>, fuel: nat): (r: Result<Option<seq<int>>>)
    ensures r.Err? <==> |poly| == 0
  {
    if |poly| == 0 then Err(IndexError)
    else
      var e := poly[|poly| - 1];
      Ok(ChainAsWritten([e.src, e.dst], poly[..|poly| - 1], fuel))
  }

  /** The loop as written finishes, given enough passes, with the corrected
      result whenever chaining succeeds; whenever chaining gets stuck it
      never finishes, however many passes it is given. */
  lemma {:induction false} ChainAsWrittenAgrees(w: Walk, rest: seq<Edge>, fuel: nat)
    requires |w.vertices| > 0
    ensures ChainFrom(w, rest).Ok? && fuel >= |rest| ==>
      ChainAsWritten(w.vertices, rest, fuel) == Some(ChainFrom(w, rest).value.vertices)
    ensures ChainFrom(w, rest).Err? ==> ChainAsWritten(w.vertices, rest, fuel) == None
    decreases fuel
  {
    if |rest| > 0 && fuel > 0 {
      var end := w.vertices[|w.vertices| - 1];
      match FindLink(rest, end)
      case None =>
        ChainAsWrittenAgrees(w, rest, fuel - 1);
      case Some((i, n)) =>
        ChainAsWrittenAgrees(Walk(w.vertices + [n], w.used + [rest[i]]), Remove(rest, i), fuel - 1);
    }
  }

  /** Two edges that share no vertex. */
  const StuckCell: seq<Edge> := [Edge(0, 1), Edge(2, 3)]

  /** For two disjoint edges the loop as written never finishes, while the
      corrected chaining reports that the cell is not a loop. */
  lemma StuckCellSpins(fuel: nat)
    ensures ChainCellAsWritten(StuckCell, fuel) == Ok(None)
    ensures ChainCell(StuckCell) == Err(NotALoop)
  {
    var w := Walk([2, 3], [Edge(2, 3)]);
    assert StuckCell[..1] == [Edge(0, 1)];
    assert FindLink([Edge(0, 1)], 3) == None;
    ChainAsWrittenAgrees(w, [Edge(0, 1)], fuel);
  }

  // ---------------------------------------------------------------------
  // Orientation

  /** `l[i]` with Python's reading of a negative index. */
  function PyAt<T>(l: seq<T>, i: int): T
    requires -|l| <= i < |l|
  {
    if i < 0 then l[i + |l|] else l[i]
  }

  /** Every index can be read from `l` (negative ones from the end). */
  predicate ValidIndices<T>(l: seq<T>, idx: seq<int>)
  {
    forall k :: 0 <= k < |idx| ==> -|l| <= idx[k] < |l|
  }

  /** `[vertices[i] for i in idx]` for indices that can all be read. */
  function Coords(vertices: seq<Complex>, idx: seq<int>): (r: seq<Complex>)
    requires ValidIndices(vertices, idx)
    ensures |r| == |idx|
    ensures forall k :: 0 <= k < |idx| ==> r[k] == PyAt(vertices, idx[k])
  {
    if |idx| == 0 then [] else [PyAt(vertices, idx[0])] + Coords(vertices, idx[1..])
  }

  /** The same walk traversed backwards. */
  function Backwards(w: Walk): Walk
  {
    Walk(Reverse(w.vertices), Reverse(w.used))
  }

  /** The last statement of the `loops` body: the walk is reversed exactly
      when `is_clockwise` holds for the coordinates of all its vertices but
      the repeated last one. Reversal keeps the walk joined, its edges and
      its length. */
  function Orient(vertices: seq<Complex>, w: Walk): (r: Result<Walk>)
    ensures r.Ok? <==> ValidIndices(vertices, Init(w.vertices)) && |w.vertices| >= 2
    ensures r.Err? && |w.vertices| >= 2 ==> r.error == IndexError
    ensures r.Ok? ==> r.value == w || r.value == Backwards(w)
    ensures r.Ok? ==> |r.value.vertices| == |w.vertices|
    ensures r.Ok? && w.vertices[0] == w.vertices[|w.vertices| - 1] ==>
      r.value.vertices[0] == r.value.vertices[|w.vertices| - 1]
    ensures r.Ok? && Steps(w) ==> Steps(r.value)
    ensures r.Ok? ==> multiset(r.value.used) == multiset(w.used)
  {
    if !ValidIndices(vertices, Init(w.vertices)) then Err(IndexError)
    else
      match IsClockwise(Coords(vertices, Init(w.vertices)))
      case Err(e) => Err(e)
      case Ok(clockwise) =>
        if clockwise then
          BackwardsSteps(w);
          MultisetReverse(w.used);
          Ok(Backwards(w))
        else Ok(w)
  }

  /** A walk read backwards is still joined by the same edges. */
  lemma BackwardsSteps(w: Walk)
    ensures Steps(w) ==> Steps(Backwards(w))
  {
    var b := Backwards(w);
    if Steps(w) {
      var m := |w.used|;
      forall k | 0 <= k < m
        ensures Joins(b.used[k], b.vertices[k], b.vertices[k + 1])
      {
        assert b.used[k] == w.used[m - 1 - k];
        assert b.vertices[k] == w.vertices[m - k] && b.vertices[k + 1] == w.vertices[m - 1 - k];
        assert Joins(w.used[m - 1 - k], w.vertices[m - 1 - k], w.vertices[m - k]);
      }
    }
  }

  lemma {:induction false} MultisetReverse<T>(s: seq<T>)
    ensures multiset(Reverse(s)) == multiset(s)
  {
    if |s| > 0 {
      MultisetReverse(s[1..]);
      assert s == [s[0]] + s[1..];
    }
  }

  lemma DistinctReverse<T>(s: seq<T>)
    requires Distinct(s)
    ensures Distinct(Reverse(s))
  {
    var r := Reverse(s);
    forall i, j | 0 <= i < j < |r|
      ensures r[i] != r[j]
    {
      assert r[i] == s[|s| - 1 - i] && r[j] == s[|s| - 1 - j];
    }
  }

  /** A closed walk read backwards visits, apart from its repeated last
      vertex, the reversed vertex list rotated by one. */
  lemma {:induction false} InitBackwards(vs: seq<int>)
    requires |vs| >= 2 && vs[0] == vs[|vs| - 1]
    ensures Init(Reverse(vs)) == Rotate(Reverse(Init(vs)), |vs| - 2)
  {
    var a := Init(Reverse(vs));
    var r := Reverse(Init(vs));
    var b := Rotate(r, |vs| - 2);
    assert |a| == |b|;
    forall m | 0 <= m < |a|
      ensures a[m] == b[m]
    {
      assert a[m] == vs[|vs| - 1 - m];
      if m == 0 {
        assert b[0] == r[|vs| - 2] == vs[0];
      } else {
        assert b[m] == r[m - 1] == Init(vs)[|vs| - 1 - m];
      }
    }
  }

  /** The coordinates of a rotated reversed index list are the rotated
      reversed coordinates. */
  lemma CoordsReverse(vertices: seq<Complex>, idx: seq<int>)
    requires ValidIndices(vertices, idx)
    ensures ValidIndices(vertices, Reverse(idx))
    ensures Coords(vertices, Reverse(idx)) == Reverse(Coords(vertices, idx))
  {
    var a := Coords(vertices, Reverse(idx));
    var b := Reverse(Coords(vertices, idx));
    forall m | 0 <= m < |idx|
      ensures a[m] == b[m]
    {
      assert Reverse(idx)[m] == idx[|idx| - 1 - m];
    }
  }

  /** For a closed walk whose vertices (without the repeated last one) sit
      at distinct points with a nonzero orientation determinant, the
      oriented walk is counterclockwise: `is_clockwise` fails on it. */
  lemma OrientCounterclockwise(vertices: seq<Complex>, w: Walk)
    requires |w.vertices| >= 2 && w.vertices[0] == w.vertices[|w.vertices| - 1]
    requires ValidIndices(vertices, Init(w.vertices))
    requires Distinct(Coords(vertices, Init(w.vertices)))
    requires Orientation(Coords(vertices, Init(w.vertices))) != 0.0
    ensures Orient(vertices, w).Ok?
    ensures ValidIndices(vertices, Init(Orient(vertices, w).value.vertices))
    ensures IsClockwise(Coords(vertices, Init(Orient(vertices, w).value.vertices))) == Ok(false)
  {
    if Orientation(Coords(vertices, Init(w.vertices))) < 0.0 {
      OrientReversed(vertices, w);
    } else {
      OrientKept(vertices, w);
    }
  }

  /** A clockwise walk is oriented by reading it backwards. */
  lemma OrientReversed(vertices: seq<Complex>, w: Walk)
    requires |w.vertices| >= 2 && w.vertices[0] == w.vertices[|w.vertices| - 1]
    requires ValidIndices(vertices, Init(w.vertices))
    requires Distinct(Coords(vertices, Init(w.vertices)))
    requires Orientation(Coords(vertices, Init(w.vertices))) < 0.0
    ensures Orient(vertices, w) == Ok(Backwards(w))
    ensures ValidIndices(vertices, Init(Backwards(w).vertices))
    ensures IsClockwise(Coords(vertices, Init(Backwards(w).vertices))) == Ok(false)
  {
    ClockwiseBackwards(vertices, w.vertices);
    OrientChoice(vertices, w);
  }

  /** A walk that is not clockwise is kept as it is. */
  lemma OrientKept(vertices: seq<Complex>, w: Walk)
    requires |w.vertices| >= 2 && ValidIndices(vertices, Init(w.vertices))
    requires Orientation(Coords(vertices, Init(w.vertices))) >= 0.0
    ensures Orient(vertices, w) == Ok(w)
    ensures IsClockwise(Coords(vertices, Init(w.vertices))) == Ok(false)
  {
    OrientChoice(vertices, w);
  }

  lemma OrientChoice(vertices: seq<Complex>, w: Walk)
    requires |w.vertices| >= 2 && ValidIndices(vertices, Init(w.vertices))
    ensures Orient(vertices, w)
            == Ok(if Orientation(Coords(vertices, Init(w.vertices))) < 0.0 then Backwards(w) else w)
  {
  }

  /** The coordinates of a clockwise closed walk read backwards are the
      reversed coordinates rotated by one, which are counterclockwise. */
  lemma ClockwiseBackwards(vertices: seq<Complex>, vs: seq<int>)
    requires |vs| >= 2 && vs[0] == vs[|vs| - 1]
    requires ValidIndices(vertices, Init(vs))
    requires Distinct(Coords(vertices, Init(vs)))
    requires Orientation(Coords(vertices, Init(vs))) < 0.0
    ensures ValidIndices(vertices, Init(Reverse(vs)))
    ensures IsClockwise(Coords(vertices, Init(Reverse(vs)))) == Ok(false)
  {
    var n := |vs| - 1;
    var c := Coords(vertices, Init(vs));
    InitBackwards(vs);
    CoordsReverse(vertices, Init(vs));
    CoordsRotate(vertices, Reverse(Init(vs)), n - 1);
    DistinctReverse(c);
    OrientationRotated(Reverse(c), n - 1);
    ClockwiseReversed(c);
  }

  // ---------------------------------------------------------------------
  // All cells

  /** One cell of `loops`: its edges chained into a walk, then oriented. */
  function Loop(vertices: seq<Complex>, poly: seq<Edge>): Result<Walk>
  {
    match ChainCell(poly)
    case Err(e) => Err(e)
    case Ok(w) => Orient(vertices, w)
  }

  /** The loop of a cell has one more vertex than the cell has edges,
      consecutive vertices are joined by the edge used for that step, and
      every edge of the cell is used exactly once; an empty cell raises
      IndexError. */
  lemma LoopShape(vertices: seq<Complex>, poly: seq<Edge>)
    ensures |poly| == 0 ==> Loop(vertices, poly) == Err(IndexError)
    ensures Loop(vertices, poly).Ok? ==>
      && |Loop(vertices, poly).value.vertices| == |poly| + 1
      && Steps(Loop(vertices, poly).value)
      && multiset(Loop(vertices, poly).value.used) == multiset(poly)
  {
  }

  /** `loops`: every cell chained and oriented, in the order of the cells;
      the first failure ends the computation. */
  function Loops(vertices: seq<Complex>, polygons: seq<seq<Edge>>): (r: Result<seq<Walk>>)
    ensures r.Ok? <==> forall k :: 0 <= k < |polygons| ==> Loop(vertices, polygons[k]).Ok?
    ensures r.Ok? ==> |r.value| == |polygons|
    ensures r.Ok? ==> forall k :: 0 <= k < |polygons| ==> r.value[k] == Loop(vertices, polygons[k]).value
    ensures r.Err? ==>
      exists k :: 0 <= k < |polygons| && Loop(vertices, polygons[k]) == Err(r.error)
        && forall j :: 0 <= j < k ==> Loop(vertices, polygons[j]).Ok?
  {
    MapResult(poly => Loop(vertices, poly), polygons)
  }

  /** A cell whose edges are those of a cycle of distinct, non-collinear
      points, stored in any order and orientation, yields a closed
      counterclockwise walk through all of its vertices. */
  lemma CycleLoop(vertices: seq<Complex>, vs: seq<int>, poly: seq<Edge>)
    requires |vs| > 0
    requires forall k :: 0 <= k < |vs| ==> 0 <= vs[k] < |vertices|
    requires Distinct(Coords(vertices, vs))
    requires Orientation(Coords(vertices, vs)) != 0.0
    requires SameEdges(poly, CycleEdges(vs))
    ensures ChainCell(poly).Ok?
    ensures Orient(vertices, ChainCell(poly).value).Ok?
    ensures var l := Orient(vertices, ChainCell(poly).value).value.vertices;
      && |l| == |vs| + 1 && l[0] == l[|vs|]
      && ValidIndices(vertices, Init(l))
      && IsClockwise(Coords(vertices, Init(l))) == Ok(false)
  {
    DistinctIndices(vertices, vs);
    var p := ChainAnyCycle(poly, vs);
    var w := ChainCell(poly).value;
    var n := |vs|;
    var k :| 0 <= k < n && (p == Rotate(vs, k) || p == Reverse(Rotate(vs, k)));
    CycleCoords(vertices, vs, k, p);
    InitRotate(p, w.vertices);
    ClosedLoop(vertices, w, p);
  }

  /** A closed walk whose vertices but the last are a rotation of the
      list `p` of distinct non-collinear points is oriented
      counterclockwise. */
  lemma ClosedLoop(vertices: seq<Complex>, w: Walk, p: seq<int>)
    requires |p| > 0 && |w.vertices| == |p| + 1 && w.vertices[0] == w.vertices[|p|]
    requires Init(w.vertices) == Rotate(p, |p| - 1)
    requires ValidIndices(vertices, p) && Distinct(Coords(vertices, p))
    requires Orientation(Coords(vertices, p)) != 0.0
    ensures Orient(vertices, w).Ok?
    ensures var l := Orient(vertices, w).value.vertices;
      && |l| == |p| + 1 && l[0] == l[|p|]
      && ValidIndices(vertices, Init(l))
      && IsClockwise(Coords(vertices, Init(l))) == Ok(false)
  {
    CycleCoords(vertices, p, |p| - 1, Rotate(p, |p| - 1));
    OrientCounterclockwise(vertices, w);
  }

  /** Indices of distinct points are distinct. */
  lemma DistinctIndices(vertices: seq<Complex>, vs: seq<int>)
    requires ValidIndices(vertices, vs) && Distinct(Coords(vertices, vs))
    ensures Distinct(vs)
  {
    forall i, j | 0 <= i < j < |vs|
      ensures vs[i] != vs[j]
    {
      assert Coords(vertices, vs)[i] != Coords(vertices, vs)[j];
    }
  }

  /** Going round a cycle of distinct non-collinear points from another
      start, or the other way round, keeps the points distinct and the
      orientation determinant nonzero. */
  lemma CycleCoords(vertices: seq<Complex>, vs: seq<int>, k: int, p: seq<int>)
    requires 0 <= k < |vs| && ValidIndices(vertices, vs)
    requires Distinct(Coords(vertices, vs)) && Orientation(Coords(vertices, vs)) != 0.0
    requires p == Rotate(vs, k) || p == Reverse(Rotate(vs, k))
    ensures ValidIndices(vertices, p) && Distinct(Coords(vertices, p))
    ensures Orientation(Coords(vertices, p)) != 0.0
  {
    var c := Coords(vertices, vs);
    CoordsRotate(vertices, vs, k);
    OrientationRotated(c, k);
    DistinctRotate(c, k);
    if p != Rotate(vs, k) {
      CoordsReverse(vertices, Rotate(vs, k));
      ClockwiseReversed(Rotate(c, k));
      DistinctReverse(Rotate(c, k));
    }
  }

  lemma CoordsRotate(vertices: seq<Complex>, idx: seq<int>, k: int)
    requires ValidIndices(vertices, idx) && 0 <= k <= |idx|
    ensures ValidIndices(vertices, Rotate(idx, k))
    ensures Coords(vertices, Rotate(idx, k)) == Rotate(Coords(vertices, idx), k)
  {

  }

  lemma DistinctRotate<T>(s: seq<T>, k: int)
    requires Distinct(s) && 0 <= k <= |s|
    ensures Distinct(Rotate(s, k))
  {
    var r := Rotate(s, k);
    forall i, j | 0 <= i < j < |r|
      ensures r[i] != r[j]
    {
      var i' := if i < |s| - k then i + k else i + k - |s|;
      var j' := if j < |s| - k then j + k else j + k - |s|;
      assert r[i] == s[i'] && r[j] == s[j'];
    }
  }

  // ---------------------------------------------------------------------
  // Anchoring each loop

  /** The position `min(l, key=dist)` returns: the first element of
      minimal key. */
  function MinIndex(l: seq<int>, dist: int -> int): (k: nat)
    requires |l| > 0
    ensures k < |l|
    ensures forall j :: 0 <= j < |l| ==> dist(l[k]) <= dist(l[j])
    ensures forall j :: 0 <= j < k ==> dist(l[j]) > dist(l[k])
  {
    if |l| == 1 then 0
    else
      var k := MinIndex(l[..|l| - 1], dist);
      if dist(l[|l| - 1]) < dist(l[k]) then |l| - 1 else k
  }

  /** The anchor of a loop: the first vertex of `loop[1:]` closest to the
      root in the tree (`dist`). */
  function Anchor(loop: seq<int>, dist: int -> int): int
    requires |loop| >= 2
  {
    loop[1 + MinIndex(loop[1..], dist)]
  }

  /** `loop.index(loop_point)`: where the anchor first occurs. */
  function AnchorIndex(loop: seq<int>, dist: int -> int): (k: nat)
    requires |loop| >= 2
    ensures k < |loop| && loop[k] == Anchor(loop, dist)
    ensures forall j :: 0 <= j < k ==> loop[j] != Anchor(loop, dist)
  {
    assert Anchor(loop, dist) in loop;
    IndexOf(loop, Anchor(loop, dist)).value
  }

  /** One iteration of `loop_points`: unless the anchor is found at index
      0 the loop is rotated to start and end there; `min` of an empty
      `loop[1:]` raises ValueError. The rotated loop has the same length
      and, without its last vertex, is the loop without its last vertex
      rotated to the anchor's position. */
  function LoopPoint(loop: seq<int>, dist: int -> int): (r: Result<(int, seq<int>)>)
    ensures r.Ok? <==> |loop| >= 2
    ensures r.Err? ==> r.error == ValueError
    ensures r.Ok? ==> r.value.0 == Anchor(loop, dist)
    ensures r.Ok? ==> |r.value.1| == |loop|
    ensures r.Ok? ==> Init(r.value.1) == Rotate(Init(loop), AnchorIndex(loop, dist))
    ensures r.Ok? && AnchorIndex(loop, dist) != 0 ==> r.value.1[|loop| - 1] == r.value.0
  {
    if |loop| < 2 then Err(ValueError)
    else
      var lp := Anchor(loop, dist);
      var index := AnchorIndex(loop, dist);
      if index != 0 then
        var l := loop[index..|loop| - 1] + loop[..index] + [loop[index]];
        assert Init(l) == Rotate(Init(loop), index) by {
          assert Init(loop)[index..] == loop[index..|loop| - 1];
          assert Init(loop)[..index] == loop[..index];
        }
        Ok((lp, l))
      else
        assert Rotate(Init(loop), 0) == Init(loop);
        Ok((lp, loop))
  }

  /** Position `k` of a closed walk with `n` steps rotated to start at
      `index`. */
  function Shift(k: int, index: int, n: int): int
  {
    if k + index < n then k + index else k + index - n
  }

  /** On a closed walk the anchor is found before the last position, and
      the anchored loop is closed and starts and ends at the anchor. */
  lemma LoopPointClosed(loop: seq<int>, dist: int -> int)
    requires |loop| >= 2 && loop[0] == loop[|loop| - 1]
    ensures AnchorIndex(loop, dist) < |loop| - 1
    ensures LoopPoint(loop, dist).value.1[0] == Anchor(loop, dist)
    ensures LoopPoint(loop, dist).value.1[|loop| - 1] == Anchor(loop, dist)
  {
    var l := LoopPoint(loop, dist).value.1;
    assert l[0] == Init(l)[0];
  }

  /** A closed walk `l` that, without its last vertex, is the closed walk
      `loop` without its last vertex rotated by `index`, takes the steps
      of `loop` from position `index` on and around. */
  lemma RotatedSteps(loop: seq<int>, l: seq<int>, index: int)
    requires |loop| >= 2 && loop[0] == loop[|loop| - 1]
    requires |l| == |loop| && l[0] == l[|l| - 1]
    requires 0 <= index < |loop| - 1 && Init(l) == Rotate(Init(loop), index)
    ensures forall k :: 0 <= k < |loop| - 1 ==> l[k] == loop[Shift(k, index, |loop| - 1)]
    ensures forall k :: 1 <= k < |loop| ==> l[k] == loop[Shift(k - 1, index, |loop| - 1) + 1]
  {
    var n := |loop| - 1;
    forall k | 0 <= k < n
      ensures l[k] == loop[Shift(k, index, n)]
    {
      assert l[k] == Init(l)[k];
    }
    forall k | 1 <= k <= n
      ensures l[k] == loop[Shift(k - 1, index, n) + 1]
    {
      if k < n {
        assert l[k] == Init(l)[k];
      } else {
        assert l[k] == Init(l)[0];
      }
    }
  }

  /** Anchoring keeps the orientation test's value on a loop of distinct
      points, so an anchored counterclockwise loop stays counterclockwise. */
  lemma LoopPointOrientation(vertices: seq<Complex>, loop: seq<int>, dist: int -> int)
    requires |loop| >= 2
    requires ValidIndices(vertices, Init(loop)) && Distinct(Coords(vertices, Init(loop)))
    ensures var l := LoopPoint(loop, dist).value.1;
      && ValidIndices(vertices, Init(l))
      && Orientation(Coords(vertices, Init(l))) == Orientation(Coords(vertices, Init(loop)))
  {
    var index := AnchorIndex(loop, dist);
    if index < |loop| - 1 {
      CoordsRotate(vertices, Init(loop), index);
      OrientationRotated(Coords(vertices, Init(loop)), index);
    } else {
      assert Rotate(Init(loop), index) == Init(loop);
    }
  }

  /** `loop_points` over all loops, each paired with its rewritten loop. */
  function LoopPoints(loops: seq<seq<int>>, dist: int -> int): (r: Result<seq<(int, seq<int>)>>)
    ensures r.Ok? <==> forall k :: 0 <= k < |loops| ==> |loops[k]| >= 2
    ensures r.Err? ==> r.error == ValueError
    ensures r.Ok? ==> |r.value| == |loops|
    ensures r.Ok? ==> forall k :: 0 <= k < |loops| ==> r.value[k] == LoopPoint(loops[k], dist).value
  {
    MapResult(loop => LoopPoint(loop, dist), loops)
  }

  // ---------------------------------------------------------------------
  // Pointed loops

  /** `path[:-1] + loop + list(reversed(path[:-1]))`: out along the tree
      path, once around the loop, and back. */
  function PointedLoop(path: seq<int>, loop: seq<int>): seq<int>
  {
    Init(path) + loop + Reverse(Init(path))
  }

  /** When the path ends where the closed loop starts, the pointed loop
      has length `2(|path| - 1) + |loop|`, follows the path out, the loop
      in the middle, and the path back in reverse, so it starts and ends at
      the path's first vertex. */
  lemma PointedLoopShape(path: seq<int>, loop: seq<int>)
    requires |path| > 0 && |loop| > 0
    requires path[|path| - 1] == loop[0] && loop[0] == loop[|loop| - 1]
    ensures var r := PointedLoop(path, loop);
      && |r| == 2 * (|path| - 1) + |loop|
      && r[|path| - 1..|path| - 1 + |loop|] == loop
      && (forall k :: 0 <= k < |path| ==> r[k] == path[k] && r[|r| - 1 - k] == path[k])
      && r[0] == path[0] && r[|r| - 1] == path[0]
  {
    var a := Init(path);
    var m := |a|;
    var r := a + loop + Reverse(a);
    assert PointedLoop(path, loop) == r;
    assert r[m..m + |loop|] == loop;
    forall k | 0 <= k < |path|
      ensures r[k] == path[k] && r[|r| - 1 - k] == path[k]
    {
      if k < m {
        assert r[k] == a[k];
        assert r[|r| - 1 - k] == Reverse(a)[m - 1 - k];
      } else {
        assert r[k] == loop[0];
        assert r[|r| - 1 - k] == loop[|loop| - 1];
      }
    }
  }

  /** The first `n` pointed loops. */
  function PointedUpTo(n: nat, paths: seq<seq<int>>, loops: seq<seq<int>>): (r: seq<seq<int>>)
    requires n <= |paths| && n <= |loops|
    ensures |r| == n
    ensures forall i :: 0 <= i < n ==> r[i] == PointedLoop(paths[i], loops[i])
  {
    if n == 0 then [] else PointedUpTo(n - 1, paths, loops) + [PointedLoop(paths[n - 1], loops[n - 1])]
  }

  /** `pointed_loops`: one pointed loop for each of the `npoints - 1`
      critical points, taking the i-th path and the i-th (anchored) loop;
      a missing path or loop raises IndexError. */
  function PointedLoops(npoints: int, paths: seq<seq<int>>, loops: seq<seq<int>>): (r: Result<seq<seq<int>>>)
    ensures r.Ok? <==> npoints <= 1 || (npoints - 1 <= |paths| && npoints - 1 <= |loops|)
    ensures r.Err? ==> r.error == IndexError
    ensures r.Ok? ==> |r.value| == if npoints <= 1 then 0 else npoints - 1
    ensures r.Ok? ==> forall i :: 0 <= i < |r.value| ==> r.value[i] == PointedLoop(paths[i], loops[i])
  {
    if npoints <= 1 then Ok([])
    else if npoints - 1 > |paths| || npoints - 1 > |loops| then Err(IndexError)
    else Ok(PointedUpTo(npoints - 1, paths, loops))
  }

  /** With tree paths from the root to each anchor and closed anchored
      loops, every pointed loop is a closed walk at the root. */
  lemma PointedLoopsAtRoot(npoints: int, root: int, paths: seq<seq<int>>, loops: seq<seq<int>>)
    requires npoints - 1 <= |paths| && npoints - 1 <= |loops|
    requires forall i :: 0 <= i < npoints - 1 ==>
      && |paths[i]| > 0 && |loops[i]| > 0
      && paths[i][0] == root && paths[i][|paths[i]| - 1] == loops[i][0]
      && loops[i][0] == loops[i][|loops[i]| - 1]
    ensures PointedLoops(npoints, paths, loops).Ok?
    ensures forall i :: 0 <= i < |PointedLoops(npoints, paths, loops).value| ==>
      var p := PointedLoops(npoints, paths, loops).value[i];
      |p| > 0 && p[0] == root && p[|p| - 1] == root
  {
    var r := PointedLoops(npoints, paths, loops).value;
    forall i | 0 <= i < |r|
      ensures |r[i]| > 0 && r[i][0] == root && r[i][|r[i]| - 1] == root
    {
      PointedLoopShape(paths[i], loops[i]);
    }
  }
}

=== FILE: voronoi_sort.dfy ===
/** The canonical ordering of the loops of `FundamentalGroupVoronoi`:
    `minimal_tree` (the union of the tree paths), `_sort_loops_rec` (a
    depth-first walk of that tree visiting neighbours in angular order)
    and `sort_loops` (applying the resulting order to every per-loop
    list). The angular neighbour order of the Voronoi graph is an input
    function `nbrs`. */
module VoronoiSort {
  import opened Base
  import opened Undirected
  import opened VoronoiLoops
  import opened Permutations

  // ---------------------------------------------------------------------
  // The minimal tree

  /** `minimal_tree`: for each path in turn, each step `[path[i], path[i+1]]`
      added unless already present in either orientation. No edge appears
      twice, and an edge is in the tree exactly when some path steps along
      it. */
  function MinimalTree(paths: seq<seq<int>>): (r: seq<Edge>)
    ensures Simple(r)
    ensures forall e :: Mentions(r, e) <==> exists p :: 0 <= p < |paths| && Mentions(PathEdges(paths[p]), e)
  {
    if |paths| == 0 then []
    else
      var n := |paths| - 1;
      var r := AddEdges(MinimalTree(paths[..n]), PathEdges(paths[n]));
      assert forall p :: 0 <= p < n ==> paths[..n][p] == paths[p];
      r
  }

  /** Every step of every path is an edge of the minimal tree. */
  lemma MinimalTreeSteps(paths: seq<seq<int>>, p: int, k: int)
    requires 0 <= p < |paths| && 0 <= k < |paths[p]| - 1
    ensures Mentions(MinimalTree(paths), Edge(paths[p][k], paths[p][k + 1]))
  {
    PathEdgesAt(paths[p]);
    assert PathEdges(paths[p])[k] == Edge(paths[p][k], paths[p][k + 1]);
  }

  // ---------------------------------------------------------------------
  // The loops anchored at a vertex

  /** `[(i, loop[1]) for i, loop in enumerate(loops) if loop[0] == v]`:
      the loops anchored at `v`, in index order, with their second vertex.
      An empty loop, or a one-vertex loop anchored at `v`, raises
      IndexError. */
  function LoopsAt(loops: seq<seq<int>>, v: int): (r: Result<seq<(nat, int)>>)
    ensures r.Ok? <==> forall i :: 0 <= i < |loops| ==> |loops[i]| > 0 && (loops[i][0] == v ==> |loops[i]| > 1)
    ensures r.Err? ==> r.error == IndexError
    ensures r.Ok? ==> AnchoredAt(loops, r.value, v)
  {
    if |loops| == 0 then Ok([])
    else
      var n := |loops| - 1;
      match LoopsAt(loops[..n], v)
      case Err(e) => Err(e)
      case Ok(here) =>
        assert forall i :: 0 <= i < n ==> loops[..n][i] == loops[i];
        if |loops[n]| == 0 then Err(IndexError)
        else if loops[n][0] != v then Ok(here)
        else if |loops[n]| == 1 then Err(IndexError)
        else
          Ok(here + [(n, loops[n][1])])
  }

  /** Each entry names a loop anchored at `v` together with its second
      vertex, and the loop indices increase strictly. */
  predicate AnchoredAt(loops: seq<seq<int>>, here: seq<(nat, int)>, v: int)
  {
    && (forall k :: 0 <= k < |here| ==>
         here[k].0 < |loops| && |loops[here[k].0]| > 1
         && loops[here[k].0][0] == v && loops[here[k].0][1] == here[k].1)
    && (forall k, m :: 0 <= k < m < |here| ==> here[k].0 < here[m].0)
  }

  /** `[l[0] for l in here if l[1] == child]`: the loops anchored at `v`
      that leave it towards `child`, each once. */
  function Towards(loops: seq<seq<int>>, here: seq<(nat, int)>, v: int, child: int): (r: seq<nat>)
    requires AnchoredAt(loops, here, v)
    ensures Distinct(r)
    ensures forall k :: 0 <= k < |r| ==>
      r[k] < |loops| && |loops[r[k]]| > 1 && loops[r[k]][0] == v && loops[r[k]][1] == child
    ensures |here| > 0 ==> forall k :: 0 <= k < |r| ==> r[k] <= here[|here| - 1].0
  {
    if |here| == 0 then []
    else
      var n := |here| - 1;
      var r := Towards(loops, here[..n], v, child);
      assert forall j :: 0 <= j < n ==> here[..n][j] == here[j];
      if here[n].1 == child then r + [here[n].0] else r
  }

  // ---------------------------------------------------------------------
  // The depth-first walk

  /** The tree is rooted: every vertex has a depth at most `bound`, every
      vertex of positive depth has a parent `up` one level higher, and a
      tree edge leads from a vertex either to a vertex one level deeper or
      to its parent. */
  ghost predicate Rooted(tree: seq<Edge>, depth: int -> nat, up: int -> int, bound: nat)
  {
    && (forall v :: depth(v) <= bound)
    && (forall v :: depth(v) > 0 ==> depth(up(v)) + 1 == depth(v))
    && (forall a, b :: Mentions(tree, Edge(a, b)) ==> depth(b) == depth(a) + 1 || (depth(a) > 0 && b == up(a)))
  }

  /** The `parent` argument of the walk: `None` at depth 0, the tree parent
      elsewhere. */
  ghost predicate ParentOk(v: int, parent: Option<int>, depth: int -> nat, up: int -> int)
  {
    (parent == None && depth(v) == 0) || (parent.Some? && depth(v) > 0 && parent.value == up(v))
  }

  /** The ancestor of `x` at depth `d` (or `x` itself when it is not
      deeper than `d`). */
  ghost function AncestorAt(x: int, d: nat, depth: int -> nat, up: int -> int): int
    requires forall v :: depth(v) > 0 ==> depth(up(v)) + 1 == depth(v)
    decreases depth(x)
  {
    if depth(x) <= d then x else AncestorAt(up(x), d, depth, up)
  }

  lemma {:induction false} AncestorDepth(x: int, d: nat, depth: int -> nat, up: int -> int)
    requires forall v :: depth(v) > 0 ==> depth(up(v)) + 1 == depth(v)
    requires d <= depth(x)
    ensures depth(AncestorAt(x, d, depth, up)) == d
    decreases depth(x)
  {
    if depth(x) > d {
      AncestorDepth(up(x), d, depth, up);
    }
  }

  /** Climbing to depth `d2` can go through depth `d1` first. */
  lemma {:induction false} AncestorChain(x: int, d1: nat, d2: nat, depth: int -> nat, up: int -> int)
    requires forall v :: depth(v) > 0 ==> depth(up(v)) + 1 == depth(v)
    requires d2 <= d1
    ensures AncestorAt(x, d2, depth, up) == AncestorAt(AncestorAt(x, d1, depth, up), d2, depth, up)
    decreases depth(x)
  {
    if depth(x) > d1 {
      AncestorChain(up(x), d1, d2, depth, up);
    }
  }

  /** Loop `i` is anchored in the subtree below `v`. */
  ghost predicate InSubtree(loops: seq<seq<int>>, i: int, v: int, depth: int -> nat, up: int -> int)
    requires forall v :: depth(v) > 0 ==> depth(up(v)) + 1 == depth(v)
  {
    && 0 <= i < |loops| && |loops[i]| > 1
    && depth(loops[i][0]) >= depth(v)
    && AncestorAt(loops[i][0], depth(v), depth, up) == v
  }

  /** Loop `i`, emitted while visiting `v` with neighbours `ns` still to
      go, is anchored at `v` and leaves it towards one of `ns`, or lies
      below a child of `v` among `ns`. */
  ghost predicate EmittedAt(loops: seq<seq<int>>, i: int, v: int, ns: seq<int>, depth: int -> nat, up: int -> int)
    requires forall v :: depth(v) > 0 ==> depth(up(v)) + 1 == depth(v)
  {
    && InSubtree(loops, i, v, depth, up)
    && ((loops[i][0] == v && loops[i][1] in ns)
        || (depth(loops[i][0]) > depth(v) && AncestorAt(loops[i][0], depth(v) + 1, depth, up) in ns))
  }

  /** `_sort_loops_rec(v, parent)`: the loops anchored at `v`, and the
      neighbours of `v` in angular order, rotated so that the parent comes
      first (`list.index` raises ValueError if it is not a neighbour). Each
      loop index it returns is anchored in the subtree below `v`, and no
      index is returned twice. */
  function SortRec(nbrs: int -> seq<int>, tree: seq<Edge>, loops: seq<seq<int>>, v: int, parent: Option<int>,
                   ghost depth: int -> nat, ghost up: int -> int, ghost bound: nat): (r: Result<seq<nat>>)
    requires Rooted(tree, depth, up, bound) && ParentOk(v, parent, depth, up)
    requires forall u :: Distinct(nbrs(u))
    ensures r.Ok? ==> Distinct(r.value)
    ensures r.Ok? ==> forall k :: 0 <= k < |r.value| ==> InSubtree(loops, r.value[k], v, depth, up)
    decreases bound - depth(v), |nbrs(v)| + 1
  {
    match LoopsAt(loops, v)
    case Err(e) => Err(e)
    case Ok(here) =>
      var ns := nbrs(v);
      match parent
      case None => SortChildren(nbrs, tree, loops, v, parent, ns, here, depth, up, bound)
      case Some(p) =>
        match IndexOf(ns, p)
        case None => Err(ValueError)
        case Some(index) =>
          DistinctRotate(ns, index);
          SortChildren(nbrs, tree, loops, v, parent, Rotate(ns, index), here, depth, up, bound)
  }

  /** The `for child in neighbours` loop of `_sort_loops_rec` over the
      neighbours `ns` still to go: descend into `child` when it is a tree
      neighbour other than the parent, then emit the loops at `v` towards
      `child`. */
  function SortChildren(nbrs: int -> seq<int>, tree: seq<Edge>, loops: seq<seq<int>>, v: int, parent: Option<int>,
                        ns: seq<int>, here: seq<(nat, int)>,
                        ghost depth: int -> nat, ghost up: int -> int, ghost bound: nat): (r: Result<seq<nat>>)
    requires Rooted(tree, depth, up, bound) && ParentOk(v, parent, depth, up)
    requires forall u :: Distinct(nbrs(u))
    requires Distinct(ns) && |ns| <= |nbrs(v)|
    requires AnchoredAt(loops, here, v)
    ensures r.Ok? ==> Distinct(r.value)
    ensures r.Ok? ==> forall k :: 0 <= k < |r.value| ==> EmittedAt(loops, r.value[k], v, ns, depth, up)
    decreases bound - depth(v), |ns|
  {
    if |ns| == 0 then Ok([])
    else
      var child := ns[0];
      var sub :=
        if parent != Some(child) && Mentions(tree, Edge(v, child)) then
          ChildDeeper(tree, v, parent, child, depth, up, bound);
          SortRec(nbrs, tree, loops, child, Some(v), depth, up, bound)
        else Ok([]);
      match sub
      case Err(e) => Err(e)
      case Ok(below) =>
        match SortChildren(nbrs, tree, loops, v, parent, ns[1..], here, depth, up, bound)
        case Err(e) => Err(e)
        case Ok(rest) =>
          var mine := Towards(loops, here, v, child);
          SortChildrenDistinct(loops, v, ns, below, mine, rest, depth, up);
          Ok(below + mine + rest)
  }

  /** A tree neighbour other than the parent lies one level deeper and has
      the current vertex as its parent. */
  lemma ChildDeeper(tree: seq<Edge>, v: int, parent: Option<int>, child: int,
                    depth: int -> nat, up: int -> int, bound: nat)
    requires Rooted(tree, depth, up, bound) && ParentOk(v, parent, depth, up)
    requires parent != Some(child) && Mentions(tree, Edge(v, child))
    ensures depth(child) == depth(v) + 1 && ParentOk(child, Some(v), depth, up)
  {
    assert Mentions(tree, Edge(child, v));
  }

  /** The three parts a step of the loop emits are disjoint, and each
      emitted index is accounted for by `ns`. */
  lemma SortChildrenDistinct(loops: seq<seq<int>>, v: int, ns: seq<int>, below: seq<nat>, mine: seq<nat>, rest: seq<nat>,
                             depth: int -> nat, up: int -> int)
    requires forall v :: depth(v) > 0 ==> depth(up(v)) + 1 == depth(v)
    requires |ns| > 0 && Distinct(ns)
    requires Distinct(below) && Distinct(mine) && Distinct(rest)
    requires below != [] ==> depth(ns[0]) == depth(v) + 1 && up(ns[0]) == v
    requires forall k :: 0 <= k < |below| ==> InSubtree(loops, below[k], ns[0], depth, up)
    requires forall k :: 0 <= k < |mine| ==>
      mine[k] < |loops| && |loops[mine[k]]| > 1 && loops[mine[k]][0] == v && loops[mine[k]][1] == ns[0]
    requires forall k :: 0 <= k < |rest| ==> EmittedAt(loops, rest[k], v, ns[1..], depth, up)
    ensures Distinct(below + mine + rest)
    ensures forall k :: 0 <= k < |below + mine + rest| ==> EmittedAt(loops, (below + mine + rest)[k], v, ns, depth, up)
  {
    var d := depth(v);
    forall k | 0 <= k < |below|
      ensures EmittedAt(loops, below[k], v, ns, depth, up)
      ensures depth(loops[below[k]][0]) > d && AncestorAt(loops[below[k]][0], d + 1, depth, up) == ns[0]
    {
      var x := loops[below[k]][0];
      AncestorChain(x, d + 1, d, depth, up);
    }
    forall k | 0 <= k < |rest|
      ensures rest[k] !in mine && rest[k] !in below
    {
      var x := loops[rest[k]][0];
      if x == v && loops[rest[k]][1] in ns[1..] {
        assert loops[rest[k]][1] != ns[0];
      } else {
        assert AncestorAt(x, d + 1, depth, up) != ns[0];
      }
    }
    DistinctConcat(below, mine);
    DistinctConcat(below + mine, rest);
  }

  lemma DistinctConcat<T>(a: seq<T>, b: seq<T>)
    requires Distinct(a) && Distinct(b)
    requires forall k :: 0 <= k < |b| ==> b[k] !in a
    ensures Distinct(a + b)
  {
  }

  // ---------------------------------------------------------------------
  // Applying the order

  /** Every entry of `order` lies in `0 .. n-1`. */
  predicate Below(order: seq<int>, n: int)
  {
    forall k :: 0 <= k < |order| ==> 0 <= order[k] < n
  }

  /** Every entry of `order` is an index of `s`. */
  predicate Fits<T>(s: seq<T>, order: seq<int>)
  {
    Below(order, |s|)
  }

  /** `[s[i] for i in order]`. */
  function Select<T>(s: seq<T>, order: seq<int>): (r: seq<T>)
    requires Fits(s, order)
    ensures |r| == |order| && forall k :: 0 <= k < |order| ==> r[k] == s[order[k]]
  {
    if |order| == 0 then [] else [s[order[0]]] + Select(s, order[1..])
  }

  /** `[l[0]] + [l[i+1] for i in order]`: the first entry stays, the
      others are selected by `order`. */
  function KeepFirst<T>(s: seq<T>, order: seq<int>): (r: seq<T>)
    requires |s| > 0 && Below(order, |s| - 1)
    ensures |r| == |order| + 1 && r[0] == s[0]
    ensures forall k :: 0 <= k < |order| ==> r[k + 1] == s[order[k] + 1]
  {
    [s[0]] + Select(s[1..], order)
  }

  /** `Select` applied to a list that may be absent. */
  function SelectIfPresent<T>(s: Option<seq<T>>, order: seq<int>): (r: Option<seq<T>>)
    requires s.Some? ==> Fits(s.value, order)
    ensures r.Some? == s.Some?
    ensures r.Some? ==> |r.value| == |order| && forall k :: 0 <= k < |order| ==> r.value[k] == s.value[order[k]]
  {
    match s
    case None => None
    case Some(v) => Some(Select(v, order))
  }

  /** The per-loop lists `sort_loops` rewrites; `pointed` is the cached
      `pointed_loops`, if any. `points[0]` and `qpoints[0]` belong to the
      basepoint, entry `i + 1` to loop `i`. */
  datatype Lists = Lists(points: seq<Complex>, qpoints: seq<Complex>, loops: seq<seq<int>>,
                         paths: seq<seq<int>>, pointed: Option<seq<seq<int>>>)

  /** Every list is long enough for `order`. */
  predicate FitsAll(l: Lists, order: seq<int>)
  {
    && |l.points| > 0 && Below(order, |l.points| - 1)
    && |l.qpoints| > 0 && Below(order, |l.qpoints| - 1)
    && Fits(l.loops, order) && Fits(l.paths, order)
    && (l.pointed.Some? ==> Fits(l.pointed.value, order))
  }

  /** The assignments of `sort_loops`: points and qpoints keep the
      basepoint first and take entry `order[k] + 1` at position `k + 1`
      (`[l[0]] + [l[i+1] for i in order]`); loops, paths and a cached
      `pointed_loops` take entry `order[k]` at position `k`. Any index
      past the end of its list raises IndexError. Where each entry lands
      is `ReorderEntries`. */
  function Reorder(l: Lists, order: seq<int>): (r: Result<Lists>)
    ensures r.Ok? <==> FitsAll(l, order)
    ensures r.Err? ==> r.error == IndexError
    ensures r.Ok? ==> |r.value.points| == |r.value.qpoints| == |order| + 1
    ensures r.Ok? ==> |r.value.loops| == |r.value.paths| == |order|
    ensures r.Ok? ==> r.value.pointed.Some? == l.pointed.Some?
    ensures r.Ok? && l.pointed.Some? ==> |r.value.pointed.value| == |order|
  {
    if !FitsAll(l, order) then Err(IndexError)
    else
      Ok(Lists(KeepFirst(l.points, order), KeepFirst(l.qpoints, order),
               Select(l.loops, order), Select(l.paths, order), SelectIfPresent(l.pointed, order)))
  }

  /** After a successful reordering the basepoint entries of `points`
      and `qpoints` stay first, and position `k + 1` holds the old entry
      `order[k] + 1`. */
  lemma ReorderPoints(l: Lists, order: seq<int>)
    requires FitsAll(l, order)
    ensures var r := Reorder(l, order).value;
      && r.points[0] == l.points[0] && r.qpoints[0] == l.qpoints[0]
      && forall k :: 0 <= k < |order| ==>
        r.points[k + 1] == l.points[order[k] + 1] && r.qpoints[k + 1] == l.qpoints[order[k] + 1]
  {
  }

  /** Loops and paths hold at position `k` the old entry `order[k]`. */
  lemma ReorderLoops(l: Lists, order: seq<int>)
    requires FitsAll(l, order)
    ensures var r := Reorder(l, order).value;
      forall k :: 0 <= k < |order| ==> r.loops[k] == l.loops[order[k]] && r.paths[k] == l.paths[order[k]]
  {
  }

  /** Cached pointed loops move in lockstep with the loops. */
  lemma ReorderPointed(l: Lists, order: seq<int>)
    requires FitsAll(l, order) && l.pointed.Some?
    ensures var r := Reorder(l, order).value;
      forall k :: 0 <= k < |order| ==> r.pointed.value[k] == l.pointed.value[order[k]]
  {
  }

  /** `sort_loops`: the depth-first walk from vertex 0 over the minimal
      tree of the paths, then the lockstep reordering; returns the order
      with the rewritten lists. */
  function SortLoops(l: Lists, nbrs: int -> seq<int>,
                     ghost depth: int -> nat, ghost up: int -> int, ghost bound: nat): (r: Result<(seq<nat>, Lists)>)
    requires Rooted(MinimalTree(l.paths), depth, up, bound) && depth(0) == 0
    requires forall u :: Distinct(nbrs(u))
    ensures r.Ok? ==> Distinct(r.value.0)
    ensures r.Ok? ==> forall k :: 0 <= k < |r.value.0| ==> r.value.0[k] < |l.loops|
    ensures r.Ok? ==> Reorder(l, r.value.0) == Ok(r.value.1)
  {
    match SortRec(nbrs, MinimalTree(l.paths), l.loops, 0, None, depth, up, bound)
    case Err(e) => Err(e)
    case Ok(order) =>
      match Reorder(l, order)
      case Err(e) => Err(e)
      case Ok(l') => Ok((order, l'))
  }

  // ---------------------------------------------------------------------
  // Every due loop is emitted

  /** `x` hangs below `v` in the tree the walk follows: climbing from `x`
      through parents reaches `v`, and every step down is a tree edge to
      a neighbour. */
  ghost predicate Reaches(nbrs: int -> seq<int>, tree: seq<Edge>, x: int, v: int, depth: int -> nat, up: int -> int)
    requires forall v :: depth(v) > 0 ==> depth(up(v)) + 1 == depth(v)
    decreases depth(x)
  {
    if depth(x) <= depth(v) then x == v
    else Mentions(tree, Edge(up(x), x)) && x in nbrs(up(x)) && Reaches(nbrs, tree, up(x), v, depth, up)
  }

  /** Loop `i` is due from `v`: its anchor hangs below `v` and it leaves
      the anchor towards a neighbour. */
  ghost predicate Due(nbrs: int -> seq<int>, tree: seq<Edge>, loops: seq<seq<int>>, i: int, v: int,
                      depth: int -> nat, up: int -> int)
    requires forall v :: depth(v) > 0 ==> depth(up(v)) + 1 == depth(v)
  {
    && 0 <= i < |loops| && |loops[i]| > 1
    && Reaches(nbrs, tree, loops[i][0], v, depth, up)
    && loops[i][1] in nbrs(loops[i][0])
  }

  /** Loop `i`, due from `v`, is reached through one of `ns`: it is
      anchored at `v` and leaves towards one of `ns`, or the child of `v`
      above its anchor is one of `ns`. */
  ghost predicate DueVia(nbrs: int -> seq<int>, tree: seq<Edge>, loops: seq<seq<int>>, i: int, v: int, ns: seq<int>,
                         depth: int -> nat, up: int -> int)
    requires forall v :: depth(v) > 0 ==> depth(up(v)) + 1 == depth(v)
  {
    && Due(nbrs, tree, loops, i, v, depth, up)
    && (if loops[i][0] == v then loops[i][1] in ns else AncestorAt(loops[i][0], depth(v) + 1, depth, up) in ns)
  }

  /** A vertex other than `v` that hangs below `v` does so through the
      child of `v` above it, which is a tree neighbour of `v`. */
  lemma {:induction false} ReachesChild(nbrs: int -> seq<int>, tree: seq<Edge>, x: int, v: int,
                                        depth: int -> nat, up: int -> int)
    requires forall v :: depth(v) > 0 ==> depth(up(v)) + 1 == depth(v)
    requires Reaches(nbrs, tree, x, v, depth, up) && x != v
    ensures var c := AncestorAt(x, depth(v) + 1, depth, up);
      && depth(c) == depth(v) + 1 && up(c) == v
      && Mentions(tree, Edge(v, c)) && c in nbrs(v)
      && Reaches(nbrs, tree, x, c, depth, up)
    decreases depth(x)
  {
    var d := depth(v);
    if depth(x) == d + 1 {
      assert up(x) == v;
    } else {
      ReachesChild(nbrs, tree, up(x), v, depth, up);
    }
  }

  /** Every loop anchored at `v` is listed, with its second vertex. */
  lemma {:induction false} LoopsAtComplete(loops: seq<seq<int>>, v: int)
    requires LoopsAt(loops, v).Ok?
    ensures forall i :: 0 <= i < |loops| && loops[i][0] == v ==> (i, loops[i][1]) in LoopsAt(loops, v).value
  {
    forall i | 0 <= i < |loops| && loops[i][0] == v
      ensures (i, loops[i][1]) in LoopsAt(loops, v).value
    {
      LoopsAtIndex(loops, v, i);
    }
  }

  /** The loop at index `i`, when anchored at `v`, is listed. */
  lemma {:induction false} LoopsAtIndex(loops: seq<seq<int>>, v: int, i: nat)
    requires LoopsAt(loops, v).Ok? && i < |loops| && loops[i][0] == v
    ensures (i, loops[i][1]) in LoopsAt(loops, v).value
  {
    var n := |loops| - 1;
    LoopsAtLast(loops, v);
    if i < n {
      assert loops[..n][i] == loops[i];
      LoopsAtIndex(loops[..n], v, i);
    }
  }

  /** The loops anchored at `v` are those among all but the last loop,
      followed by the last loop if it is anchored at `v`. */
  lemma LoopsAtLast(loops: seq<seq<int>>, v: int)
    requires |loops| > 0 && LoopsAt(loops, v).Ok?
    ensures var n := |loops| - 1;
      && LoopsAt(loops[..n], v).Ok?
      && LoopsAt(loops, v).value
         == LoopsAt(loops[..n], v).value + (if loops[n][0] == v then [(n, loops[n][1])] else [])
  {
    var n := |loops| - 1;
    assert forall i :: 0 <= i < n ==> loops[..n][i] == loops[i];
  }

  /** Every listed loop leaving towards `child` is selected. */
  lemma {:induction false} TowardsComplete(loops: seq<seq<int>>, here: seq<(nat, int)>, v: int, child: int)
    requires AnchoredAt(loops, here, v)
    ensures forall k :: 0 <= k < |here| && here[k].1 == child ==> here[k].0 in Towards(loops, here, v, child)
  {
    if |here| > 0 {
      var n := |here| - 1;
      TowardsComplete(loops, here[..n], v, child);
      assert forall j :: 0 <= j < n ==> here[..n][j] == here[j];
    }
  }

  /** `_sort_loops_rec(v, parent)` emits every loop due from `v`. */
  lemma {:induction false} SortRecComplete(nbrs: int -> seq<int>, tree: seq<Edge>, loops: seq<seq<int>>, v: int,
                                           parent: Option<int>, depth: int -> nat, up: int -> int, bound: nat)
    requires Rooted(tree, depth, up, bound) && ParentOk(v, parent, depth, up)
    requires forall u :: Distinct(nbrs(u))
    ensures var r := SortRec(nbrs, tree, loops, v, parent, depth, up, bound);
      r.Ok? ==> forall i :: Due(nbrs, tree, loops, i, v, depth, up) ==> i in r.value
    decreases bound - depth(v), |nbrs(v)| + 1
  {
    var lr := LoopsAt(loops, v);
    if lr.Ok? {
      var here := lr.value;
      LoopsAtComplete(loops, v);
      var ns := nbrs(v);
      var order := ns;
      if parent.Some? {
        var found := IndexOf(ns, parent.value);
        if found.Some? {
          DistinctRotate(ns, found.value);
          MultisetRotate(ns, found.value);
          order := Rotate(ns, found.value);
        }
      }
      if parent.None? || IndexOf(ns, parent.value).Some? {
        assert Distinct(order) && |order| <= |ns|;
        SortChildrenComplete(nbrs, tree, loops, v, parent, order, here, depth, up, bound);
        assert SortRec(nbrs, tree, loops, v, parent, depth, up, bound)
               == SortChildren(nbrs, tree, loops, v, parent, order, here, depth, up, bound);
        forall i | Due(nbrs, tree, loops, i, v, depth, up)
          ensures DueVia(nbrs, tree, loops, i, v, order, depth, up)
        {
          var x := loops[i][0];
          if x != v {
            ReachesChild(nbrs, tree, x, v, depth, up);
          }
          assert multiset(order) == multiset(ns);
        }
      }
    }
  }

  /** The `for child in neighbours` loop over `ns` emits every loop due
      from `v` through one of `ns`. */
  lemma {:induction false} SortChildrenComplete(nbrs: int -> seq<int>, tree: seq<Edge>, loops: seq<seq<int>>, v: int,
                                                parent: Option<int>, ns: seq<int>, here: seq<(nat, int)>,
                                                depth: int -> nat, up: int -> int, bound: nat)
    requires Rooted(tree, depth, up, bound) && ParentOk(v, parent, depth, up)
    requires forall u :: Distinct(nbrs(u))
    requires Distinct(ns) && |ns| <= |nbrs(v)|
    requires AnchoredAt(loops, here, v)
    requires forall i :: 0 <= i < |loops| && |loops[i]| > 1 && loops[i][0] == v ==> (i, loops[i][1]) in here
    ensures var r := SortChildren(nbrs, tree, loops, v, parent, ns, here, depth, up, bound);
      r.Ok? ==> forall i :: DueVia(nbrs, tree, loops, i, v, ns, depth, up) ==> i in r.value
    decreases bound - depth(v), |ns|
  {
    if |ns| > 0 {
      var child := ns[0];
      var takes := parent != Some(child) && Mentions(tree, Edge(v, child));
      if takes {
        ChildDeeper(tree, v, parent, child, depth, up, bound);
        SortRecComplete(nbrs, tree, loops, child, Some(v), depth, up, bound);
      }
      SortChildrenComplete(nbrs, tree, loops, v, parent, ns[1..], here, depth, up, bound);
      TowardsComplete(loops, here, v, child);
      var r := SortChildren(nbrs, tree, loops, v, parent, ns, here, depth, up, bound);
      if r.Ok? {
        var below := if takes then SortRec(nbrs, tree, loops, child, Some(v), depth, up, bound) else Ok([]);
        var rest := SortChildren(nbrs, tree, loops, v, parent, ns[1..], here, depth, up, bound);
        var mine := Towards(loops, here, v, child);
        assert below.Ok? && rest.Ok? && r.value == below.value + mine + rest.value;
        forall i | DueVia(nbrs, tree, loops, i, v, ns, depth, up)
          ensures i in r.value
        {
          var x := loops[i][0];
          if x == v {
            if loops[i][1] == child {
              var k :| 0 <= k < |here| && here[k] == (i, loops[i][1]);
              assert i in mine;
            } else {
              assert DueVia(nbrs, tree, loops, i, v, ns[1..], depth, up);
            }
          } else {
            ReachesChild(nbrs, tree, x, v, depth, up);
            var c := AncestorAt(x, depth(v) + 1, depth, up);
            if c == child {
              assert takes;
              assert Due(nbrs, tree, loops, i, child, depth, up);
            } else {
              assert DueVia(nbrs, tree, loops, i, v, ns[1..], depth, up);
            }
          }
        }
      }
    }
  }

  /** A list without repeats of numbers below `n` that contains each of
      them has exactly `n` entries. */
  lemma {:induction false} CoveringLength(s: seq<int>, n: nat)
    requires Distinct(s) && Below(s, n)
    requires forall x :: 0 <= x < n ==> x in s
    ensures |s| == n
    decreases n
  {
    if n == 0 {
      BelowNothing(s, n);
    } else {
      assert n - 1 in s;
      var j :| 0 <= j < |s| && s[j] == n - 1;
      CoveringRemove(s, n, j);
      CoveringLength(s[..j] + s[j + 1..], n - 1);
    }
  }

  /** Nothing is below zero. */
  lemma BelowNothing(s: seq<int>, n: int)
    requires Below(s, n)
    ensures |s| == 0 || n > 0
  {
    if |s| > 0 {
      assert 0 <= s[0] < n;
    }
  }

  /** Taking the largest number out of such a list leaves one for
      `n - 1`. */
  lemma CoveringRemove(s: seq<int>, n: nat, j: int)
    requires Distinct(s) && Below(s, n)
    requires forall x :: 0 <= x < n ==> x in s
    requires 0 <= j < |s| && s[j] == n - 1
    ensures var t := s[..j] + s[j + 1..];
      && Distinct(t) && Below(t, n - 1) && (forall x :: 0 <= x < n - 1 ==> x in t)
  {
    var t := s[..j] + s[j + 1..];
    forall k | 0 <= k < |t|
      ensures t[k] == s[if k < j then k else k + 1]
    {
    }
    forall x | 0 <= x < n - 1
      ensures x in t
    {
      assert x in s;
      var i :| 0 <= i < |s| && s[i] == x;
      assert i != j;
      assert t[if i < j then i else i - 1] == x;
    }
  }

  /** `sort_loops` emits every loop whose anchor hangs below vertex 0 and
      which leaves it towards a neighbour; when every loop is such, the
      order is a permutation of the loop indices. */
  lemma SortLoopsComplete(l: Lists, nbrs: int -> seq<int>, depth: int -> nat, up: int -> int, bound: nat)
    requires Rooted(MinimalTree(l.paths), depth, up, bound) && depth(0) == 0
    requires forall u :: Distinct(nbrs(u))
    ensures var r := SortLoops(l, nbrs, depth, up, bound);
      r.Ok? ==> forall i :: Due(nbrs, MinimalTree(l.paths), l.loops, i, 0, depth, up) ==> i in r.value.0
    ensures var r := SortLoops(l, nbrs, depth, up, bound);
      r.Ok? && (forall i :: 0 <= i < |l.loops| ==> Due(nbrs, MinimalTree(l.paths), l.loops, i, 0, depth, up)) ==>
        |r.value.0| == |l.loops| && IsPermutation(r.value.0)
  {
    var tree := MinimalTree(l.paths);
    SortRecComplete(nbrs, tree, l.loops, 0, None, depth, up, bound);
    var r := SortLoops(l, nbrs, depth, up, bound);
    if r.Ok? && (forall i :: 0 <= i < |l.loops| ==> Due(nbrs, tree, l.loops, i, 0, depth, up)) {
      var order := r.value.0;
      CoveringLength(order, |l.loops|);
    }
  }

  /** Reordering by a permutation and then by its inverse restores the
      list. */
  lemma ReorderInverse<T>(s: seq<T>, order: seq<int>)
    requires IsPermutation(order) && |s| == |order|
    ensures Fits(s, order)
    ensures InvertPermutation(order).Ok? && Fits(Select(s, order), InvertPermutation(order).value)
    ensures Select(Select(s, order), InvertPermutation(order).value) == s
  {
    var inv := InvertPermutation(order).value;
    var t := Select(s, order);
    assert Fits(t, inv);
    var back := Select(t, inv);
    forall x | 0 <= x < |s|
      ensures back[x] == s[x]
    {
      assert order[inv[x]] == x;
    }
  }

  /** Recomputing the pointed loops from the reordered paths and loops
      gives the cached pointed loops in the new order, so reordering a
      cached `pointed_loops` in lockstep keeps it consistent. */
  lemma PointedLoopsReordered(npoints: int, paths: seq<seq<int>>, loops: seq<seq<int>>, order: seq<int>)
    requires npoints >= 1 && IsPermutation(order) && |order| == npoints - 1
    requires |paths| >= npoints - 1 && |loops| >= npoints - 1
    ensures PointedLoops(npoints, paths, loops).Ok?
    ensures Fits(paths, order) && Fits(loops, order) && Fits(PointedLoops(npoints, paths, loops).value, order)
    ensures PointedLoops(npoints, Select(paths, order), Select(loops, order))
            == Ok(Select(PointedLoops(npoints, paths, loops).value, order))
  {
    var before := PointedLoops(npoints, paths, loops).value;
    assert Fits(before, order);
    var np := PointedLoops(npoints, Select(paths, order), Select(loops, order)).value;
    var po := Select(before, order);
    forall k | 0 <= k < |order|
      ensures np[k] == po[k]
    {
      var i := order[k];
      var p, l := Select(paths, order)[k], Select(loops, order)[k];
      assert p == paths[i] && l == loops[i];
      assert np[k] == PointedLoop(p, l);
      assert po[k] == before[i] == PointedLoop(paths[i], loops[i]);
    }
    assert |np| == |po|;
    assert np == po;
  }
}
